=== FILE: README.md ===
# Darkroom core, modelled in Dafny

This project models the core logic of the Darkroom photo editor as pure Dafny functions and proves properties of them. The model covers:

- **The AI processing queue** (`ProcessingQueue`, `processing_queue.dfy`). It is an event-driven state machine over:
  - a FIFO of pending jobs;
  - the active jobs, each with its cancellation token;
  - a registry of capability-tagged runners, kept in registration order;
  - a concurrency limit and an active counter.

  A runner's execution is opaque. Its progress reports, its return and its throw arrive as inputs.
- **The preset store** (`PresetManager`, `preset_manager.dfy`). It is a cache in front of an abstract JSON file whose write may fail.
- **Three undo/redo histories**:
  - the bounded `HistoryManager`;
  - the stroke history of the `useBrush` hook;
  - the action history of `EditorProvider`.
- **The layer stack** (`LayerManager`) and **the rectangle selection** (`SelectionManager`).
- **Two keyboard dispatchers**. `useKeyboard` fires at most one action per keystroke. `useKeyboardShortcuts` runs independent tests.
- **RAW file classification** in two places:
  - the frontend import panel, which matches a regular expression and then searches a table of makes;
  - the backend import endpoint, which looks the path suffix up in its own table.
- **The backend's pixel-free arithmetic**: the crop rectangle clamping, the hex colour parsing and the point pairing of a brush stroke.
- **The backend's storage and database URL configuration**, derived from environment variables.

Shared pieces:
- `wrappers.dfy` holds `Option` and `Result`.
- `strings.dfy` holds the case mapping of the characters whose case partner is an ASCII letter, and prefix, suffix and substring tests.
- `ordered_map.dfy` models the insertion-ordered JavaScript `Map`. The runner registry and the preset cache use it.

Where the description of the system and its code disagree, the model follows the code:
- **Head-of-line blocking.** When the head of the pending queue has no capable runner, `_tick` puts it back at the front and stops the pass. No later job overtakes it, even one with an idle runner (`ProcessingQueue.HeadOfLineBlocksLaterJob`).
- **Cancelling does not reschedule.** Cancelling that blocked head runs no scheduling pass (`ProcessingQueue.CancelDoesNotReschedule`).
- **The preset cache can run ahead of the file.** `savePreset` and `deletePreset` change the cached map before writing it. A failed write therefore leaves the cache ahead of the file (`PresetManager.FailedSaveLeavesCacheAhead`).
- **Cancellation precedence applies only on a normal return.** A runner that throws after its token was cancelled leaves the job `failed` (`ProcessingQueue.ThrowAfterCancelFails`).

## Model

| member | source | states |
|---|---|---|
| ProcessingQueue.CancelToken | src/services/ai/processing-queue.ts:58-61 | cancelling sets the flag and makes the given reason the token's reason |
| ProcessingQueue.CancelLatches | src/services/ai/processing-queue.ts:54-70 | after any sequence of `cancel` calls the flag is set exactly when it was set before or some call was made, and the reason is the last one written |
| ProcessingQueue.ClampConcurrency | src/services/ai/processing-queue.ts:112-116 | the limit, a JavaScript number that may be fractional, is at least 1, equals `n` when `n >= 1` and is 1 otherwise |
| ProcessingQueue.BelowLimitIffBelowCapacity | src/services/ai/processing-queue.ts:199 | the loop test `activeCount < concurrency` holds exactly when the counter is below the ceiling of the limit, so a fractional limit admits its ceiling |
| ProcessingQueue.WholeLimitIsItsCapacity | src/services/ai/processing-queue.ts:199 | a whole-number limit admits exactly that many jobs |
| ProcessingQueue.CapacityMonotone | src/services/ai/processing-queue.ts:115-118 | raising the limit never admits fewer jobs |
| ProcessingQueue.NewQueue | src/services/ai/processing-queue.ts:110-113 | a new queue satisfies the invariant, is empty, has no runners and no finished jobs, and has the clamped limit |
| ProcessingQueue.FindRunner | src/services/ai/processing-queue.ts:188-193 | the answer is absent exactly when no registered runner lists the job type; otherwise it is a registered runner that lists it |
| ProcessingQueue.FirstCapable | src/services/ai/processing-queue.ts:189-190 | the position found is the first registered runner whose capabilities include the type |
| ProcessingQueue.FindRunnerAppend | src/services/ai/processing-queue.ts:188-193 | the runner chosen from two registries in sequence is the first one's choice, or failing that the second one's |
| ProcessingQueue.ListJobs | src/services/ai/processing-queue.ts:158-160 | the list is every pending job in queue order, followed by every active job in start order |
| ProcessingQueue.GetJob | src/services/ai/processing-queue.ts:162-167 | a job is found exactly when a pending or active job carries the id, and the job found is a listed job with that id |
| ProcessingQueue.Tick | src/services/ai/processing-queue.ts:195-214 | a pass starts a prefix of the pending queue, never starts one while the counter is at the limit, stops only at the limit, on an empty queue or at a head with no capable runner, and keeps earlier active jobs and log entries |
| ProcessingQueue.TickStartsInOrder | src/services/ai/processing-queue.ts:199-224 | each job a pass starts is the next pending job, now `running` with progress 0 and an uncancelled token, on the first runner capable of it |
| ProcessingQueue.HeadStarted | src/services/ai/processing-queue.ts:200-224 | starting the head job appends it to the active jobs, running on the chosen runner |
| ProcessingQueue.StartHeadPreservesInv | src/services/ai/processing-queue.ts:200-224 | moving the head from pending to active keeps the ids distinct and the two sets disjoint |
| ProcessingQueue.TickPreservesInv | src/services/ai/processing-queue.ts:195-214 | a scheduling pass keeps the queue invariant |
| ProcessingQueue.TickFillsFreeSlots | src/services/ai/processing-queue.ts:199-214 | when every pending job has a capable runner, a pass starts as many of them as the limit leaves room for, and no more |
| ProcessingQueue.HeadStartsIfRoom | src/services/ai/processing-queue.ts:199-224 | a pass below the limit whose head job has a capable runner starts that job first |
| ProcessingQueue.LastStarted | src/services/ai/processing-queue.ts:199-224 | a pass that empties the pending queue has started its tail job, on the first runner able to run it |
| ProcessingQueue.FindNewlyCapable | src/services/ai/processing-queue.ts:188-193 | a runner registered for a type no registered runner could run is the one found for that type |
| ProcessingQueue.Enqueue | src/services/ai/processing-queue.ts:136-156 | the new job is logged `queued` with progress 0 and options defaulting to an empty map; the job returned is the live record after the pass, `running` on the first capable runner exactly when the pass emptied pending, otherwise still `queued` at the tail; the jobs left waiting before it are a tail of the old queue in arrival order; the pass stops only at the limit, on an empty queue or at a head no runner can run; no earlier active job is disturbed |
| ProcessingQueue.QueueJob | src/services/ai/processing-queue.ts:152-154 | after the push and the pass, the waiting jobs are a tail of the old queue followed by the new job, the `queued` record follows the old log, and the running jobs keep their order |
| ProcessingQueue.QueueJobStartsLast | src/services/ai/processing-queue.ts:152-154 | when the pass leaves nothing waiting, the new job is the last one started, on the first runner able to run it |
| ProcessingQueue.EnqueueStartsWhenFree | src/services/ai/processing-queue.ts:150-156 | with room below the limit for every waiting job and the new one, and a runner for each, the returned job is already `running` |
| ProcessingQueue.EnqueueWaits | src/services/ai/processing-queue.ts:150-156 | with the counter at the limit, or no runner able to run the job, the returned job is still `queued` |
| ProcessingQueue.ClampProgress | src/services/ai/processing-queue.ts:226-230 | the stored percentage is in [0, 100] and is the floor of the report inside that range |
| ProcessingQueue.Progress | src/services/ai/processing-queue.ts:226-230 | a report on an active job stores the clamped percentage in that job only and is logged; a report after the job finished still rewrites the finished record and is still logged; a report for a job never started changes nothing |
| ProcessingQueue.FailureMessage | src/services/ai/processing-queue.ts:248 | the failure message is never empty and is the runner's message whenever that one is non-empty |
| ProcessingQueue.Settle | src/services/ai/processing-queue.ts:232-256 | the outcome precedence: a throw fails the job; on a return a cancelled token gives `cancelled`; otherwise success completes the job with progress 100 and the new output path if one is given; otherwise the job fails with the error text |
| ProcessingQueue.Release | src/services/ai/processing-queue.ts:257-259 | the finished job leaves the active set, its settled record stays reachable from its progress callback, the counter drops by one but not below zero, and the terminal notification is logged |
| ProcessingQueue.Finish | src/services/ai/processing-queue.ts:257-261 | a runner's end releases the job and then runs a scheduling pass; an end for a job that is not active changes nothing |
| ProcessingQueue.Cancel | src/services/ai/processing-queue.ts:169-186 | a pending job is removed and logged `cancelled` with progress 0; otherwise an active job only has its token cancelled with `user_cancelled`; otherwise nothing changes; the answer says whether the job was found |
| ProcessingQueue.SetConcurrency | src/services/ai/processing-queue.ts:115-118 | the limit becomes `max(1, n)`, no running job is dropped, and the pass that follows starts waiting jobs from the head while the counter is below the new limit, stopping only at the limit, on an empty queue or at a head no runner can run |
| ProcessingQueue.SetConcurrencyStartsWaiting | src/services/ai/processing-queue.ts:115-118 | with a runner for every waiting job, a new limit starts them in queue order, each on its first capable runner, until the new limit is reached |
| ProcessingQueue.FractionalLimitRunsTwo | src/services/ai/processing-queue.ts:115-118 | with a limit of 1.5, a second job starts beside a running one |
| ProcessingQueue.AddRunner | src/services/ai/processing-queue.ts:120-124 | the registry is the old one after `set`, so a known id keeps its place and a new one goes last; the id maps to the new runner, every other id is unchanged, the registration is logged, and the pass that follows starts waiting jobs from the head, stopping only at the limit, on an empty queue or at a head no runner can run |
| ProcessingQueue.AddRunnerStartsBlockedHead | src/services/ai/processing-queue.ts:120-124 | registering a runner for a head job that no runner could run starts that job on the new runner when the limit has room |
| ProcessingQueue.RemoveRunner | src/services/ai/processing-queue.ts:126-134 | an unknown id changes nothing; otherwise the registry is the old one after `delete`, so the other runners keep their order; the log gains the hook call when the runner has a hook, then `runner-removed`, and nothing else; the pending and active jobs are untouched |
| ProcessingQueue.AddNewRunnerGoesLast | src/services/ai/processing-queue.ts:120-124 | a runner under a new id is tried last: a job type keeps the runner it had, and otherwise goes to the newcomer if it is capable |
| ProcessingQueue.AddKnownRunnerKeepsPlace | src/services/ai/processing-queue.ts:120-124 | a runner re-registered under a known id is tried in the old one's place, after the runners registered before it and before those registered after it |
| ProcessingQueue.RemoveRunnerClosesGap | src/services/ai/processing-queue.ts:126-134 | after a removal the runners registered before it are tried first and then those registered after it |
| ProcessingQueue.RemoveOtherRunnerKeepsChoice | src/services/ai/processing-queue.ts:126-134 | removing a runner other than the one a job type goes to leaves that choice unchanged |
| ProcessingQueue.ShutdownCancelled | src/services/ai/processing-queue.ts:265-270 | shutdown logs each pending job, in order, as `cancelled` with its progress kept |
| ProcessingQueue.ShutdownHooks | src/services/ai/processing-queue.ts:276-284 | every runner that has a shutdown hook has it called, and none is called when no runner has one |
| ProcessingQueue.HookedIndices | src/services/ai/processing-queue.ts:276-277 | the runners with a shutdown hook, listed once each in registration order |
| ProcessingQueue.ShutdownHooksAppend | src/services/ai/processing-queue.ts:276-284 | the hooks of two runner lists are called one list after the other |
| ProcessingQueue.ShutdownHooksFollowRegistration | src/services/ai/processing-queue.ts:276-284 | the hook calls are exactly one per hooked runner, the k-th call being the k-th hooked runner's in registration order |
| ProcessingQueue.CancelAllTokens | src/services/ai/processing-queue.ts:272-274 | every active token is cancelled with reason `shutdown`, and the jobs are kept |
| ProcessingQueue.Shutdown | src/services/ai/processing-queue.ts:264-285 | pending is emptied with every job logged `cancelled`; the active jobs stay, with their tokens cancelled for `shutdown`; after the cancellations come the runners' hook calls and nothing else |
| ProcessingQueue.ShutdownCallsHooksInOrder | src/services/ai/processing-queue.ts:276-284 | after the cancelled jobs the log holds one hook call per hooked runner, in registration order, and ends there |
| ProcessingQueue.ReleasePreservesInv | src/services/ai/processing-queue.ts:257-259 | releasing an active job keeps the invariant |
| ProcessingQueue.CancelPendingPreservesInv | src/services/ai/processing-queue.ts:170-177 | cancelling a pending job keeps the invariant |
| ProcessingQueue.CancelActivePreservesInv | src/services/ai/processing-queue.ts:180-184 | cancelling an active job's token keeps the invariant |
| ProcessingQueue.CancelPreservesInv | src/services/ai/processing-queue.ts:169-186 | `cancel` keeps the invariant |
| ProcessingQueue.AppendPendingPreservesInv | src/services/ai/processing-queue.ts:152 | appending a job with a fresh id to pending keeps the invariant |
| ProcessingQueue.EnqueuePreservesInv | src/services/ai/processing-queue.ts:136-156 | enqueueing a job with a fresh id keeps the invariant |
| ProcessingQueue.FinishPreservesInv | src/services/ai/processing-queue.ts:257-261 | a runner's end keeps the invariant |
| ProcessingQueue.ProgressPreservesInv | src/services/ai/processing-queue.ts:226-230 | a progress report keeps the invariant |
| ProcessingQueue.RegisterPreservesInv | src/services/ai/processing-queue.ts:120-124 | registering a runner keeps the invariant |
| ProcessingQueue.AddRunnerKeepsRegistry | src/services/ai/processing-queue.ts:121 | registering keeps the runner ids unique and each entry keyed by its runner's id |
| ProcessingQueue.StepPreservesInv | src/services/ai/processing-queue.ts:110-285 | every input keeps the pending and active ids distinct, the two sets disjoint and the counter equal to the number of active jobs |
| ProcessingQueue.TickWithinLimit | src/services/ai/processing-queue.ts:199 | a pass starts a job only while the counter is below the limit, so a counter within the limit's ceiling stays within it |
| ProcessingQueue.StepWithinLimit | src/services/ai/processing-queue.ts:110-285 | every input except lowering the limit keeps the counter within the ceiling of the limit, which is the limit itself when it is a whole number |
| ProcessingQueue.FinishLogsSettledJob | src/services/ai/processing-queue.ts:232-261 | after a runner's end the next log entry is the job's terminal notification, as decided by the outcome precedence |
| ProcessingQueue.ThrowAfterCancelFails | src/services/ai/processing-queue.ts:252-256 | a runner that throws after the job was cancelled leaves it `failed` with the thrown message |
| ProcessingQueue.CancelThenReturnIsCancelled | src/services/ai/processing-queue.ts:232-238 | a runner that returns after the job was cancelled leaves it `cancelled`, even on success, with its progress unchanged |
| ProcessingQueue.CancelledPendingIsGone | src/services/ai/processing-queue.ts:170-177 | a cancelled pending job is neither pending nor active afterwards |
| ProcessingQueue.RemovedRunnerJobStillFinishes | src/services/ai/processing-queue.ts:126-134 | removing a runner does not stop the jobs it runs from finishing and being reported |
| ProcessingQueue.LateReportRewritesProgress | src/services/ai/processing-queue.ts:226-261 | a progress report after the runner returned success still overwrites the completed job's 100 and is still logged |
| ProcessingQueue.HeadOfLineBlocksLaterJob | src/services/ai/processing-queue.ts:199-205 | a head job with no capable runner blocks the pass, even when the job behind it could start |
| ProcessingQueue.CancelDoesNotReschedule | src/services/ai/processing-queue.ts:169-178 | cancelling the blocked head leaves the startable job queued until another pass runs |
| ProcessingQueue.NextJobWaitsForRunningOne | src/services/ai/processing-queue.ts:199-261 | with limit 1 the next job waits while one runs, and the pass after that job finishes starts it |
| ProcessingQueue.LoweringLimitKeepsJobsRunning | src/services/ai/processing-queue.ts:115-118 | lowering the limit does not preempt, so more jobs than the limit can be active |
| OrderedMap.Get | src/services/ai/processing-queue.ts:361-364 | `get` finds a value exactly when the key is present, and that value is the one stored under the key |
| OrderedMap.Set | src/services/ai/processing-queue.ts:348-356 | after `set` the key reads as the new value and every other key is unchanged; an existing key keeps its place and a new key goes last |
| OrderedMap.Delete | src/services/ai/processing-queue.ts:371-376 | after `delete` the key is absent, every other key is unchanged, the size drops by one exactly when the key was present, and the remaining entries keep their insertion order |
| OrderedMap.Values | src/services/ai/processing-queue.ts:366-369 | the values are listed in insertion order |
| PresetManager.DiskView | src/services/ai/processing-queue.ts:314-331 | a missing file reads as an empty store, and an unreadable or unparsable file is an error |
| PresetManager.ReadAll | src/services/ai/processing-queue.ts:312-332 | a loaded cache is answered without reading the file; otherwise a successful read fills the cache and an error changes nothing |
| PresetManager.Persist | src/services/ai/processing-queue.ts:334-342 | a successful write makes the file hold the cached map; a failed write leaves the file as it was while the cache has already changed |
| PresetManager.SavePreset | src/services/ai/processing-queue.ts:344-359 | an empty name is rejected and a read error is passed on, both leaving the store alone; otherwise the cache maps the name to the new preset, whose `createdAt` is the existing one or `now` for a new name, and every other name is unchanged; a successful write makes the file hold the cache, a failed one leaves the file as it was and fails |
| PresetManager.GetPreset | src/services/ai/processing-queue.ts:361-364 | a lookup succeeds exactly when the read does, and answers the stored preset under that name |
| PresetManager.SortByUpdatedDesc | src/services/ai/processing-queue.ts:368 | the list is sorted by `updatedAt`, most recent first, and is a permutation of its input |
| PresetManager.InsertKeepsTies | src/services/ai/processing-queue.ts:368 | inserting a preset keeps every group of equal `updatedAt` in order and puts the new one first in its group |
| PresetManager.SortIsStable | src/services/ai/processing-queue.ts:368 | presets with the same `updatedAt` keep their input order, as the stable `Array.prototype.sort` does |
| PresetManager.ListPresets | src/services/ai/processing-queue.ts:366-369 | the list holds every stored preset exactly once, most recent first |
| PresetManager.DeletePreset | src/services/ai/processing-queue.ts:371-376 | an absent name answers false and writes nothing; a present name is removed from the cache with every other name unchanged; a successful write answers true and makes the file hold the cache, a failed one leaves the file as it was and fails |
| PresetManager.SaveThenGet | src/services/ai/processing-queue.ts:344-364 | a saved preset is read back unchanged |
| PresetManager.ResaveKeepsCreatedAt | src/services/ai/processing-queue.ts:348-355 | saving the same name again keeps the first `createdAt` and moves `updatedAt` to the later time |
| PresetManager.DeleteMissingChangesNothing | src/services/ai/processing-queue.ts:371-376 | deleting an absent name answers false and leaves the file alone |
| PresetManager.DeleteThenGet | src/services/ai/processing-queue.ts:361-376 | after a successful delete the name reads as absent |
| PresetManager.FailedSaveLeavesCacheAhead | src/services/ai/processing-queue.ts:346-357 | when the write fails, the cache already holds the new preset but the file does not |
| HistoryManager.NewHistory | src/lib/history-manager.ts:8-15 | a new history is empty, with the cursor at -1 |
| HistoryManager.CurrentState | src/lib/history-manager.ts:61-64 | the current state is absent exactly when the cursor is -1, and otherwise is the entry under the cursor |
| HistoryManager.AddState | src/lib/history-manager.ts:17-39 | recording discards the redo tail and appends; the new state is then current and nothing can be redone; when the list outgrows its bound the oldest entry is dropped and the cursor still points at the newest |
| HistoryManager.Undo | src/lib/history-manager.ts:41-53 | undo answers null and changes nothing unless the cursor is above 0; otherwise the cursor moves back one and the entry there is answered |
| HistoryManager.Redo | src/lib/history-manager.ts:45-59 | redo answers null and changes nothing unless the cursor is below the last entry; otherwise the cursor moves forward one and the entry there is answered |
| HistoryManager.Clear | src/lib/history-manager.ts:66-69 | clearing leaves no current state, nothing to undo and nothing to redo |
| HistoryManager.UndoThenRedo | src/lib/history-manager.ts:49-59 | undo followed by redo restores the history and answers the original current state |
| HistoryManager.RedoThenUndo | src/lib/history-manager.ts:49-59 | redo followed by undo restores the history and answers the original current state |
| HistoryManager.AddThenUndo | src/lib/history-manager.ts:17-53 | undo right after recording, within the bound, returns to the previously current state |
| HistoryManager.FirstStateNotUndoable | src/lib/history-manager.ts:41-43 | the first state recorded after clearing cannot be undone |
| HistoryManager.AddAll | src/lib/history-manager.ts:17-39 | recording several states keeps the cursor invariant |
| HistoryManager.AddAllKeepsNewest | src/lib/history-manager.ts:17-39 | recording a run of states from the end keeps the newest `min(length, maxSize)` of them, dropping the oldest, with the cursor on the newest |
| LayerManager.FindIndex | src/lib/layer-manager.ts:35-36 | the index found is the first layer with the id, or -1 when there is none |
| LayerManager.CreateLayer | src/lib/layer-manager.ts:15-33 | a new layer that is visible, unlocked and fully opaque is appended and becomes active |
| LayerManager.DeleteLayer | src/lib/layer-manager.ts:35-49 | an unknown id answers false and changes nothing; otherwise exactly that layer is removed, the others keep their order, and a deleted active layer passes activity to the layer at `max(0, index-1)`, or to none when the stack is empty |
| LayerManager.ActiveLayer | src/lib/layer-manager.ts:55-58 | the active layer is found exactly when a non-empty active id names a layer in the stack |
| LayerManager.SetActiveLayer | src/lib/layer-manager.ts:60-66 | the call succeeds exactly for an existing id, and a failure leaves the active id unchanged |
| LayerManager.SetActiveThenGet | src/lib/layer-manager.ts:55-66 | after a successful selection the active layer is the first layer carrying the id, and the empty id selects nothing |
| LayerManager.ApplyPatch | src/lib/layer-manager.ts:72 | every field present in the update is overwritten and every other field is kept |
| LayerManager.UpdateLayer | src/lib/layer-manager.ts:68-74 | an unknown id answers false and changes nothing; otherwise only the supplied fields of the first matching layer change |
| LayerManager.ToggleVisibility | src/lib/layer-manager.ts:76-82 | only the visibility of the first matching layer flips; an unknown id answers false and changes nothing |
| LayerManager.ToggleLock | src/lib/layer-manager.ts:84-90 | only the lock of the first matching layer flips; an unknown id answers false and changes nothing |
| LayerManager.Swap | src/lib/layer-manager.ts:97-109 | the swap exchanges two positions, keeps the rest, and permutes the stack |
| LayerManager.MoveLayerUp | src/lib/layer-manager.ts:92-101 | the layer swaps with its predecessor exactly when it exists and is not first; the stack stays a permutation and the active id is kept |
| LayerManager.MoveLayerDown | src/lib/layer-manager.ts:103-112 | the layer swaps with its successor exactly when it exists and is not last; the stack stays a permutation and the active id is kept |
| LayerManager.ToggleVisibilityTwice | src/lib/layer-manager.ts:76-82 | toggling visibility twice restores the stack |
| LayerManager.ToggleLockTwice | src/lib/layer-manager.ts:84-90 | toggling the lock twice restores the stack |
| LayerManager.UpThenDown | src/lib/layer-manager.ts:92-112 | moving a layer up and then down restores the order |
| LayerManager.DownThenUp | src/lib/layer-manager.ts:92-112 | moving a layer down and then up restores the order, provided its new predecessor does not share its id |
| LayerManager.DeleteOtherKeepsActive | src/lib/layer-manager.ts:35-49 | deleting a layer that is not active keeps the active layer |
| BrushHistory.StartDrawing | frontend/src/hooks/useBrush.ts:22-31 | a new stroke begins at the point; the eraser paints `#FFFFFF` at opacity 1, and otherwise the current colour and opacity are used |
| BrushHistory.ContinueDrawing | frontend/src/hooks/useBrush.ts:33-40 | a point is appended only while a stroke is in progress |
| BrushHistory.StopDrawing | frontend/src/hooks/useBrush.ts:42-57 | a stroke of fewer than four coordinates is discarded; otherwise it is committed, the redo tail is truncated, and the step points at the new last entry |
| BrushHistory.Undo | frontend/src/hooks/useBrush.ts:59-65 | undo moves back one step and shows that entry, and does nothing at the first step |
| BrushHistory.Redo | frontend/src/hooks/useBrush.ts:67-73 | redo moves forward one step and shows that entry, and does nothing at the last step |
| BrushHistory.Clear | frontend/src/hooks/useBrush.ts:78-83 | clearing leaves no strokes and a history holding only the empty list, at step 0 |
| BrushHistory.PresetSettings | frontend/src/hooks/useBrush.ts:85-100 | each preset's size is positive and its opacity is in (0, 1] |
| BrushHistory.ApplyPreset | frontend/src/hooks/useBrush.ts:85-100 | applying a preset sets its size and opacity and nothing else |
| BrushHistory.StepPreservesInv | frontend/src/hooks/useBrush.ts:16-100 | every transition keeps the step inside the history and the shown strokes equal to the history entry at the step |
| BrushHistory.RunPreservesInv | frontend/src/hooks/useBrush.ts:16-100 | the invariant holds after any sequence of transitions |
| BrushHistory.UndoThenRedo | frontend/src/hooks/useBrush.ts:59-73 | undo followed by redo restores the state |
| BrushHistory.CommitThenUndo | frontend/src/hooks/useBrush.ts:42-65 | undo right after committing a stroke shows the strokes from before it |
| BrushHistory.ClickCommitsNothing | frontend/src/hooks/useBrush.ts:22-46 | a press and release without movement commits nothing |
| BrushHistory.ContinueAllAppends | frontend/src/hooks/useBrush.ts:33-40 | dragging through several points appends their coordinates in order |
| BrushHistory.DragCommitsStroke | frontend/src/hooks/useBrush.ts:22-57 | a press, a drag through at least one more point and a release commit one stroke holding every coordinate, drawn with the settings at the press, one history step further |
| EditorContext.Merge | frontend/src/contexts/EditorContext.tsx:105 | each supplied adjustment overwrites the old value, and each other adjustment is kept |
| EditorContext.UpdateAdjustments | frontend/src/contexts/EditorContext.tsx:102-107 | an update changes the adjustments only |
| EditorContext.ResetAdjustments | frontend/src/contexts/EditorContext.tsx:109-111 | a reset sets every adjustment to 0 except sharpness, which becomes 1, and changes nothing else |
| EditorContext.AddToHistory | frontend/src/contexts/EditorContext.tsx:113-123 | recording drops the entries after the index, appends the action and points at it, so nothing can be redone |
| EditorContext.Undo | frontend/src/contexts/EditorContext.tsx:125-132 | undo moves back one only above the first entry, so the index never returns to -1 |
| EditorContext.Redo | frontend/src/contexts/EditorContext.tsx:134-141 | redo moves forward one only below the last entry |
| EditorContext.ApplySetter | frontend/src/contexts/EditorContext.tsx:90-148 | each setter replaces exactly its own field |
| EditorContext.SettersCommute | frontend/src/contexts/EditorContext.tsx:90-148 | setters of different fields commute, and for the same field the last one wins |
| EditorContext.UpdateAdjustmentsIdempotent | frontend/src/contexts/EditorContext.tsx:102-107 | an empty update changes nothing, and an update applied twice equals the update applied once |
| EditorContext.ResetAfterUpdate | frontend/src/contexts/EditorContext.tsx:102-111 | a reset forgets every earlier update and restores the defaults |
| EditorContext.UndoThenRedo | frontend/src/contexts/EditorContext.tsx:125-141 | undo followed by redo restores the state |
| EditorContext.AddThenUndo | frontend/src/contexts/EditorContext.tsx:113-132 | undo right after recording returns to the previously current action |
| EditorContext.UndoN | frontend/src/contexts/EditorContext.tsx:125-132 | repeated undo keeps the history and the index invariant |
| EditorContext.UndoNeverEmptiesIndex | frontend/src/contexts/EditorContext.tsx:125-143 | undoing any number of times stops at the first entry |
| SelectionManager.SetSelectionType | src/lib/tools/selection-manager.ts:14-20 | the type set is the type read back, and the points are untouched |
| SelectionManager.StartSelection | src/lib/tools/selection-manager.ts:22-26 | starting sets both points to the press point and marks a drag in progress |
| SelectionManager.UpdateSelection | src/lib/tools/selection-manager.ts:28-31 | the current point moves only during a drag |
| SelectionManager.EndSelection | src/lib/tools/selection-manager.ts:33-35 | ending a drag keeps both points |
| SelectionManager.ClearSelection | src/lib/tools/selection-manager.ts:37-41 | clearing removes both points and stops the drag |
| SelectionManager.IsInSelection | src/lib/tools/selection-manager.ts:43-52 | a point can be inside only when both points are set |
| SelectionManager.InSelectionIffBetween | src/lib/tools/selection-manager.ts:43-52 | a point is inside exactly when each coordinate lies between the two corners, inclusive |
| SelectionManager.SelectionSymmetric | src/lib/tools/selection-manager.ts:46-51 | swapping the start and current points selects the same region |
| SelectionManager.NothingSelectedWhenCleared | src/lib/tools/selection-manager.ts:37-44 | nothing is selected initially or after clearing |
| SelectionManager.StartPointSelected | src/lib/tools/selection-manager.ts:22-51 | right after starting, the press point is selected, and it is the only point selected |
| SelectionManager.EndKeepsRegion | src/lib/tools/selection-manager.ts:33-35 | ending a drag keeps the selected region |
| SelectionManager.TypeDoesNotMoveRegion | src/lib/tools/selection-manager.ts:14-16 | changing the type does not change the region |
| SelectionManager.DragThrough | src/lib/tools/selection-manager.ts:28-31 | a drag keeps the start point and the drag flag |
| SelectionManager.DragSelectsToLastPoint | src/lib/tools/selection-manager.ts:28-31 | after a drag through several points the current point is the last one |
| Keyboard.LetterAction | frontend/src/hooks/useKeyboard.ts:74-99 | exactly the letters v, c, b, t, s and `?` name an action |
| Keyboard.HandleKeyDown | frontend/src/hooks/useKeyboard.ts:30-38 | nothing fires while an input, a text area or a content-editable element has focus |
| Keyboard.SaveIff | frontend/src/hooks/useKeyboard.ts:27-45 | save fires exactly for cmd with `s` in either case, where cmd is Command on a Mac and Control elsewhere |
| Keyboard.UndoIff | frontend/src/hooks/useKeyboard.ts:60-64 | undo fires exactly for cmd with `z` in either case and no Shift |
| Keyboard.RedoIff | frontend/src/hooks/useKeyboard.ts:66-70 | redo fires exactly for cmd with Shift and `z`, or cmd with `y`, in either case |
| Keyboard.SelectToolIff | frontend/src/hooks/useKeyboard.ts:73-94 | a tool letter in either case selects its tool exactly when neither cmd, Shift nor Meta is held |
| Keyboard.SaveAndShapesExclusive | frontend/src/hooks/useKeyboard.ts:41-93 | `s` with cmd saves and `s` without modifiers selects the shapes tool, so the two never fire together |
| Keyboard.MacControlSSelectsShapes | frontend/src/hooks/useKeyboard.ts:27-93 | on a Mac, Control+S is not a save; it selects the shapes tool |
| Keyboard.ShiftedQuestionMarkShowsNoHelp | frontend/src/hooks/useKeyboard.ts:73-98 | `?` with Shift held never shows help |
| Keyboard.ZoomAndDeleteKeys | frontend/src/hooks/useKeyboard.ts:109-153 | `0` resets the zoom without cmd and fits it with cmd; Delete and Backspace delete the layer |
| KeyboardShortcuts.Fired | src/hooks/use-keyboard-shortcuts.ts:19-43 | at most one callback fires per keystroke, and every callback except reset needs Control or Meta |
| KeyboardShortcuts.FiredIff | src/hooks/use-keyboard-shortcuts.ts:21-42 | save fires for a modifier with `s`, undo or redo (by Shift) for a modifier with `z`, open for a modifier with `o`, and reset for Escape, each exactly then |
| KeyboardShortcuts.EscapeAlwaysResets | src/hooks/use-keyboard-shortcuts.ts:40-42 | Escape resets whatever modifiers are held |
| KeyboardShortcuts.UpperCaseFiresNothing | src/hooks/use-keyboard-shortcuts.ts:21-35 | `S`, `Z` and `O` fire nothing, because the comparisons are case-sensitive |
| RawFormats.MatchedExtension | frontend/src/components/panels/RAWImportPanel.tsx:77 | a match exists exactly when the name ends in a dot and one of the sixteen alternatives, and the capture is that alternative |
| RawFormats.EndingPosition | frontend/src/components/panels/RAWImportPanel.tsx:77 | a matched alternative is the last three characters, preceded by a dot |
| RawFormats.FindPanelFormat | frontend/src/components/panels/RAWImportPanel.tsx:79 | the entry found lists the extension in its display string, and none is found exactly when no entry does |
| RawFormats.DetectFileFormat | frontend/src/components/panels/RAWImportPanel.tsx:76-83 | the answer is `Unknown` exactly when the lower-cased name does not match |
| RawFormats.MakesAreNotVerdicts | frontend/src/components/panels/RAWImportPanel.tsx:10-20 | no make in the table reads `Unknown` or `RAW` |
| RawFormats.FindPanelFormatAt | frontend/src/components/panels/RAWImportPanel.tsx:79 | `find` answers the first entry that lists the extension |
| RawFormats.RegexExtensionsPlain | frontend/src/components/panels/RAWImportPanel.tsx:77 | every alternative has three characters and contains no dot or comma |
| RawFormats.ListingIff | frontend/src/components/panels/RAWImportPanel.tsx:10-79 | for an alternative, the substring test on an entry's display string holds exactly when the entry lists that extension |
| RawFormats.DetectListed | frontend/src/components/panels/RAWImportPanel.tsx:76-80 | a matched extension is classified by the first entry that lists it |
| RawFormats.DetectUnlisted | frontend/src/components/panels/RAWImportPanel.tsx:76-80 | a matched extension that no entry lists is classified `RAW` |
| RawFormats.CapturesFinalExtension | frontend/src/components/panels/RAWImportPanel.tsx:77 | a name ending in a dot and an alternative captures that alternative |
| RawFormats.NamedMakes | frontend/src/components/panels/RAWImportPanel.tsx:76-80 | `.nrw` is Nikon and `.cr3` is Canon, in any case |
| RawFormats.UnlistedExtensionsAreRaw | frontend/src/components/panels/RAWImportPanel.tsx:77-80 | `erf`, `kdc`, `dcr`, `mos` and `raw` are recognised, but only as `RAW` |
| RawFormats.UnknownUnlessFinal | frontend/src/components/panels/RAWImportPanel.tsx:77-82 | a name that does not end in a dot and an alternative is `Unknown` |
| RawFormats.OnlyTheFinalExtensionCounts | frontend/src/components/panels/RAWImportPanel.tsx:77-82 | `a.cr2.jpg` and `cr2` are both `Unknown` |
| RawFormats.DetectResultRange | frontend/src/components/panels/RAWImportPanel.tsx:76-83 | the answer is one of the nine makes, `RAW` or `Unknown` |
| RawFormats.DetectIgnoresCase | frontend/src/components/panels/RAWImportPanel.tsx:77 | the classification ignores case |
| RawFormats.LookupIn | backend/api/raw.py:72-103 | a table lookup finds a value exactly when some key equals the extension, and the value found is stored under that key |
| RawFormats.LastIndexOf | backend/api/raw.py:71 | the position found holds the character and no later position does |
| RawFormats.Suffix | backend/api/raw.py:71 | a suffix is empty, or it is a dot and at least one more character ending the name |
| RawFormats.ImportRawFile | backend/api/raw.py:70-103 | the import is rejected with status 400 exactly when the lower-cased suffix is not a table key; otherwise the stored name is the identifier plus the suffix, under `/uploads/raw/`, and the reported format is the table's value for the suffix |
| RawFormats.SupportedRawFormats | backend/api/raw.py:115-129 | the list has one entry per table entry, in order, each with its extension, its make and the example `IMG_0001` followed by the extension |
| RawFormats.BackendKeysAreRegexExtensions | backend/api/raw.py:16-33 | the backend table has sixteen keys, and they are the frontend alternatives, dotted, in the same order |
| RawFormats.RegexExtensionsAccepted | backend/api/raw.py:16-33 | every extension the frontend expression accepts is a key of the backend table |
| RawFormats.BackendKeysDistinct | backend/api/raw.py:16-33 | the sixteen keys are distinct |
| RawFormats.SupportedListMatchesImport | backend/api/raw.py:72-129 | an import is accepted exactly when its extension appears in the supported-formats list |
| RawFormats.BaseNameLower | backend/api/raw.py:71 | the last path component of the lower-cased path is the lower-cased last component |
| RawFormats.SuffixLower | backend/api/raw.py:71 | the suffix of the lower-cased name is the lower-cased suffix |
| RawFormats.ImportIgnoresCase | backend/api/raw.py:71-72 | the backend gives the same answer for a name and for its lower-cased form |
| RawFormats.AcceptedKeyIsAlternative | backend/api/raw.py:16-72 | every extension the backend accepts is a dot and one of the frontend alternatives |
| RawFormats.AcceptedBareNameIsRecognised | backend/api/raw.py:71-72 | a bare file name the backend accepts is recognised by the panel with the same extension |
| RawFormats.Cr2IsCanon | frontend/src/components/panels/RAWImportPanel.tsx:76-80 | the panel reads any name ending in `.cr2` as Canon |
| RawFormats.KelvinSignSpellsKdc | backend/api/raw.py:71-72 | a name ending in `.` and the Kelvin sign followed by `DC` has the extension `.kdc`, so the backend imports it as Kodak and the panel shows it as RAW |
| RawFormats.NoSuffixRejected | backend/api/raw.py:71-76 | a name without a suffix is rejected |
| RawFormats.HiddenRawNameDisagrees | backend/api/raw.py:71-76 | a file named just `.cr2` is Canon to the panel but has no suffix for the backend, which rejects it |
| ImageOps.SliceBound | backend/main.py:95 | a slice bound lies in [0, n] and is the given index when that is already inside |
| ImageOps.SliceBoundCountsFromEnd | backend/main.py:95 | a negative stop counts back from the end of the axis |
| ImageOps.CropSpanAsWritten | backend/main.py:90-95 | the source's clamping starts the crop at the position clamped into [0, n], and the span it slices stays inside the axis |
| ImageOps.CropSpan | backend/main.py:90-93 | the corrected clamping starts at the clamped position, stays inside the axis, is never longer than the requested length, and is empty for a non-positive length |
| ImageOps.CropImage | backend/main.py:87-95 | the corrected crop, which the model uses: it keeps exactly the rows and columns of the corrected spans, so a negative width or height keeps nothing |
| ImageOps.CropImageAsWritten | backend/main.py:87-95 | `crop_image` as written keeps exactly the rows and columns of the spans its clamping and slicing give |
| ImageOps.CropImagesAgreeOnNonNegative | backend/main.py:87-95 | for a non-negative width and height the crop as written and the corrected crop are the same grid |
| ImageOps.NegativeWidthKeepsNineColumns | backend/main.py:92-95 | on a grid ten columns wide, a crop at column 0 of width -1 keeps nine columns as written and none once corrected |
| ImageOps.InsideSpanUnchanged | backend/main.py:89-93 | a rectangle already inside the image is kept exactly, both as written and as corrected |
| ImageOps.CropSpanIsMaximal | backend/main.py:92-93 | for a non-negative length, the crop keeps the requested length or reaches the edge of the axis |
| ImageOps.AsWrittenAgreesOnNonNegative | backend/main.py:90-95 | for non-negative lengths the source and the corrected clamping agree |
| ImageOps.NegativeWidthWraps | backend/main.py:92-95 | as written, a width of -1 at position 0 on ten pixels keeps nine of them; corrected, it keeps none |
| ImageOps.NegativeLengthKeepsPixels | backend/main.py:92-95 | as written, a negative length that carries the stop before the axis start keeps `n + len` pixels; corrected, it keeps none |
| ImageOps.NegativeLengthNearStartIsEmpty | backend/main.py:92-95 | a negative length whose stop stays at or after the axis start gives an empty crop either way |
| ImageOps.CropWholeImage | backend/main.py:87-95 | cropping the whole image keeps it |
| ImageOps.StripHashes | backend/main.py:146 | stripping drops exactly the leading `#` characters |
| ImageOps.HexDigit | backend/main.py:147 | a hexadecimal digit has a value in [0, 16) |
| ImageOps.ParseHexPair | backend/main.py:147 | a parsed two-character slice is in [-15, 255] |
| ImageOps.Pair | backend/main.py:147 | a two-character slice stops at the end of the string |
| ImageOps.ParseHexColor | backend/main.py:146-148 | the channels are in [-15, 255], and a colour of four or fewer characters after the `#`s is rejected |
| ImageOps.StripLeadingHashes | backend/main.py:146 | any number of leading `#`s is removed and the rest is kept |
| ImageOps.HexDigitIgnoresCase | backend/main.py:147 | hexadecimal digits read the same in either case |
| ImageOps.ParseHex2 | backend/main.py:147 | a formatted pair parses back to its value |
| ImageOps.ParseOfPairs | backend/main.py:146-148 | the colour is the three parsed pairs, in blue, green, red order |
| ImageOps.ParseFormatted | backend/main.py:146-148 | parsing undoes `#RRGGBB` formatting behind any number of `#`s, and hands the channels back in blue, green, red order |
| ImageOps.SamePairsSameColour | backend/main.py:146-148 | two colours with the same three pairs parse alike |
| ImageOps.TrailingCharactersIgnored | backend/main.py:147 | only the first six characters after the `#`s are read |
| ImageOps.SignedPairAccepted | backend/main.py:147 | a pair may carry a sign, so `#-10000` is read with red at -1 |
| ImageOps.ShorthandRejected | backend/main.py:147 | the three-digit shorthand `#FFF` is rejected |
| ImageOps.Trunc | backend/main.py:154 | `int()` on a number truncates toward zero |
| ImageOps.PairsFrom | backend/main.py:154 | pairing from an even start yields one point per two remaining coordinates, each the truncated coordinates at its position |
| ImageOps.PointPairs | backend/main.py:154 | a list of n coordinates becomes n/2 points, rounded down |
| ImageOps.StrokeLines | backend/main.py:157-163 | one line is drawn between each pair of consecutive points, in order, all with the same pen |
| ImageOps.BrushStrokeLines | backend/main.py:146-166 | a stroke fails exactly when the colour does not parse, and otherwise draws the lines between its consecutive points |
| ImageOps.PairsOfFlattened | backend/main.py:154 | pairing undoes flattening |
| ImageOps.OddCoordinateDropped | backend/main.py:154 | an odd trailing coordinate is dropped |
| ImageOps.TruncTowardZero | backend/main.py:154 | `int(-1.5)` is -1, not -2 |
| ImageOps.LinesAreConnected | backend/main.py:157-163 | consecutive lines meet: each starts where the previous one ended |
| ImageOps.SinglePointDrawsNothing | backend/main.py:154-157 | one point, or none, draws nothing |
| DbConfig.Get | backend/db.py:22-39 | the lookup finds a value exactly when the variable is set, and answers that value |
| DbConfig.Or | backend/db.py:22-39 | `a or b` answers `a` when it is set and non-empty, and `b` otherwise |
| DbConfig.StripStart | backend/db.py:41 | stripping removes exactly the leading ASCII white space, the separators `\x1c` to `\x1f` included |
| DbConfig.StripEnd | backend/db.py:41 | stripping removes exactly the trailing ASCII white space, the separators `\x1c` to `\x1f` included |
| DbConfig.StorageDir | backend/db.py:22-26 | with neither storage variable set to a non-empty value, the default directory is used |
| DbConfig.BuildDatabaseUrl | backend/db.py:31-60 | the URL always starts with `sqlite:`; a value starting with `sqlite:` is used verbatim once trimmed; any other outcome is `sqlite:///` followed by the database path it reports |
| DbConfig.UrlOfValue | backend/db.py:42-56 | a stripped value starting `sqlite:` is the URL itself; any other value is a path and the URL is `sqlite:///` followed by it |
| DbConfig.PreferredWins | backend/db.py:22-39 | a non-empty preferred variable wins, and the fallback variable is then not consulted |
| DbConfig.EmptyPreferredFallsBack | backend/db.py:22-39 | an empty preferred variable counts as unset |
| DbConfig.SqliteUrlVerbatim | backend/db.py:41-49 | a `sqlite:` URL is used verbatim; its path is what follows `sqlite:///`, and any other SQLite URL has no path |
| DbConfig.OtherValueIsAPath | backend/db.py:50-56 | any other value, even another database's URL, is a file path, and the URL is `sqlite:///` followed by that path |
| DbConfig.DefaultDatabase | backend/db.py:57-60 | with no value set, the database is `db.sqlite` in the storage directory |
| DbConfig.RelativePathsUnderStorage | backend/db.py:52-55 | an absolute path is kept, and a relative one is placed under the storage directory |
| DbConfig.BlankValueIsAPath | backend/db.py:40-56 | a value of only white space counts as set, so it is stripped to the empty path and resolved like a path instead of falling back to the default |
| DbConfig.SeparatorsAreStripped | backend/db.py:41 | the ASCII separators `\x1c` to `\x1f` around a value are stripped like spaces |
| DbConfig.BuiltUrlIsStable | backend/db.py:39-60 | a URL the derivation builds, given back as the variable, is kept unchanged |
| Strings.Lower | backend/api/raw.py:71 | lower-casing keeps the length and maps each character on its own, the ASCII capitals and the Kelvin sign to lower-case ASCII letters |
| Strings.LowerIsLetter | frontend/src/hooks/useKeyboard.ts:41 | a key lower-cases to a letter exactly when it is that letter in either case, or the Kelvin sign for `k` |

## Left out

- Asynchrony. The queue's promises, `EventEmitter` listeners and stub runners are left out. A runner's progress, return and throw are inputs to the state machine, and each public method is one atomic step. `_tick`'s re-entrancy guard never changes the outcome, because the pass has no `await`.
- Errors from `runner.shutdown()` are swallowed by the source, and the hook's own work is not modelled. Each hook call, including the one `removeRunner` does not await, is a log entry.
- Clocks, random and UUID identifiers. `Date.now()` is a `now` parameter. Job, layer and history identifiers are parameters, with freshness as a precondition where the source relies on randomness.
- File-system I/O. The preset file is an abstract store that is absent, unparsable or holds a document. A write's success is a parameter. `mkdir`, the temporary file and `rename` are not modelled.
- Numbers. JavaScript numbers are reals or unbounded integers. NaN and infinite progress reports are not modelled, and neither are fractional `maxSize` values.
- ProcessingQueue.ClampConcurrency: a NaN or infinite limit is not modelled, because the limit is a real. With NaN every loop test fails and the queue never starts a job; with an infinite limit every waiting job with a runner starts.
- White space is ASCII only. Unicode white space and the non-ASCII digits that Python's `int()` accepts are not modelled.
- Strings.Lower: only characters whose case mapping is a single ASCII letter are mapped: the ASCII capitals and the Kelvin sign. Other non-ASCII letters are left as they are, for example `É`, which lower-cases to `é`, and `İ`, which lower-cases to `i` followed by a combining dot. Every rule compares lower-cased text with ASCII extensions or keys.
- Strings.LowerIsLetter: inherits that limit. A key whose lower case takes two characters, such as `İ`, is a different key in the model too, but its lower-cased text is not the one the source computes.
- Paths and the environment. `pathlib`'s rendering of paths, `expanduser` and `is_absolute`, and the `/` operator are parameters of `DbConfig`. The process environment is a map. Windows paths are not modelled.
- Pixels. A crop keeps a sub-grid of an arbitrary pixel type. A brush stroke is the list of `cv2.line` calls it would make, without anti-aliasing or blending.
- In the backend import, everything after the extension check: copying the upload, metadata extraction and the database record. The HTTP 500 path covers those failures only.
- `HistoryManager`: the deep clone of the recorded data is identity, since the data is opaque.
- Rendering. The React components, canvas drawing and view glue around the modelled hooks are left out.
- DbConfig.StripStart: non-ASCII white space, such as `\x85` or the no-break space, is not stripped here, although Python's `str.strip` removes it, because text is handled as ASCII throughout.
- DbConfig.StripEnd: non-ASCII white space is not stripped here, for the same reason.
- DbConfig.StorageDir: its contract states only the default case. The precedence between the two storage variables is stated by `DbConfig.PreferredWins` and `DbConfig.EmptyPreferredFallsBack`, which cover both settings.

## Findings

| source | as written | input that shows it | evidently intended | confidence | as-written member | corrected member |
|---|---|---|---|---|---|---|
| backend/main.py:92-95 | the width and height are capped by `min` but never raised to 0, so a negative length becomes a negative slice stop, which Python counts from the end of the axis | `crop_image` on a 10-pixel-wide image with `x = 0, width = -1` keeps 9 columns instead of none | a non-positive width or height gives an empty crop | medium, not executed | ImageOps.CropSpanAsWritten and ImageOps.CropImageAsWritten (shown by ImageOps.NegativeWidthKeepsNineColumns, ImageOps.NegativeWidthWraps and ImageOps.NegativeLengthKeepsPixels) | ImageOps.CropSpan (used by ImageOps.CropImage, which the model uses; proved by ImageOps.CropSpanIsMaximal and ImageOps.InsideSpanUnchanged) |

=== FILE: brush_history.dfy ===
/** The state of the `useBrush` hook as one record and its callbacks as
    transitions.  A stroke is committed when the pointer is released with
    at least two points; committing follows the undo-list pattern
    (truncate the redo tail, append the new stroke list, point at it), and
    `strokes` always equals `history[historyStep]`. */
module BrushHistory {
  import opened Wrappers

  datatype Stroke = Stroke(points: seq<real>, color: string, size: real, opacity: real, isEraser: bool)

  datatype Brush = Brush(
    brushSize: real, opacity: real, color: string, isEraser: bool,
    strokes: seq<Stroke>, current: Option<Stroke>,
    history: seq<seq<Stroke>>, historyStep: int)

  datatype BrushPreset = Hard | Soft | Airbrush

  const EraserColor: string := "#FFFFFF"

  /** The hook's initial `useState` values. */
  const Initial: Brush := Brush(5.0, 1.0, "#000000", false, [], None, [[]], 0)

  /** The step points into the history and the visible strokes are the
      entry it points at. */
  predicate Inv(b: Brush) {
    0 <= b.historyStep < |b.history| && b.strokes == b.history[b.historyStep]
  }

  predicate CanUndo(b: Brush) { b.historyStep > 0 }

  predicate CanRedo(b: Brush) { b.historyStep < |b.history| - 1 }

  /** `startDrawing`: a new stroke at (x, y); the eraser paints opaque
      white whatever the chosen colour and opacity. */
  function StartDrawing(b: Brush, x: real, y: real): (r: Brush)
    ensures r.current.Some? && r.current.value.points == [x, y]
    ensures r.current.value.size == b.brushSize && r.current.value.isEraser == b.isEraser
    ensures b.isEraser ==> r.current.value.color == EraserColor && r.current.value.opacity == 1.0
    ensures !b.isEraser ==> r.current.value.color == b.color && r.current.value.opacity == b.opacity
    ensures r == b.(current := r.current)
  {
    b.(current := Some(Stroke([x, y],
                              if b.isEraser then EraserColor else b.color,
                              b.brushSize,
                              if b.isEraser then 1.0 else b.opacity,
                              b.isEraser)))
  }

  /** `continueDrawing`: extends the stroke in progress, if any. */
  function ContinueDrawing(b: Brush, x: real, y: real): (r: Brush)
    ensures b.current.None? ==> r == b
    ensures b.current.Some? ==> r == b.(current := Some(b.current.value.(points := b.current.value.points + [x, y])))
  {
    if b.current.None? then b
    else b.(current := Some(b.current.value.(points := b.current.value.points + [x, y])))
  }

  /** `stopDrawing`: a stroke of fewer than four coordinates (one point) is
      discarded; otherwise it is appended to the strokes and the new stroke
      list is committed to the history. */
  function StopDrawing(b: Brush): (r: Brush)
    requires Inv(b)
    ensures Inv(r) && r.current.None?
    ensures b.current.None? || |b.current.value.points| < 4 ==> r == b.(current := None)
    ensures b.current.Some? && |b.current.value.points| >= 4 ==>
              && r.strokes == b.strokes + [b.current.value]
              && r.history == b.history[..b.historyStep + 1] + [r.strokes]
              && r.historyStep == |r.history| - 1
              && !CanRedo(r)
  {
    if b.current.None? || |b.current.value.points| < 4 then b.(current := None)
    else
      var newStrokes := b.strokes + [b.current.value];
      var newHistory := b.history[..b.historyStep + 1] + [newStrokes];
      b.(strokes := newStrokes, current := None, history := newHistory, historyStep := |newHistory| - 1)
  }

  /** `undo`: moves back one step and shows that entry; no change at the
      first step. */
  function Undo(b: Brush): (r: Brush)
    requires Inv(b)
    ensures Inv(r) && r.history == b.history
    ensures !CanUndo(b) ==> r == b
    ensures CanUndo(b) ==> r.historyStep == b.historyStep - 1 && r == b.(historyStep := r.historyStep, strokes := r.strokes)
  {
    if b.historyStep > 0 then b.(historyStep := b.historyStep - 1, strokes := b.history[b.historyStep - 1]) else b
  }

  /** `redo`: moves forward one step and shows that entry; no change at the
      last step. */
  function Redo(b: Brush): (r: Brush)
    requires Inv(b)
    ensures Inv(r) && r.history == b.history
    ensures !CanRedo(b) ==> r == b
    ensures CanRedo(b) ==> r.historyStep == b.historyStep + 1 && r == b.(historyStep := r.historyStep, strokes := r.strokes)
  {
    if b.historyStep < |b.history| - 1 then b.(historyStep := b.historyStep + 1, strokes := b.history[b.historyStep + 1]) else b
  }

  /** `clear`: no strokes, a history holding only the empty list. */
  function Clear(b: Brush): (r: Brush)
    ensures Inv(r) && r.strokes == [] && r.current.None?
    ensures !CanUndo(r) && !CanRedo(r)
    ensures r.brushSize == b.brushSize && r.opacity == b.opacity && r.color == b.color && r.isEraser == b.isEraser
  {
    b.(strokes := [], current := None, history := [[]], historyStep := 0)
  }

  /** The (size, opacity) a preset selects. */
  function PresetSettings(p: BrushPreset): (r: (real, real))
    ensures 0.0 < r.1 <= 1.0 && r.0 > 0.0
  {
    match p
    case Hard => (5.0, 1.0)
    case Soft => (20.0, 0.6)
    case Airbrush => (40.0, 0.3)
  }

  /** `applyPreset`: sets size and opacity and nothing else. */
  function ApplyPreset(b: Brush, p: BrushPreset): (r: Brush)
    ensures (r.brushSize, r.opacity) == PresetSettings(p)
    ensures r.(brushSize := b.brushSize, opacity := b.opacity) == b
  {
    var (size, opacity) := PresetSettings(p);
    b.(brushSize := size, opacity := opacity)
  }

  /** The hook's callbacks and setters as inputs. */
  datatype BrushInput =
    | Start(x: real, y: real) | Continue(x: real, y: real) | Stop
    | UndoInput | RedoInput | ClearInput | Preset(p: BrushPreset)
    | SetSize(size: real) | SetOpacity(opacity: real) | SetColor(color: string) | SetEraser(on: bool)

  function Step(b: Brush, i: BrushInput): Brush
    requires Inv(b)
  {
    match i
    case Start(x, y) => StartDrawing(b, x, y)
    case Continue(x, y) => ContinueDrawing(b, x, y)
    case Stop => StopDrawing(b)
    case UndoInput => Undo(b)
    case RedoInput => Redo(b)
    case ClearInput => Clear(b)
    case Preset(p) => ApplyPreset(b, p)
    case SetSize(s) => b.(brushSize := s)
    case SetOpacity(o) => b.(opacity := o)
    case SetColor(c) => b.(color := c)
    case SetEraser(on) => b.(isEraser := on)
  }

  function Run(b: Brush, inputs: seq<BrushInput>): Brush
    requires Inv(b)
    decreases |inputs|
  {
    if |inputs| == 0 then b
    else
      StepPreservesInv(b, inputs[0]);
      Run(Step(b, inputs[0]), inputs[1..])
  }

  /* ---------- Properties ---------- */

  /** Every transition keeps `strokes == history[historyStep]`. */
  lemma StepPreservesInv(b: Brush, i: BrushInput)
    requires Inv(b)
    ensures Inv(Step(b, i))
  {
  }

  /** The invariant holds after any sequence of inputs from the start. */
  lemma {:induction false} RunPreservesInv(b: Brush, inputs: seq<BrushInput>)
    requires Inv(b)
    ensures Inv(Run(b, inputs))
    decreases |inputs|
  {
    if |inputs| > 0 {
      StepPreservesInv(b, inputs[0]);
      RunPreservesInv(Step(b, inputs[0]), inputs[1..]);
    }
  }

  /** Undo followed by redo restores the state. */
  lemma UndoThenRedo(b: Brush)
    requires Inv(b) && CanUndo(b)
    ensures Redo(Undo(b)) == b
  {
  }

  /** Undo right after committing a stroke shows the strokes from before it. */
  lemma CommitThenUndo(b: Brush)
    requires Inv(b) && b.current.Some? && |b.current.value.points| >= 4
    ensures Undo(StopDrawing(b)).strokes == b.strokes
    ensures Undo(StopDrawing(b)).historyStep == b.historyStep
  {
  }

  /** A single click (press and release without moving) commits nothing. */
  lemma ClickCommitsNothing(b: Brush, x: real, y: real)
    requires Inv(b)
    ensures StopDrawing(StartDrawing(b, x, y)) == b.(current := None)
  {
  }

  /** Continues a stroke through each point in turn. */
  function ContinueAll(b: Brush, pts: seq<(real, real)>): (r: Brush)
    ensures r == b.(current := r.current)
    ensures b.current.None? ==> r == b
    decreases |pts|
  {
    if |pts| == 0 then b else ContinueAll(ContinueDrawing(b, pts[0].0, pts[0].1), pts[1..])
  }

  function Flatten(pts: seq<(real, real)>): (r: seq<real>)
    ensures |r| == 2 * |pts|
    decreases |pts|
  {
    if |pts| == 0 then [] else [pts[0].0, pts[0].1] + Flatten(pts[1..])
  }

  /** Dragging through `pts` appends their coordinates in order. */
  lemma {:induction false} ContinueAllAppends(b: Brush, pts: seq<(real, real)>)
    requires b.current.Some?
    ensures ContinueAll(b, pts) == b.(current := Some(b.current.value.(points := b.current.value.points + Flatten(pts))))
    decreases |pts|
  {
    if |pts| == 0 {
      assert b.current.value.points + Flatten(pts) == b.current.value.points;
    } else {
      var b1 := ContinueDrawing(b, pts[0].0, pts[0].1);
      ContinueAllAppends(b1, pts[1..]);
      assert b1.current.value.points + Flatten(pts[1..]) == b.current.value.points + Flatten(pts);
    }
  }

  /** A press, a drag through at least one more point and a release commit
      one stroke holding every coordinate, drawn with the settings at the
      press. */
  lemma DragCommitsStroke(b: Brush, x: real, y: real, pts: seq<(real, real)>)
    requires Inv(b) && |pts| >= 1
    ensures var r := StopDrawing(ContinueAll(StartDrawing(b, x, y), pts));
            && r.strokes == b.strokes + [StartDrawing(b, x, y).current.value.(points := [x, y] + Flatten(pts))]
            && r.historyStep == b.historyStep + 1
  {
    ContinueAllAppends(StartDrawing(b, x, y), pts);
  }
}

=== FILE: db_config.dfy ===
/** The storage and database configuration of the backend: which
    environment variable wins, and how the database URL and the database
    file are derived from it.  The path operations of `pathlib` are
    parameters, so what the process's home directory is and how a path is
    spelled are not part of this model; creating the directories
    (`mkdir`) is file-system I/O and is left out. */
module DbConfig {
  import opened Wrappers
  import opened Strings

  /** The process environment. */
  type Env = map<string, string>

  /** `pathlib` as the configuration uses it: `str(Path(s))`,
      `expanduser`, `is_absolute` and the `/` operator, each on path
      strings already in `str(Path(..))` form. */
  datatype PathOps = PathOps(
    pathOf: string -> string,
    expandUser: string -> string,
    isAbsolute: string -> bool,
    join: (string, string) -> string)

  /** The configuration the database URL is built from. */
  datatype DbUrl = DbUrl(url: string, dbPath: Option<string>)

  const StorageVar: string := "DARKROOM_STORAGE_PATH"
  const StorageFallbackVar: string := "STORAGE_PATH"
  const DatabaseVar: string := "DARKROOM_DATABASE_URL"
  const DatabaseFallbackVar: string := "DATABASE_URL"
  const SqlitePrefix: string := "sqlite:///"

  /** `os.environ.get(name)`. */
  function Get(env: Env, name: string): (r: Option<string>)
    ensures r.Some? <==> name in env
    ensures r.Some? ==> r.value == env[name]
  {
    if name in env then Some(env[name]) else None
  }

  /** Python truthiness of an optional string: present and non-empty. */
  predicate Truthy(v: Option<string>) {
    v.Some? && v.value != ""
  }

  /** `a or b` on two optional strings. */
  function Or(a: Option<string>, b: Option<string>): (r: Option<string>)
    ensures Truthy(a) ==> r == a
    ensures !Truthy(a) ==> r == b
  {
    if Truthy(a) then a else b
  }

  /** The variable value that configures a setting: the preferred name if
      it is set and non-empty, the fallback name otherwise. */
  function Setting(env: Env, preferred: string, fallback: string): Option<string> {
    Or(Get(env, preferred), Get(env, fallback))
  }

  /** `s.lstrip()`: `s` without its leading white space. */
  function StripStart(s: string): (r: string)
    ensures |r| <= |s| && r == s[|s| - |r|..]
    ensures forall i :: 0 <= i < |s| - |r| ==> IsSpace(s[i])
    ensures |r| > 0 ==> !IsSpace(r[0])
    decreases |s|
  {
    if |s| > 0 && IsSpace(s[0]) then StripStart(s[1..]) else s
  }

  /** `s.rstrip()`: `s` without its trailing white space. */
  function StripEnd(s: string): (r: string)
    ensures |r| <= |s| && r == s[..|r|]
    ensures forall i :: |r| <= i < |s| ==> IsSpace(s[i])
    ensures |r| > 0 ==> !IsSpace(r[|r| - 1])
    decreases |s|
  {
    if |s| > 0 && IsSpace(s[|s| - 1]) then StripEnd(s[..|s| - 1]) else s
  }

  /** `s.strip()`: the middle of `s` without white space at either end. */
  function Strip(s: string): string {
    StripEnd(StripStart(s))
  }

  /** `STORAGE_DIR`: the configured path with `~` expanded, or the
      default directory next to the backend's sources. */
  function StorageDir(env: Env, defaultDir: string, paths: PathOps): (r: string)
    ensures !Truthy(Setting(env, StorageVar, StorageFallbackVar)) ==> r == defaultDir
  {
    var v := Setting(env, StorageVar, StorageFallbackVar);
    if Truthy(v) then paths.expandUser(paths.pathOf(v.value)) else defaultDir
  }

  /** Where a configured value that is not a SQLite URL puts the
      database: the path with `~` expanded, under the storage directory
      unless it is absolute. */
  function ResolveUnder(storage: string, value: string, paths: PathOps): string {
    var candidate := paths.expandUser(paths.pathOf(value));
    if paths.isAbsolute(candidate) then candidate else paths.join(storage, candidate)
  }

  /** The URL a configured, already stripped value gives: a `sqlite:` URL
      verbatim, any other value as a path under the storage directory. */
  function UrlOfValue(value: string, storage: string, paths: PathOps): (r: DbUrl)
    ensures StartsWith(r.url, "sqlite:")
    ensures StartsWith(value, "sqlite:") ==> r.url == value
    ensures !StartsWith(value, "sqlite:") ==> r.dbPath.Some? && r.url == SqlitePrefix + r.dbPath.value
  {
    if StartsWith(value, "sqlite:") then
      if StartsWith(value, SqlitePrefix) then
        DbUrl(value, Some(paths.pathOf(value[|SqlitePrefix|..])))
      else
        DbUrl(value, None)
    else
      var candidate := ResolveUnder(storage, value, paths);
      assert StartsWith(SqlitePrefix + candidate, "sqlite:");
      DbUrl(SqlitePrefix + candidate, Some(candidate))
  }

  /** `_build_database_url`, for the storage directory `storage`. */
  function BuildDatabaseUrl(env: Env, storage: string, paths: PathOps): (r: DbUrl)
    ensures StartsWith(r.url, "sqlite:")
    ensures var v := Setting(env, DatabaseVar, DatabaseFallbackVar);
            if Truthy(v) && StartsWith(Strip(v.value), "sqlite:") then r.url == Strip(v.value)
            else r.dbPath.Some? && r.url == SqlitePrefix + r.dbPath.value
  {
    var v := Setting(env, DatabaseVar, DatabaseFallbackVar);
    if Truthy(v) then
      UrlOfValue(Strip(v.value), storage, paths)
    else
      var defaultPath := paths.join(storage, "db.sqlite");
      assert StartsWith(SqlitePrefix + defaultPath, "sqlite:");
      DbUrl(SqlitePrefix + defaultPath, Some(defaultPath))
  }

  /* ---------- Properties ---------- */

  /** The preferred variable wins whenever it is set and non-empty: the
      fallback is not even read. */
  lemma PreferredWins(env: Env, preferred: string, fallback: string, other: string)
    requires preferred in env && env[preferred] != "" && fallback != preferred
    ensures Setting(env, preferred, fallback) == Some(env[preferred])
    ensures Setting(env[fallback := other], preferred, fallback) == Setting(env, preferred, fallback)
  {
  }

  /** An empty preferred variable counts as unset. */
  lemma EmptyPreferredFallsBack(env: Env, preferred: string, fallback: string)
    requires !(preferred in env) || env[preferred] == ""
    requires fallback != preferred
    ensures Setting(env, preferred, fallback) == Get(env, fallback)
    ensures Setting(env[preferred := ""], preferred, fallback) == Setting(env - {preferred}, preferred, fallback)
  {
  }

  /** A URL starting with `sqlite:` is used verbatim once trimmed; the
      file path is what follows `sqlite:///`, or none for any other SQLite
      URL. */
  lemma SqliteUrlVerbatim(env: Env, storage: string, paths: PathOps)
    requires var v := Setting(env, DatabaseVar, DatabaseFallbackVar);
             Truthy(v) && StartsWith(Strip(v.value), "sqlite:")
    ensures var value := Strip(Setting(env, DatabaseVar, DatabaseFallbackVar).value);
            var r := BuildDatabaseUrl(env, storage, paths);
            && r.url == value
            && (StartsWith(value, SqlitePrefix) ==> r.dbPath == Some(paths.pathOf(value[|SqlitePrefix|..])))
            && (!StartsWith(value, SqlitePrefix) ==> r.dbPath.None?)
  {
  }

  /** Any other value, even a URL of another database, is a file path:
      relative paths land under the storage directory. */
  lemma OtherValueIsAPath(env: Env, storage: string, paths: PathOps)
    requires var v := Setting(env, DatabaseVar, DatabaseFallbackVar);
             Truthy(v) && !StartsWith(Strip(v.value), "sqlite:")
    ensures var p := ResolveUnder(storage, Strip(Setting(env, DatabaseVar, DatabaseFallbackVar).value), paths);
            BuildDatabaseUrl(env, storage, paths) == DbUrl(SqlitePrefix + p, Some(p))
  {
  }

  /** With neither variable set to a non-empty value, the database is
      `db.sqlite` in the storage directory. */
  lemma DefaultDatabase(env: Env, storage: string, paths: PathOps)
    requires !Truthy(Setting(env, DatabaseVar, DatabaseFallbackVar))
    ensures var p := paths.join(storage, "db.sqlite");
            BuildDatabaseUrl(env, storage, paths) == DbUrl(SqlitePrefix + p, Some(p))
  {
  }

  /** A relative path resolves under the storage directory, an absolute
      one is kept. */
  lemma RelativePathsUnderStorage(storage: string, value: string, paths: PathOps)
    ensures var c := paths.expandUser(paths.pathOf(value));
            && (paths.isAbsolute(c) ==> ResolveUnder(storage, value, paths) == c)
            && (!paths.isAbsolute(c) ==> ResolveUnder(storage, value, paths) == paths.join(storage, c))
  {
  }

  /** A value of only white space is set, so it is not the default: it is
      stripped to the empty path and resolved like any other path. */
  lemma BlankValueIsAPath(env: Env, storage: string, paths: PathOps)
    requires DatabaseVar in env && env[DatabaseVar] == " "
    ensures var p := ResolveUnder(storage, "", paths);
            BuildDatabaseUrl(env, storage, paths) == DbUrl(SqlitePrefix + p, Some(p))
  {
    assert Strip(" ") == "";
  }

  /** The URL built for a file path, given back as the variable, is kept
      as it is: the derivation is a fixed point once it has produced a
      SQLite URL. */
  lemma BuiltUrlIsStable(env: Env, storage: string, paths: PathOps)
    requires var u := BuildDatabaseUrl(env, storage, paths).url; |u| > 0 && !IsSpace(u[|u| - 1])
    ensures var u := BuildDatabaseUrl(env, storage, paths).url;
            BuildDatabaseUrl(env[DatabaseVar := u], storage, paths).url == u
  {
    var u := BuildDatabaseUrl(env, storage, paths).url;
    var env' := env[DatabaseVar := u];
    assert Setting(env', DatabaseVar, DatabaseFallbackVar) == Some(u);
    assert u[0] == 's';
    StripUnchanged(u);
    SqliteUrlVerbatim(env', storage, paths);
  }

  /** The ASCII separators `\x1c` to `\x1f` count as white space: around a
      value they are stripped like spaces. */
  lemma SeparatorsAreStripped(s: string)
    requires |s| > 0 && !IsSpace(s[0]) && !IsSpace(s[|s| - 1])
    ensures Strip(['\U{001C}'] + s + ['\U{001F}']) == s
  {
    var t := ['\U{001C}'] + s + ['\U{001F}'];
    assert t[1..] == s + ['\U{001F}'];
    assert StripStart(t) == StripStart(s + ['\U{001F}']) == s + ['\U{001F}'];
    assert (s + ['\U{001F}'])[..|s|] == s;
  }

  /** A string with no white space at either end is its own strip. */
  lemma StripUnchanged(s: string)
    requires |s| > 0 && !IsSpace(s[0]) && !IsSpace(s[|s| - 1])
    ensures Strip(s) == s
  {
  }
}

=== FILE: editor_context.dfy ===
/** The state record of `EditorProvider` and its updaters.  Every updater
    is a pure function of the previous state (React's `setState(prev => …)`).
    The history is an index into a list of opaque actions, following the
    undo-list pattern: recording drops the redo tail, appends and points at
    the new entry; undo never goes below the first entry. */
module EditorContext {
  import opened Wrappers

  type Json = string

  datatype Project = Project(id: int, name: string, description: Option<string>, createdAt: string, updatedAt: string, layerCount: int)

  datatype EditorLayer = EditorLayer(
    id: int, projectId: int, layerType: string, content: Option<string>, zIndex: int,
    locked: bool, opacity: real, visible: bool, x: real, y: real,
    width: Option<real>, height: Option<real>, blendMode: Option<string>)

  datatype Adjustments = Adjustments(
    brightness: real, contrast: real, saturation: real, exposure: real,
    highlights: real, shadows: real, sharpness: real)

  /** A `Partial<Adjustments>`. */
  datatype AdjustmentsPatch = AdjustmentsPatch(
    brightness: Option<real>, contrast: Option<real>, saturation: Option<real>, exposure: Option<real>,
    highlights: Option<real>, shadows: Option<real>, sharpness: Option<real>)

  datatype EditorState = EditorState(
    currentProject: Option<Project>, layers: seq<EditorLayer>, selectedLayerId: Option<int>,
    adjustments: Adjustments, historyStack: seq<Json>, historyIndex: int, isProcessing: bool)

  /** Every adjustment neutral, sharpness at 1. */
  const DefaultAdjustments: Adjustments := Adjustments(0.0, 0.0, 0.0, 0.0, 0.0, 0.0, 1.0)

  const NoChange: AdjustmentsPatch := AdjustmentsPatch(None, None, None, None, None, None, None)

  const Initial: EditorState := EditorState(None, [], None, DefaultAdjustments, [], -1, false)

  /** The history index is -1 exactly when the history is empty, and
      otherwise points into it. */
  predicate Inv(s: EditorState) {
    -1 <= s.historyIndex < |s.historyStack| && (s.historyIndex == -1 <==> |s.historyStack| == 0)
  }

  predicate CanUndo(s: EditorState) { s.historyIndex > 0 }

  predicate CanRedo(s: EditorState) { s.historyIndex < |s.historyStack| - 1 }

  /** `{ ...prev.adjustments, ...adjustments }`. */
  function Merge(a: Adjustments, p: AdjustmentsPatch): (r: Adjustments)
    ensures r.brightness == p.brightness.GetOr(a.brightness) && r.contrast == p.contrast.GetOr(a.contrast)
    ensures r.saturation == p.saturation.GetOr(a.saturation) && r.exposure == p.exposure.GetOr(a.exposure)
    ensures r.highlights == p.highlights.GetOr(a.highlights) && r.shadows == p.shadows.GetOr(a.shadows)
    ensures r.sharpness == p.sharpness.GetOr(a.sharpness)
  {
    Adjustments(p.brightness.GetOr(a.brightness), p.contrast.GetOr(a.contrast), p.saturation.GetOr(a.saturation),
                p.exposure.GetOr(a.exposure), p.highlights.GetOr(a.highlights), p.shadows.GetOr(a.shadows),
                p.sharpness.GetOr(a.sharpness))
  }

  /** `updateAdjustments`: only the adjustments. */
  function UpdateAdjustments(s: EditorState, p: AdjustmentsPatch): (r: EditorState)
    ensures r.(adjustments := s.adjustments) == s
    ensures r.adjustments == Merge(s.adjustments, p)
  {
    s.(adjustments := Merge(s.adjustments, p))
  }

  /** `resetAdjustments`. */
  function ResetAdjustments(s: EditorState): (r: EditorState)
    ensures r.(adjustments := s.adjustments) == s
    ensures r.adjustments.sharpness == 1.0 && r.adjustments.brightness == 0.0 && r.adjustments.contrast == 0.0
    ensures r.adjustments.saturation == 0.0 && r.adjustments.exposure == 0.0
    ensures r.adjustments.highlights == 0.0 && r.adjustments.shadows == 0.0
  {
    s.(adjustments := DefaultAdjustments)
  }

  /** `addToHistory`. */
  function AddToHistory(s: EditorState, action: Json): (r: EditorState)
    requires Inv(s)
    ensures Inv(r) && !CanRedo(r)
    ensures r.historyStack == s.historyStack[..s.historyIndex + 1] + [action]
    ensures r.historyStack[r.historyIndex] == action
    ensures r.(historyStack := s.historyStack, historyIndex := s.historyIndex) == s
  {
    var h := s.historyStack[..s.historyIndex + 1] + [action];
    s.(historyStack := h, historyIndex := |h| - 1)
  }

  /** `undo`: moves back one only above the first entry. */
  function Undo(s: EditorState): (r: EditorState)
    requires Inv(s)
    ensures Inv(r) && r.historyStack == s.historyStack
    ensures !CanUndo(s) ==> r == s
    ensures CanUndo(s) ==> r == s.(historyIndex := s.historyIndex - 1)
    ensures s.historyIndex >= 0 ==> r.historyIndex >= 0
  {
    if s.historyIndex > 0 then s.(historyIndex := s.historyIndex - 1) else s
  }

  /** `redo`: moves forward one only below the last entry. */
  function Redo(s: EditorState): (r: EditorState)
    requires Inv(s)
    ensures Inv(r) && r.historyStack == s.historyStack
    ensures !CanRedo(s) ==> r == s
    ensures CanRedo(s) ==> r == s.(historyIndex := s.historyIndex + 1)
  {
    if s.historyIndex < |s.historyStack| - 1 then s.(historyIndex := s.historyIndex + 1) else s
  }

  /** The plain setters; each replaces exactly its own field. */
  datatype Setter =
    | SetCurrentProject(project: Option<Project>)
    | SetLayers(layers: seq<EditorLayer>)
    | SetSelectedLayerId(id: Option<int>)
    | SetProcessing(processing: bool)

  function ApplySetter(s: EditorState, c: Setter): (r: EditorState)
    ensures c.SetCurrentProject? ==> r.currentProject == c.project && r.(currentProject := s.currentProject) == s
    ensures c.SetLayers? ==> r.layers == c.layers && r.(layers := s.layers) == s
    ensures c.SetSelectedLayerId? ==> r.selectedLayerId == c.id && r.(selectedLayerId := s.selectedLayerId) == s
    ensures c.SetProcessing? ==> r.isProcessing == c.processing && r.(isProcessing := s.isProcessing) == s
  {
    match c
    case SetCurrentProject(p) => s.(currentProject := p)
    case SetLayers(ls) => s.(layers := ls)
    case SetSelectedLayerId(id) => s.(selectedLayerId := id)
    case SetProcessing(b) => s.(isProcessing := b)
  }

  /** Whether two setters write the same field. */
  predicate SameField(a: Setter, b: Setter) {
    (a.SetCurrentProject? && b.SetCurrentProject?) || (a.SetLayers? && b.SetLayers?)
    || (a.SetSelectedLayerId? && b.SetSelectedLayerId?) || (a.SetProcessing? && b.SetProcessing?)
  }

  /* ---------- Properties ---------- */

  /** Setters of different fields commute; of the same field, the last wins. */
  lemma SettersCommute(s: EditorState, a: Setter, b: Setter)
    ensures !SameField(a, b) ==> ApplySetter(ApplySetter(s, a), b) == ApplySetter(ApplySetter(s, b), a)
    ensures SameField(a, b) ==> ApplySetter(ApplySetter(s, a), b) == ApplySetter(s, b)
  {
  }

  /** An empty patch changes nothing; a patch applied twice is applied once. */
  lemma UpdateAdjustmentsIdempotent(s: EditorState, p: AdjustmentsPatch)
    ensures UpdateAdjustments(s, NoChange) == s
    ensures UpdateAdjustments(UpdateAdjustments(s, p), p) == UpdateAdjustments(s, p)
  {
  }

  /** Resetting forgets every earlier update of the adjustments. */
  lemma ResetAfterUpdate(s: EditorState, p: AdjustmentsPatch)
    ensures ResetAdjustments(UpdateAdjustments(s, p)) == ResetAdjustments(s)
    ensures ResetAdjustments(s).adjustments == Initial.adjustments
  {
  }

  /** Undo followed by redo restores the index. */
  lemma UndoThenRedo(s: EditorState)
    requires Inv(s) && CanUndo(s)
    ensures Redo(Undo(s)) == s
  {
  }

  /** Undo right after recording returns to the previously current action. */
  lemma AddThenUndo(s: EditorState, action: Json)
    requires Inv(s) && s.historyIndex >= 0
    ensures var r := Undo(AddToHistory(s, action));
            r.historyIndex == s.historyIndex && r.historyStack[r.historyIndex] == s.historyStack[s.historyIndex]
  {
  }

  /** `undo` applied `n` times. */
  function UndoN(s: EditorState, n: nat): (r: EditorState)
    requires Inv(s)
    ensures Inv(r) && r.historyStack == s.historyStack
    decreases n
  {
    if n == 0 then s else UndoN(Undo(s), n - 1)
  }

  /** Undoing any number of times stops at the first entry: the index never
      returns to -1 once an action is recorded. */
  lemma {:induction false} UndoNeverEmptiesIndex(s: EditorState, n: nat)
    requires Inv(s) && |s.historyStack| > 0
    ensures UndoN(s, n).historyIndex == if s.historyIndex - n >= 0 then s.historyIndex - n else 0
    decreases n
  {
    if n > 0 {
      UndoNeverEmptiesIndex(Undo(s), n - 1);
    }
  }
}

=== FILE: history_manager.dfy ===
/** `HistoryManager`: a bounded undo/redo list of named snapshots with a
    cursor.  Recording a state discards the redo tail, appends, points the
    cursor at the new entry and, when the list is over its limit, drops the
    oldest entry.  Ids and timestamps (random and clock values in the
    source) are parameters; snapshot data is opaque JSON text. */
module HistoryManager {
  import opened Wrappers

  type Json = string

  datatype HistoryState = HistoryState(id: string, name: string, timestamp: int, data: Json)

  /** `index` is `currentIndex`; `maxSize` is the constructor argument. */
  datatype History = History(entries: seq<HistoryState>, index: int, maxSize: int)

  const DefaultMaxSize: int := 50

  function Max(a: int, b: int): int { if a >= b then a else b }

  function Min(a: int, b: int): int { if a <= b then a else b }

  /** The cursor points into the list or is -1 exactly when the list is
      empty, and the list never holds more than `maxSize` entries (none when
      `maxSize` is not positive). */
  predicate Inv(h: History) {
    && -1 <= h.index < |h.entries|
    && (h.index == -1 <==> |h.entries| == 0)
    && |h.entries| <= Max(0, h.maxSize)
  }

  function NewHistory(maxSize: int): (h: History)
    ensures Inv(h) && h.entries == [] && h.maxSize == maxSize
  {
    History([], -1, maxSize)
  }

  predicate CanUndo(h: History) { h.index > 0 }

  predicate CanRedo(h: History) { h.index < |h.entries| - 1 }

  /** `getCurrentState`. */
  function CurrentState(h: History): (r: Option<HistoryState>)
    requires Inv(h)
    ensures r.None? <==> h.index == -1
    ensures r.Some? ==> r.value in h.entries && r.value == h.entries[h.index]
  {
    if h.index == -1 then None else Some(h.entries[h.index])
  }

  /** `addState`. */
  function AddState(h: History, s: HistoryState): (r: History)
    requires Inv(h)
    ensures Inv(r) && r.maxSize == h.maxSize
    ensures !CanRedo(r)
    ensures h.maxSize >= 1 ==> CurrentState(r) == Some(s)
    ensures h.maxSize < 1 ==> r.entries == [] && r.index == -1
    // what is kept: the entries up to the cursor, then `s`, minus the
    // oldest entry exactly when that sequence is over the limit
    ensures var kept := h.entries[..h.index + 1] + [s];
            if |kept| > h.maxSize then r.entries == kept[1..] else r.entries == kept
  {
    var trimmed := if h.index < |h.entries| - 1 then h.entries[..h.index + 1] else h.entries;
    assert trimmed == h.entries[..h.index + 1];
    var pushed := trimmed + [s];
    if |pushed| > h.maxSize then History(pushed[1..], |pushed| - 2, h.maxSize)
    else History(pushed, |pushed| - 1, h.maxSize)
  }

  /** `undo`: null and no change unless `canUndo`; otherwise the cursor
      moves back one and the state it lands on is returned. */
  function Undo(h: History): (res: (History, Option<HistoryState>))
    requires Inv(h)
    ensures Inv(res.0) && res.0.entries == h.entries && res.0.maxSize == h.maxSize
    ensures !CanUndo(h) ==> res == (h, None)
    ensures CanUndo(h) ==> res.0.index == h.index - 1 && res.1 == CurrentState(res.0) && res.1.Some?
  {
    if !CanUndo(h) then (h, None)
    else
      var h' := h.(index := h.index - 1);
      (h', Some(h'.entries[h'.index]))
  }

  /** `redo`: null and no change unless `canRedo`; otherwise the cursor
      moves forward one and the state it lands on is returned. */
  function Redo(h: History): (res: (History, Option<HistoryState>))
    requires Inv(h)
    ensures Inv(res.0) && res.0.entries == h.entries && res.0.maxSize == h.maxSize
    ensures !CanRedo(h) ==> res == (h, None)
    ensures CanRedo(h) ==> res.0.index == h.index + 1 && res.1 == CurrentState(res.0) && res.1.Some?
  {
    if !CanRedo(h) then (h, None)
    else
      var h' := h.(index := h.index + 1);
      (h', Some(h'.entries[h'.index]))
  }

  /** `clear`. */
  function Clear(h: History): (r: History)
    ensures Inv(r) && r.maxSize == h.maxSize
    ensures CurrentState(r).None? && !CanUndo(r) && !CanRedo(r)
  {
    History([], -1, h.maxSize)
  }

  /* ---------- Properties ---------- */

  /** Undo followed by redo returns to the same position and state. */
  lemma UndoThenRedo(h: History)
    requires Inv(h) && CanUndo(h)
    ensures Redo(Undo(h).0) == (h, CurrentState(h))
  {
  }

  /** Redo followed by undo returns to the same position and state. */
  lemma RedoThenUndo(h: History)
    requires Inv(h) && CanRedo(h) && h.index >= 0
    ensures Undo(Redo(h).0) == (h, CurrentState(h))
  {
  }

  /** Undo right after recording a state goes back to the state that was
      current before it, provided nothing was dropped for size. */
  lemma AddThenUndo(h: History, s: HistoryState)
    requires Inv(h) && h.index >= 0 && h.index + 2 <= h.maxSize
    ensures Undo(AddState(h, s)).1 == CurrentState(h)
  {
  }

  /** The first recorded state can never be undone to an empty cursor. */
  lemma FirstStateNotUndoable(h: History, s: HistoryState)
    requires Inv(h)
    ensures !CanUndo(AddState(Clear(h), s))
  {
  }

  /** Recording several states in turn. */
  function AddAll(h: History, ss: seq<HistoryState>): (r: History)
    requires Inv(h)
    ensures Inv(r)
    decreases |ss|
  {
    if |ss| == 0 then h else AddAll(AddState(h, ss[0]), ss[1..])
  }

  /** From a cursor at the end, recording `ss` leaves the last
      `min(n + |ss|, maxSize)` states with the cursor on the newest: the
      oldest entries are the ones dropped. */
  lemma {:induction false} AddAllKeepsNewest(h: History, ss: seq<HistoryState>)
    requires Inv(h) && h.index == |h.entries| - 1
    ensures var r := AddAll(h, ss);
            var all := h.entries + ss;
            && |r.entries| == Min(|all|, Max(0, h.maxSize))
            && r.entries == all[|all| - |r.entries|..]
            && r.index == |r.entries| - 1
    decreases |ss|
  {
    var all := h.entries + ss;
    if |ss| == 0 {
      assert all == h.entries;
    } else {
      var h1 := AddState(h, ss[0]);
      assert h.entries[..h.index + 1] == h.entries;
      AddAllKeepsNewest(h1, ss[1..]);
      var all1 := h1.entries + ss[1..];
      assert all1 == all[|all| - |all1|..];
    }
  }
}

=== FILE: image_ops.dfy ===
/** The integer and string arithmetic of the backend's `ImageProcessor`:
    the bounds clamping of `crop_image` together with the slice it takes,
    and the colour parsing and point pairing of `apply_brush_stroke`.  The
    pixels themselves and the OpenCV drawing calls are not modelled: a crop
    is a sub-grid of an arbitrary pixel type, and a brush stroke is the list
    of line-drawing calls it would make. */
module ImageOps {
  import opened Wrappers
  import opened Strings

  function Min(a: int, b: int): int { if a <= b then a else b }

  function Max(a: int, b: int): int { if a >= b then a else b }

  /* ---------- crop_image ---------- */

  /** One bound of a Python slice `[lo:hi]` (step 1) over an axis of length
      `n`: a negative bound counts from the end, and the result is cut into
      `[0, n]`. */
  function SliceBound(n: nat, s: int): (r: int)
    ensures 0 <= r <= n
    ensures 0 <= s <= n ==> r == s
  {
    if s < 0 then Max(0, s + n) else Min(s, n)
  }

  /** The part of one axis a crop keeps: where it starts and how many
      pixels it keeps. */
  datatype Span = Span(start: int, extent: int)

  /** A span lies within an axis of length `n`. */
  predicate Within(s: Span, n: nat) {
    0 <= s.start && 0 <= s.extent && s.start + s.extent <= n
  }

  /** The clamping of `crop_image` on one axis as the source writes it,
      followed by the slice `[p : p + l]`: the position is clamped into
      `[0, n]`, the length is capped at what remains, and the slice is then
      taken with Python's rules, so a negative stop counts from the end. */
  function CropSpanAsWritten(n: nat, pos: int, len: int): (r: Span)
    ensures Within(r, n)
    ensures r.start == Max(0, Min(pos, n))
  {
    var p := Max(0, Min(pos, n));
    var l := Min(len, n - p);
    var stop := SliceBound(n, p + l);
    Span(p, Max(0, stop - p))
  }

  /** The clamping as intended: the length is capped at what remains and
      never drops below zero. */
  function CropSpan(n: nat, pos: int, len: int): (r: Span)
    ensures Within(r, n)
    ensures r.start == Max(0, Min(pos, n))
    ensures r.extent <= Max(0, len)
    ensures len <= 0 ==> r.extent == 0
  {
    var p := Max(0, Min(pos, n));
    Span(p, Max(0, Min(len, n - p)))
  }

  /** The rows of `sy`, each cut to the columns of `sx`. */
  function SubGrid<T>(img: seq<seq<T>>, width: nat, sx: Span, sy: Span): (r: seq<seq<T>>)
    requires forall i :: 0 <= i < |img| ==> |img[i]| == width
    requires Within(sx, width) && Within(sy, |img|)
    ensures |r| == sy.extent
    ensures forall i :: 0 <= i < |r| ==>
              |r[i]| == sx.extent
              && forall j :: 0 <= j < sx.extent ==> r[i][j] == img[sy.start + i][sx.start + j]
  {
    seq(sy.extent, i requires 0 <= i < sy.extent => img[sy.start + i][sx.start..sx.start + sx.extent])
  }

  /** `crop_image` on a grid of `width` columns, as the source writes it:
      the rows and columns of the spans its clamping and slicing keep. */
  function CropImageAsWritten<T>(img: seq<seq<T>>, width: nat, x: int, y: int, w: int, h: int): (r: seq<seq<T>>)
    requires forall i :: 0 <= i < |img| ==> |img[i]| == width
    ensures var sx := CropSpanAsWritten(width, x, w);
            var sy := CropSpanAsWritten(|img|, y, h);
            && |r| == sy.extent
            && forall i :: 0 <= i < |r| ==>
                 |r[i]| == sx.extent
                 && forall j :: 0 <= j < sx.extent ==> r[i][j] == img[sy.start + i][sx.start + j]
  {
    SubGrid(img, width, CropSpanAsWritten(width, x, w), CropSpanAsWritten(|img|, y, h))
  }

  /** `crop_image` with the corrected clamping, which the rest of the model
      uses: a negative width or height keeps nothing. */
  function CropImage<T>(img: seq<seq<T>>, width: nat, x: int, y: int, w: int, h: int): (r: seq<seq<T>>)
    requires forall i :: 0 <= i < |img| ==> |img[i]| == width
    ensures var sx := CropSpan(width, x, w);
            var sy := CropSpan(|img|, y, h);
            && |r| == sy.extent
            && forall i :: 0 <= i < |r| ==>
                 |r[i]| == sx.extent
                 && forall j :: 0 <= j < sx.extent ==> r[i][j] == img[sy.start + i][sx.start + j]
  {
    SubGrid(img, width, CropSpan(width, x, w), CropSpan(|img|, y, h))
  }

  /** For a non-negative width and height the source's crop and the
      corrected one are the same grid. */
  lemma CropImagesAgreeOnNonNegative<T>(img: seq<seq<T>>, width: nat, x: int, y: int, w: int, h: int)
    requires forall i :: 0 <= i < |img| ==> |img[i]| == width
    requires w >= 0 && h >= 0
    ensures CropImageAsWritten(img, width, x, y, w, h) == CropImage(img, width, x, y, w, h)
  {
    AsWrittenAgreesOnNonNegative(width, x, w);
    AsWrittenAgreesOnNonNegative(|img|, y, h);
  }

  /** On a grid ten columns wide, a crop at column 0 of width -1 keeps nine
      columns of each kept row as written, and none with the correction. */
  lemma NegativeWidthKeepsNineColumns<T>(img: seq<seq<T>>, y: int, h: int)
    requires forall i :: 0 <= i < |img| ==> |img[i]| == 10
    requires h >= 0
    ensures var a := CropImageAsWritten(img, 10, 0, y, -1, h);
            var c := CropImage(img, 10, 0, y, -1, h);
            && |a| == |c|
            && forall i :: 0 <= i < |a| ==> |a[i]| == 9 && |c[i]| == 0
  {
    NegativeWidthWraps();
    AsWrittenAgreesOnNonNegative(|img|, y, h);
  }

  /* ---------- Crop properties ---------- */

  /** Python's slice bound: a stop before the start of the axis counts back
      from its end. */
  lemma SliceBoundCountsFromEnd(n: nat, s: int)
    requires s < 0 && n + s >= 0
    ensures SliceBound(n, s) == n + s
  {
  }

  /** A rectangle already inside the image is kept exactly. */
  lemma InsideSpanUnchanged(n: nat, pos: int, len: int)
    requires 0 <= pos && 0 <= len && pos + len <= n
    ensures CropSpan(n, pos, len) == Span(pos, len)
    ensures CropSpanAsWritten(n, pos, len) == Span(pos, len)
  {
  }

  /** The crop is the largest span inside the axis: for a non-negative
      length it keeps the requested length or everything that remains. */
  lemma CropSpanIsMaximal(n: nat, pos: int, len: int)
    requires len >= 0
    ensures var r := CropSpan(n, pos, len);
            r.extent == len || r.start + r.extent == n
  {
  }

  /** For non-negative lengths the source and the intended clamping agree:
      they differ only on negative lengths. */
  lemma AsWrittenAgreesOnNonNegative(n: nat, pos: int, len: int)
    requires len >= 0
    ensures CropSpanAsWritten(n, pos, len) == CropSpan(n, pos, len)
  {
  }

  /** A negative length as written: on an axis of ten pixels, a crop at 0
      of length -1 keeps nine pixels, since the slice `[0:-1]` stops one
      short of the end. */
  lemma NegativeWidthWraps()
    ensures CropSpanAsWritten(10, 0, -1) == Span(0, 9)
    ensures CropSpan(10, 0, -1) == Span(0, 0)
  {
  }

  /** As written, a negative length that carries the stop before the start
      of the axis wraps around: the crop keeps `n + len` pixels from the
      clamped position instead of none. */
  lemma NegativeLengthKeepsPixels(n: nat, pos: int, len: int)
    requires 0 <= pos <= n && n + len > 0 && pos + len < 0
    ensures CropSpanAsWritten(n, pos, len) == Span(pos, n + len)
    ensures CropSpanAsWritten(n, pos, len).extent > 0
    ensures CropSpan(n, pos, len).extent == 0
  {
  }

  /** A negative length that keeps the stop at or after the start of the
      axis gives an empty crop, as intended. */
  lemma NegativeLengthNearStartIsEmpty(n: nat, pos: int, len: int)
    requires 0 <= pos <= n && len < 0 && pos + len >= 0
    ensures CropSpanAsWritten(n, pos, len) == CropSpan(n, pos, len) == Span(pos, 0)
  {
  }

  /** Cropping a whole grid keeps it. */
  lemma CropWholeImage<T>(img: seq<seq<T>>, width: nat)
    requires forall i :: 0 <= i < |img| ==> |img[i]| == width
    ensures CropImage(img, width, 0, 0, width, |img|) == img
  {
    var r := CropImage(img, width, 0, 0, width, |img|);
    assert |r| == |img|;
    forall i | 0 <= i < |img| ensures r[i] == img[i] {
      assert |r[i]| == |img[i]|;
    }
  }

  /* ---------- Hex colour parsing ---------- */

  /** A Red, Green, Blue triple in the order OpenCV takes it: blue first. */
  datatype Bgr = Bgr(b: int, g: int, r: int)

  /** `color.lstrip('#')`: the longest tail that does not start with `#`,
      everything before it being `#`. */
  function StripHashes(s: string): (r: string)
    ensures |r| <= |s| && r == s[|s| - |r|..]
    ensures |r| == 0 || r[0] != '#'
    ensures forall i :: 0 <= i < |s| - |r| ==> s[i] == '#'
    decreases |s|
  {
    if |s| > 0 && s[0] == '#' then
      var r := StripHashes(s[1..]);
      assert s[1..][|s| - 1 - |r|..] == s[|s| - |r|..];
      assert forall i :: 1 <= i < |s| - |r| ==> s[i] == s[1..][i - 1];
      r
    else
      s
  }

  /** The value of one hexadecimal digit, either case. */
  function HexDigit(c: char): (r: Option<int>)
    ensures r.Some? ==> 0 <= r.value < 16
  {
    if '0' <= c <= '9' then Some(c as int - '0' as int)
    else if 'a' <= c <= 'f' then Some(c as int - 'a' as int + 10)
    else if 'A' <= c <= 'F' then Some(c as int - 'A' as int + 10)
    else None
  }

  /** `s.strip()` for strings of at most two characters. */
  function StripShort(s: string): (r: string)
    requires |s| <= 2
    ensures |r| <= |s|
    ensures |r| > 0 ==> !IsSpace(r[0]) && !IsSpace(r[|r| - 1])
  {
    if |s| == 0 then s
    else if IsSpace(s[0]) then (if |s| == 2 && !IsSpace(s[1]) then s[1..] else [])
    else if IsSpace(s[|s| - 1]) then s[..|s| - 1]
    else s
  }

  /** `int(s, 16)` on a slice of at most two characters: surrounding white
      space is ignored, a sign may precede a single digit, and anything
      else that is not one or two hexadecimal digits is a `ValueError`
      (no digits, a lone sign, `0x` without digits, an underscore at an
      edge). */
  function ParseHexPair(s: string): (r: Option<int>)
    requires |s| <= 2
    ensures r.Some? ==> -15 <= r.value <= 255
  {
    var t := StripShort(s);
    if |t| == 1 then HexDigit(t[0])
    else if |t| == 2 then
      if (t[0] == '+' || t[0] == '-') && HexDigit(t[1]).Some? then
        Some(if t[0] == '-' then -HexDigit(t[1]).value else HexDigit(t[1]).value)
      else if HexDigit(t[0]).Some? && HexDigit(t[1]).Some? then
        Some(16 * HexDigit(t[0]).value + HexDigit(t[1]).value)
      else None
    else None
  }

  /** `color[i:i+2]`: Python slices stop at the end of the string. */
  function Pair(c: string, i: nat): (r: string)
    ensures |r| <= 2
    ensures i + 2 <= |c| ==> r == c[i..i + 2]
  {
    c[Min(i, |c|)..Min(i + 2, |c|)]
  }

  /** The colour parsing of `apply_brush_stroke`: leading `#`s dropped,
      then the red, green and blue pairs at offsets 0, 2 and 4, handed back
      blue first.  A malformed pair raises, which is `None` here. */
  function ParseHexColor(color: string): (r: Option<Bgr>)
    ensures r.Some? ==> && -15 <= r.value.r <= 255 && -15 <= r.value.g <= 255 && -15 <= r.value.b <= 255
    ensures |StripHashes(color)| <= 4 ==> r.None?
  {
    var c := StripHashes(color);
    var r := ParseHexPair(Pair(c, 0));
    var g := ParseHexPair(Pair(c, 2));
    var b := ParseHexPair(Pair(c, 4));
    if r.Some? && g.Some? && b.Some? then Some(Bgr(b.value, g.value, r.value)) else None
  }

  /* ---------- Hex colour properties ---------- */

  /** The upper-case hexadecimal digit of `d`. */
  function HexChar(d: int): (c: char)
    requires 0 <= d < 16
    ensures HexDigit(c) == Some(d)
  {
    if d < 10 then ('0' as int + d) as char else ('A' as int + d - 10) as char
  }

  /** Two hexadecimal digits for a channel value. */
  function Hex2(v: int): (s: string)
    requires 0 <= v < 256
    ensures |s| == 2
  {
    [HexChar(v / 16), HexChar(v % 16)]
  }

  /** The `#RRGGBB` form the frontend sends. */
  function FormatHexColor(r: int, g: int, b: int): (s: string)
    requires 0 <= r < 256 && 0 <= g < 256 && 0 <= b < 256
    ensures |s| == 7 && s[0] == '#'
  {
    "#" + Hex2(r) + Hex2(g) + Hex2(b)
  }

  /** `k` hash signs. */
  function Hashes(k: nat): (s: string)
    ensures |s| == k && forall i :: 0 <= i < k ==> s[i] == '#'
  {
    seq(k, i => '#')
  }

  /** Stripping removes exactly the leading hash signs. */
  lemma {:induction false} StripLeadingHashes(k: nat, body: string)
    requires |body| == 0 || body[0] != '#'
    ensures StripHashes(Hashes(k) + body) == body
    decreases k
  {
    if k > 0 {
      assert (Hashes(k) + body)[1..] == Hashes(k - 1) + body;
      StripLeadingHashes(k - 1, body);
    } else {
      assert Hashes(0) + body == body;
    }
  }

  /** Hexadecimal digits read the same in either case. */
  lemma HexDigitIgnoresCase(c: char)
    ensures HexDigit(LowerChar(c)) == HexDigit(c)
    ensures HexDigit(UpperChar(c)) == HexDigit(c)
  {
  }

  /** A formatted pair parses back to its value. */
  lemma ParseHex2(v: int)
    requires 0 <= v < 256
    ensures ParseHexPair(Hex2(v)) == Some(v)
  {
  }

  /** The colour is read from the three pairs of the stripped string. */
  lemma ParseOfPairs(color: string, r: int, g: int, b: int)
    requires ParseHexPair(Pair(StripHashes(color), 0)) == Some(r)
    requires ParseHexPair(Pair(StripHashes(color), 2)) == Some(g)
    requires ParseHexPair(Pair(StripHashes(color), 4)) == Some(b)
    ensures ParseHexColor(color) == Some(Bgr(b, g, r))
  {
  }

  /** The pairs of three two-character pieces are the pieces. */
  lemma PairsOfPieces(x: string, y: string, z: string, tail: string)
    requires |x| == 2 && |y| == 2 && |z| == 2
    ensures Pair(x + y + z + tail, 0) == x
    ensures Pair(x + y + z + tail, 2) == y
    ensures Pair(x + y + z + tail, 4) == z
  {
    var s := x + y + z + tail;
    assert s[0..2] == x;
    assert s[2..4] == y;
    assert s[4..6] == z;
  }

  /** Parsing undoes formatting, behind any number of hash signs, and hands
      the channels back blue first. */
  lemma ParseFormatted(r: int, g: int, b: int, k: nat)
    requires 0 <= r < 256 && 0 <= g < 256 && 0 <= b < 256
    ensures ParseHexColor(Hashes(k) + FormatHexColor(r, g, b)[1..]) == Some(Bgr(b, g, r))
  {
    var body := Hex2(r) + Hex2(g) + Hex2(b);
    assert FormatHexColor(r, g, b)[1..] == body;
    assert body[0] != '#' by {
      assert body[0] == HexChar(r / 16);
    }
    StripLeadingHashes(k, body);
    PairsOfPieces(Hex2(r), Hex2(g), Hex2(b), "");
    assert Hex2(r) + Hex2(g) + Hex2(b) + "" == body;
    ParseHex2(r);
    ParseHex2(g);
    ParseHex2(b);
    ParseOfPairs(Hashes(k) + body, r, g, b);
  }

  /** Two colours with the same three pairs parse alike. */
  lemma SamePairsSameColour(c1: string, c2: string)
    requires Pair(StripHashes(c1), 0) == Pair(StripHashes(c2), 0)
    requires Pair(StripHashes(c1), 2) == Pair(StripHashes(c2), 2)
    requires Pair(StripHashes(c1), 4) == Pair(StripHashes(c2), 4)
    ensures ParseHexColor(c1) == ParseHexColor(c2)
  {
  }

  /** Stripping a string that has more than hash signs commutes with
      appending to it. */
  lemma {:induction false} StripAppend(s: string, tail: string)
    requires StripHashes(s) != ""
    ensures StripHashes(s + tail) == StripHashes(s) + tail
    decreases |s|
  {
    assert |s| > 0 && (s + tail)[0] == s[0];
    if s[0] == '#' {
      assert (s + tail)[1..] == s[1..] + tail;
      StripAppend(s[1..], tail);
    } else {
      assert StripHashes(s) == s;
      assert StripHashes(s + tail) == s + tail;
    }
  }

  /** Appending after six stripped characters leaves the three pairs. */
  lemma TrailingPairs(color: string, tail: string)
    requires |StripHashes(color)| >= 6
    ensures Pair(StripHashes(color + tail), 0) == Pair(StripHashes(color), 0)
    ensures Pair(StripHashes(color + tail), 2) == Pair(StripHashes(color), 2)
    ensures Pair(StripHashes(color + tail), 4) == Pair(StripHashes(color), 4)
  {
    StripAppend(color, tail);
    PairsOfAppend(StripHashes(color), tail);
  }

  lemma PairsOfAppend(c: string, tail: string)
    requires |c| >= 6
    ensures Pair(c + tail, 0) == Pair(c, 0)
    ensures Pair(c + tail, 2) == Pair(c, 2)
    ensures Pair(c + tail, 4) == Pair(c, 4)
  {
    var d := c + tail;
    assert d[0..2] == c[0..2];
    assert d[2..4] == c[2..4];
    assert d[4..6] == c[4..6];
  }

  /** Only the first six characters after the hash signs are read. */
  lemma TrailingCharactersIgnored(color: string, tail: string)
    requires |StripHashes(color)| >= 6
    ensures ParseHexColor(color + tail) == ParseHexColor(color)
  {
    TrailingPairs(color, tail);
    SamePairsSameColour(color + tail, color);
  }

  /** A pair may carry a sign: `#-10000` is read with red at -1. */
  lemma SignedPairAccepted(color: string)
    requires color == "#-10000"
    ensures ParseHexColor(color) == Some(Bgr(0, 0, -1))
  {
    var body := "-1" + "00" + "00";
    assert color == Hashes(1) + body;
    StripLeadingHashes(1, body);
    PairsOfPieces("-1", "00", "00", "");
    assert "-1" + "00" + "00" + "" == body;
    SignedPieces();
    ParseOfPairs(color, -1, 0, 0);
  }

  lemma SignedPieces()
    ensures ParseHexPair("-1") == Some(-1)
    ensures ParseHexPair("00") == Some(0)
  {
  }

  /** The three-digit shorthand is rejected: the blue slice is empty. */
  lemma ShorthandRejected(color: string)
    requires color == "#FFF"
    ensures ParseHexColor(color).None?
  {
    StripLeadingHashes(1, "FFF");
    assert Hashes(1) + "FFF" == color;
  }

  /* ---------- Point pairing ---------- */

  /** `int(v)` on a number: truncation toward zero. */
  function Trunc(v: real): (r: int)
    ensures v >= 0.0 ==> r as real <= v < r as real + 1.0
    ensures v < 0.0 ==> r as real - 1.0 < v <= r as real
  {
    if v >= 0.0 then v.Floor else -((-v).Floor)
  }

  datatype Point = Point(x: int, y: int)

  /** `[(int(points[i]), int(points[i+1])) for i in range(start, len(points)-1, 2)]`,
      from an even `start`. */
  function PairsFrom(points: seq<real>, start: nat): (r: seq<Point>)
    requires start % 2 == 0
    ensures |r| == (if start < |points| then (|points| - start) / 2 else 0)
    ensures forall k :: 0 <= k < |r| ==>
              r[k] == Point(Trunc(points[start + 2 * k]), Trunc(points[start + 2 * k + 1]))
    decreases |points| - start
  {
    if start < |points| - 1 then
      [Point(Trunc(points[start]), Trunc(points[start + 1]))] + PairsFrom(points, start + 2)
    else []
  }

  /** The pairs of a flattened coordinate list. */
  function PointPairs(points: seq<real>): (r: seq<Point>)
    ensures |r| == |points| / 2
  {
    PairsFrom(points, 0)
  }

  /** One `cv2.line` call of a stroke: its end points and pen. */
  datatype Line = Line(from: Point, to: Point, color: Bgr, size: int, opacity: real)

  /** The lines between consecutive points, in order, all with one pen. */
  function StrokeLines(pairs: seq<Point>, color: Bgr, size: int, opacity: real): (r: seq<Line>)
    ensures |r| == Max(0, |pairs| - 1)
    ensures forall i :: 0 <= i < |r| ==> r[i] == Line(pairs[i], pairs[i + 1], color, size, opacity)
  {
    seq(Max(0, |pairs| - 1), i requires 0 <= i < |pairs| - 1 => Line(pairs[i], pairs[i + 1], color, size, opacity))
  }

  /** `apply_brush_stroke`: the lines drawn, one between each pair of
      consecutive points, in order; a malformed colour raises before any is
      drawn.  Each line is drawn on a copy, so the input image is never
      touched. */
  function BrushStrokeLines(points: seq<real>, color: string, size: int, opacity: real): (r: Option<seq<Line>>)
    ensures r.None? <==> ParseHexColor(color).None?
    ensures r.Some? ==> r.value == StrokeLines(PointPairs(points), ParseHexColor(color).value, size, opacity)
  {
    match ParseHexColor(color)
    case None => None
    case Some(bgr) => Some(StrokeLines(PointPairs(points), bgr, size, opacity))
  }

  /* ---------- Point pairing properties ---------- */

  /** Whole coordinates as the numbers the request carries. */
  function AsReals(vs: seq<int>): (r: seq<real>)
    ensures |r| == |vs| && forall i :: 0 <= i < |vs| ==> r[i] == vs[i] as real
  {
    seq(|vs|, i requires 0 <= i < |vs| => vs[i] as real)
  }

  /** The coordinates of a list of points, flattened. */
  function Flatten(ps: seq<Point>): (r: seq<int>)
    ensures |r| == 2 * |ps|
    ensures forall k :: 0 <= k < |ps| ==> r[2 * k] == ps[k].x && r[2 * k + 1] == ps[k].y
  {
    if |ps| == 0 then [] else [ps[0].x, ps[0].y] + Flatten(ps[1..])
  }

  /** Pairing undoes flattening. */
  lemma PairsOfFlattened(ps: seq<Point>)
    ensures PointPairs(AsReals(Flatten(ps))) == ps
  {
    var r := PointPairs(AsReals(Flatten(ps)));
    forall k | 0 <= k < |ps| ensures r[k] == ps[k] {
      assert r[k] == Point(Trunc(ps[k].x as real), Trunc(ps[k].y as real));
    }
  }

  /** An odd trailing coordinate is dropped. */
  lemma OddCoordinateDropped(points: seq<real>, v: real)
    requires |points| % 2 == 0
    ensures PointPairs(points + [v]) == PointPairs(points)
  {
    var a := PointPairs(points + [v]);
    var b := PointPairs(points);
    forall k | 0 <= k < |a| ensures a[k] == b[k] {
      assert (points + [v])[2 * k] == points[2 * k];
      assert (points + [v])[2 * k + 1] == points[2 * k + 1];
    }
  }

  /** `int()` truncates toward zero, unlike flooring. */
  lemma TruncTowardZero()
    ensures Trunc(-1.5) == -1 && Trunc(1.5) == 1 && Trunc(-2.0) == -2
  {
  }

  /** Each line joins a point to the next one, so consecutive lines meet. */
  lemma LinesAreConnected(pairs: seq<Point>, color: Bgr, size: int, opacity: real)
    ensures var ls := StrokeLines(pairs, color, size, opacity);
            && (forall i :: 0 <= i < |ls| ==> ls[i].from == pairs[i] && ls[i].to == pairs[i + 1])
            && (forall i :: 0 < i < |ls| ==> ls[i].from == ls[i - 1].to)
  {
  }

  /** One point, or none, draws nothing. */
  lemma SinglePointDrawsNothing(points: seq<real>, color: string, size: int, opacity: real)
    requires |points| < 4 && ParseHexColor(color).Some?
    ensures BrushStrokeLines(points, color, size, opacity) == Some([])
  {
  }
}

=== FILE: keyboard.dfy ===
/** The key dispatch of the editor's `useKeyboard` hook as a pure function:
    from the key, the modifier flags, the platform string and the focused
    element to at most one editor action.  The branches are tried in the
    source's order and the first that matches wins. */
module Keyboard {
  import opened Wrappers
  import opened Strings

  datatype Tool = Move | Crop | Brush | TextTool | Shapes

  datatype Action =
    | Save | Export | NewProject | Undo | Redo
    | SelectTool(tool: Tool) | ShowHelp
    | DuplicateLayer | DeleteLayer | MoveLayerDown | MoveLayerUp
    | ZoomIn | ZoomOut | ZoomReset | ZoomFit

  datatype KeyEvent = KeyEvent(key: string, ctrlKey: bool, metaKey: bool, shiftKey: bool)

  /** The element the keystroke is aimed at. */
  datatype Target = Target(tagName: string, isContentEditable: bool)

  /** The platform string names a Mac when it contains "MAC" in any case. */
  predicate IsMac(platform: string) {
    Contains(Upper(platform), "MAC")
  }

  /** "cmd": the Command key on a Mac, Control elsewhere. */
  predicate Cmd(e: KeyEvent, platform: string) {
    if IsMac(platform) then e.metaKey else e.ctrlKey
  }

  /** A text field or content-editable element takes the keystroke. */
  predicate Editable(t: Target) {
    t.tagName == "INPUT" || t.tagName == "TEXTAREA" || t.isContentEditable
  }

  /** The tool or help letter of the unmodified branch. */
  function LetterAction(k: string): (r: Option<Action>)
    ensures r.Some? <==> k in {"v", "c", "b", "t", "s", "?"}
  {
    if k == "v" then Some(SelectTool(Move))
    else if k == "c" then Some(SelectTool(Crop))
    else if k == "b" then Some(SelectTool(Brush))
    else if k == "t" then Some(SelectTool(TextTool))
    else if k == "s" then Some(SelectTool(Shapes))
    else if k == "?" then Some(ShowHelp)
    else None
  }

  /** `handleKeyDown`: the action whose callback is invoked, if any (the
      callback itself is optional in the source; whether it is supplied does
      not change which branch is taken). */
  function HandleKeyDown(e: KeyEvent, platform: string, target: Target): (r: Option<Action>)
    ensures Editable(target) ==> r.None?
  {
    var cmd := Cmd(e, platform);
    var k := Lower(e.key);
    if Editable(target) then None
    else if cmd && k == "s" then Some(Save)
    else if cmd && k == "e" then Some(Export)
    else if cmd && k == "n" then Some(NewProject)
    else if cmd && !e.shiftKey && k == "z" then Some(Undo)
    else if (cmd && e.shiftKey && k == "z") || (cmd && k == "y") then Some(Redo)
    else if !cmd && !e.shiftKey && !e.metaKey && LetterAction(k).Some? then LetterAction(k)
    else if cmd && k == "j" then Some(DuplicateLayer)
    else if (e.key == "Delete" || e.key == "Backspace") && target.tagName != "INPUT" && target.tagName != "TEXTAREA" then Some(DeleteLayer)
    else if cmd && e.key == "[" then Some(MoveLayerDown)
    else if cmd && e.key == "]" then Some(MoveLayerUp)
    else if !cmd && (e.key == "+" || e.key == "=") then Some(ZoomIn)
    else if !cmd && e.key == "-" then Some(ZoomOut)
    else if !cmd && e.key == "0" then Some(ZoomReset)
    else if cmd && e.key == "0" then Some(ZoomFit)
    else None
  }

  /* ---------- Properties ---------- */

  /** cmd+S saves, in either case. */
  lemma SaveIff(e: KeyEvent, platform: string, target: Target)
    ensures HandleKeyDown(e, platform, target) == Some(Save) <==>
              !Editable(target) && Cmd(e, platform) && (e.key == "s" || e.key == "S")
  {
    LowerIsLetter(e.key, 's');
  }

  /** cmd+Z without Shift undoes. */
  lemma UndoIff(e: KeyEvent, platform: string, target: Target)
    ensures HandleKeyDown(e, platform, target) == Some(Undo) <==>
              !Editable(target) && Cmd(e, platform) && !e.shiftKey && (e.key == "z" || e.key == "Z")
  {
    LowerIsLetter(e.key, 'z');
    LowerIsLetter(e.key, 's');
    LowerIsLetter(e.key, 'e');
    LowerIsLetter(e.key, 'n');
  }

  /** cmd+Shift+Z or cmd+Y redoes. */
  lemma RedoIff(e: KeyEvent, platform: string, target: Target)
    ensures HandleKeyDown(e, platform, target) == Some(Redo) <==>
              && !Editable(target) && Cmd(e, platform)
              && ((e.shiftKey && (e.key == "z" || e.key == "Z")) || e.key == "y" || e.key == "Y")
  {
    LowerIsLetter(e.key, 'z');
    LowerIsLetter(e.key, 'y');
    LowerIsLetter(e.key, 's');
    LowerIsLetter(e.key, 'e');
    LowerIsLetter(e.key, 'n');
  }

  /** The letter selecting each tool. */
  function ToolLetter(t: Tool): char
  {
    match t
    case Move => 'v'
    case Crop => 'c'
    case Brush => 'b'
    case TextTool => 't'
    case Shapes => 's'
  }

  /** A tool letter in either case selects its tool, and only with no cmd,
      Shift or Meta held. */
  lemma SelectToolIff(e: KeyEvent, platform: string, target: Target, t: Tool)
    ensures HandleKeyDown(e, platform, target) == Some(SelectTool(t)) <==>
              && !Editable(target) && !Cmd(e, platform) && !e.shiftKey && !e.metaKey
              && (e.key == [ToolLetter(t)] || e.key == [(ToolLetter(t) as int - 32) as char])
  {
    LowerIsLetter(e.key, ToolLetter(t));
  }

  /** The plain `s` of the shapes tool and cmd+S never meet: with cmd held
      the save branch wins, without it the tool branch does. */
  lemma SaveAndShapesExclusive(e: KeyEvent, platform: string, target: Target)
    requires !Editable(target) && (e.key == "s" || e.key == "S")
    ensures Cmd(e, platform) ==> HandleKeyDown(e, platform, target) == Some(Save)
    ensures !Cmd(e, platform) && !e.shiftKey && !e.metaKey ==> HandleKeyDown(e, platform, target) == Some(SelectTool(Shapes))
  {
    LowerIsLetter(e.key, 's');
  }

  /** On a Mac, Control+S is not a save: it selects the shapes tool. */
  lemma MacControlSSelectsShapes(target: Target)
    requires !Editable(target)
    ensures HandleKeyDown(KeyEvent("s", true, false, false), "MacIntel", target) == Some(SelectTool(Shapes))
  {
    var u := Upper("MacIntel");
    assert u[0] == 'M' && u[1] == 'A' && u[2] == 'C';
    assert StartsWith(u, "MAC");
    LowerIsLetter("s", 's');
  }

  /** `?` needs Shift on most layouts, and with Shift held the help branch
      is never reached. */
  lemma ShiftedQuestionMarkShowsNoHelp(ctrl: bool, meta: bool, platform: string, target: Target)
    ensures HandleKeyDown(KeyEvent("?", ctrl, meta, true), platform, target) != Some(ShowHelp)
  {
  }

  /** `0` resets the zoom without cmd and fits it with cmd; Delete and
      Backspace delete the layer. */
  lemma ZoomAndDeleteKeys(e: KeyEvent, platform: string, target: Target)
    requires !Editable(target)
    ensures e.key == "0" ==> HandleKeyDown(e, platform, target) == Some(if Cmd(e, platform) then ZoomFit else ZoomReset)
    ensures e.key == "Delete" || e.key == "Backspace" ==> HandleKeyDown(e, platform, target) == Some(DeleteLayer)
  {
    if e.key == "0" {
      assert Lower(e.key) == "0";
    }
    if e.key == "Delete" {
      assert Lower(e.key)[0] == 'd';
    }
    if e.key == "Backspace" {
      assert Lower(e.key)[0] == 'b' && |Lower(e.key)| == 9;
    }
  }
}

=== FILE: keyboard_shortcuts.dfy ===
/** The `useKeyboardShortcuts` hook: four independent tests run in turn on
    each keystroke, each of which may invoke a callback.  Key comparisons
    are exact (case-sensitive), and Control and Meta are interchangeable. */
module KeyboardShortcuts {

  datatype Callback = OnSave | OnUndo | OnRedo | OnOpen | OnReset

  datatype KeyEvent = KeyEvent(key: string, ctrlKey: bool, metaKey: bool, shiftKey: bool)

  /** The callbacks invoked by one keystroke, in invocation order. */
  function Fired(e: KeyEvent): (r: seq<Callback>)
    ensures |r| <= 1
    ensures forall c :: c in r ==> c == OnReset || e.ctrlKey || e.metaKey
  {
    var modified := e.ctrlKey || e.metaKey;
    (if modified && e.key == "s" then [OnSave] else [])
    + (if modified && e.key == "z" then (if e.shiftKey then [OnRedo] else [OnUndo]) else [])
    + (if modified && e.key == "o" then [OnOpen] else [])
    + (if e.key == "Escape" then [OnReset] else [])
  }

  /* ---------- Properties ---------- */

  /** Which keystrokes fire each callback. */
  lemma FiredIff(e: KeyEvent)
    ensures OnSave in Fired(e) <==> (e.ctrlKey || e.metaKey) && e.key == "s"
    ensures OnUndo in Fired(e) <==> (e.ctrlKey || e.metaKey) && e.key == "z" && !e.shiftKey
    ensures OnRedo in Fired(e) <==> (e.ctrlKey || e.metaKey) && e.key == "z" && e.shiftKey
    ensures OnOpen in Fired(e) <==> (e.ctrlKey || e.metaKey) && e.key == "o"
    ensures OnReset in Fired(e) <==> e.key == "Escape"
  {
  }

  /** Escape resets whatever modifiers are held. */
  lemma EscapeAlwaysResets(ctrl: bool, meta: bool, shift: bool)
    ensures Fired(KeyEvent("Escape", ctrl, meta, shift)) == [OnReset]
  {
  }

  /** Upper-case letters fire nothing, even with a modifier. */
  lemma UpperCaseFiresNothing(ctrl: bool, meta: bool, shift: bool)
    ensures Fired(KeyEvent("S", ctrl, meta, shift)) == []
    ensures Fired(KeyEvent("Z", ctrl, meta, shift)) == []
    ensures Fired(KeyEvent("O", ctrl, meta, shift)) == []
  {
  }
}

=== FILE: layer_manager.dfy ===
/** `LayerManager`: an ordered list of layers with an optional active-layer
    id.  Every lookup finds the FIRST layer with a given id (`find` /
    `findIndex`); ids are not required to be unique, since `updateLayer`
    may overwrite an id.  New ids (random in the source) are parameters
    that must be fresh. */
module LayerManager {
  import opened Wrappers

  type Json = string

  datatype LayerType = Image | Text | Shape

  datatype Layer = Layer(id: string, name: string, visible: bool, locked: bool, opacity: int, layerType: LayerType, data: Json)

  datatype Layers = Layers(layers: seq<Layer>, active: Option<string>)

  /** A `Partial<Layer>`: the fields present in an update. */
  datatype LayerPatch = LayerPatch(
    id: Option<string>, name: Option<string>, visible: Option<bool>, locked: Option<bool>,
    opacity: Option<int>, layerType: Option<LayerType>, data: Option<Json>)

  const Empty := Layers([], None)

  predicate HasId(ls: seq<Layer>, id: string) {
    exists i :: 0 <= i < |ls| && ls[i].id == id
  }

  /** `findIndex(layer => layer.id === id)`. */
  function FindIndex(ls: seq<Layer>, id: string): (r: int)
    ensures -1 <= r < |ls|
    ensures r >= 0 ==> ls[r].id == id
    ensures forall j :: 0 <= j < |ls| && (r < 0 || j < r) ==> ls[j].id != id
  {
    if |ls| == 0 then -1
    else if ls[0].id == id then 0
    else
      var t := FindIndex(ls[1..], id);
      if t < 0 then -1 else t + 1
  }

  /** `createLayer`: appends a visible, unlocked, fully opaque layer and
      makes it active. */
  function CreateLayer(st: Layers, id: string, name: string, layerType: LayerType, data: Json): (res: (Layers, Layer))
    requires !HasId(st.layers, id)
    ensures res.0.layers == st.layers + [res.1]
    ensures res.1 == Layer(id, name, true, false, 100, layerType, data)
    ensures res.0.active == Some(id)
    ensures id != "" ==> ActiveLayer(res.0) == Some(res.1)
  {
    var layer := Layer(id, name, true, false, 100, layerType, data);
    var r := Layers(st.layers + [layer], Some(id));
    IndexIsFirst(r.layers, id, |st.layers|);
    (r, layer)
  }

  /** `deleteLayer`. */
  function DeleteLayer(st: Layers, id: string): (res: (Layers, bool))
    ensures !HasId(st.layers, id) ==> res == (st, false)
    ensures HasId(st.layers, id) ==>
              var i := FindIndex(st.layers, id);
              && res.1
              && res.0.layers == st.layers[..i] + st.layers[i + 1..]
              && (st.active != Some(id) ==> res.0.active == st.active)
              && (st.active == Some(id) && |res.0.layers| == 0 ==> res.0.active == None)
              && (st.active == Some(id) && |res.0.layers| > 0 ==>
                    res.0.active == Some(res.0.layers[Max(0, i - 1)].id))
  {
    var i := FindIndex(st.layers, id);
    if i == -1 then (st, false)
    else
      var ls := st.layers[..i] + st.layers[i + 1..];
      var active := if st.active == Some(id) then
                      (if |ls| > 0 then Some(ls[Max(0, i - 1)].id) else None)
                    else st.active;
      (Layers(ls, active), true)
  }

  function Max(a: int, b: int): int { if a >= b then a else b }

  /** `getActiveLayer`: null for no id and for the empty id (a falsy
      string), otherwise the first layer carrying the id, if any. */
  function ActiveLayer(st: Layers): (r: Option<Layer>)
    ensures r.Some? <==> st.active.Some? && st.active.value != "" && HasId(st.layers, st.active.value)
    ensures r.Some? ==> r.value.id == st.active.value && r.value in st.layers
  {
    if st.active.None? || st.active.value == "" then None
    else
      var i := FindIndex(st.layers, st.active.value);
      if i < 0 then None else Some(st.layers[i])
  }

  /** `setActiveLayer`: succeeds exactly for an existing id. */
  function SetActiveLayer(st: Layers, id: string): (res: (Layers, bool))
    ensures res.1 <==> HasId(st.layers, id)
    ensures res.1 ==> res.0 == st.(active := Some(id))
    ensures !res.1 ==> res.0 == st
  {
    if FindIndex(st.layers, id) < 0 then (st, false) else (st.(active := Some(id)), true)
  }

  /** After a successful `setActiveLayer`, `getActiveLayer` answers the
      first layer carrying the id, except for the empty id, which
      `getActiveLayer` treats as no selection. */
  lemma SetActiveThenGet(st: Layers, id: string)
    ensures var res := SetActiveLayer(st, id);
            res.1 && id != "" ==> ActiveLayer(res.0) == Some(st.layers[FindIndex(st.layers, id)])
    ensures var res := SetActiveLayer(st, id);
            res.1 && id == "" ==> ActiveLayer(res.0).None?
  {
  }

  /** `Object.assign(layer, updates)`. */
  function ApplyPatch(l: Layer, p: LayerPatch): (r: Layer)
    ensures r.id == p.id.GetOr(l.id) && r.name == p.name.GetOr(l.name)
    ensures r.visible == p.visible.GetOr(l.visible) && r.locked == p.locked.GetOr(l.locked)
    ensures r.opacity == p.opacity.GetOr(l.opacity) && r.layerType == p.layerType.GetOr(l.layerType)
    ensures r.data == p.data.GetOr(l.data)
  {
    Layer(p.id.GetOr(l.id), p.name.GetOr(l.name), p.visible.GetOr(l.visible), p.locked.GetOr(l.locked),
          p.opacity.GetOr(l.opacity), p.layerType.GetOr(l.layerType), p.data.GetOr(l.data))
  }

  /** Replaces the first layer with `id` by `l'`; every other position
      is unchanged. */
  function UpdateFirst(st: Layers, id: string, l': Layer): (res: (Layers, bool))
    ensures res.1 <==> HasId(st.layers, id)
    ensures !res.1 ==> res.0 == st
    ensures res.1 ==> res.0 == st.(layers := st.layers[FindIndex(st.layers, id) := l'])
  {
    var i := FindIndex(st.layers, id);
    if i < 0 then (st, false) else (st.(layers := st.layers[i := l']), true)
  }

  /** `updateLayer`: only the supplied fields of the first matching layer
      change. */
  function UpdateLayer(st: Layers, id: string, p: LayerPatch): (res: (Layers, bool))
    ensures res.1 <==> HasId(st.layers, id)
    ensures !res.1 ==> res.0 == st
    ensures res.1 ==> var i := FindIndex(st.layers, id);
                      && res.0.active == st.active && |res.0.layers| == |st.layers|
                      && res.0.layers[i] == ApplyPatch(st.layers[i], p)
                      && forall j :: 0 <= j < |st.layers| && j != i ==> res.0.layers[j] == st.layers[j]
  {
    var i := FindIndex(st.layers, id);
    if i < 0 then (st, false) else UpdateFirst(st, id, ApplyPatch(st.layers[i], p))
  }

  /** `toggleLayerVisibility`. */
  function ToggleVisibility(st: Layers, id: string): (res: (Layers, bool))
    ensures res.1 <==> HasId(st.layers, id)
    ensures !res.1 ==> res.0 == st
    ensures res.1 ==> var i := FindIndex(st.layers, id);
                      && |res.0.layers| == |st.layers| && res.0.active == st.active
                      && res.0.layers[i] == st.layers[i].(visible := !st.layers[i].visible)
                      && forall j :: 0 <= j < |st.layers| && j != i ==> res.0.layers[j] == st.layers[j]
  {
    var i := FindIndex(st.layers, id);
    if i < 0 then (st, false) else UpdateFirst(st, id, st.layers[i].(visible := !st.layers[i].visible))
  }

  /** `toggleLayerLock`. */
  function ToggleLock(st: Layers, id: string): (res: (Layers, bool))
    ensures res.1 <==> HasId(st.layers, id)
    ensures !res.1 ==> res.0 == st
    ensures res.1 ==> var i := FindIndex(st.layers, id);
                      && |res.0.layers| == |st.layers| && res.0.active == st.active
                      && res.0.layers[i] == st.layers[i].(locked := !st.layers[i].locked)
                      && forall j :: 0 <= j < |st.layers| && j != i ==> res.0.layers[j] == st.layers[j]
  {
    var i := FindIndex(st.layers, id);
    if i < 0 then (st, false) else UpdateFirst(st, id, st.layers[i].(locked := !st.layers[i].locked))
  }

  /** Exchanges positions `i` and `j`. */
  function Swap(ls: seq<Layer>, i: int, j: int): (r: seq<Layer>)
    requires 0 <= i < |ls| && 0 <= j < |ls|
    ensures |r| == |ls| && r[i] == ls[j] && r[j] == ls[i]
    ensures forall k :: 0 <= k < |ls| && k != i && k != j ==> r[k] == ls[k]
    ensures multiset(r) == multiset(ls)
  {
    ls[i := ls[j]][j := ls[i]]
  }

  /** `moveLayerUp`: swaps the first layer with `id` with its predecessor;
      false for an unknown id or the first position. */
  function MoveLayerUp(st: Layers, id: string): (res: (Layers, bool))
    ensures res.1 <==> FindIndex(st.layers, id) > 0
    ensures !res.1 ==> res.0 == st
    ensures res.0.active == st.active && multiset(res.0.layers) == multiset(st.layers)
    ensures res.1 ==> var i := FindIndex(st.layers, id);
                      res.0.layers == Swap(st.layers, i, i - 1)
  {
    var i := FindIndex(st.layers, id);
    if i == -1 || i == 0 then (st, false)
    else (st.(layers := Swap(st.layers, i, i - 1)), true)
  }

  /** `moveLayerDown`: swaps the first layer with `id` with its successor;
      false for an unknown id or the last position. */
  function MoveLayerDown(st: Layers, id: string): (res: (Layers, bool))
    ensures res.1 <==> 0 <= FindIndex(st.layers, id) < |st.layers| - 1
    ensures !res.1 ==> res.0 == st
    ensures res.0.active == st.active && multiset(res.0.layers) == multiset(st.layers)
    ensures res.1 ==> var i := FindIndex(st.layers, id);
                      res.0.layers == Swap(st.layers, i, i + 1)
  {
    var i := FindIndex(st.layers, id);
    if i == -1 || i == |st.layers| - 1 then (st, false)
    else (st.(layers := Swap(st.layers, i, i + 1)), true)
  }

  /* ---------- Properties ---------- */

  /** Toggling visibility twice restores the stack. */
  lemma ToggleVisibilityTwice(st: Layers, id: string)
    requires HasId(st.layers, id)
    ensures ToggleVisibility(ToggleVisibility(st, id).0, id).0 == st
  {
    var i := FindIndex(st.layers, id);
    var s1 := ToggleVisibility(st, id).0;
    assert FindIndex(s1.layers, id) == i by {
      assert s1.layers[i].id == id;
      assert forall j :: 0 <= j < i ==> s1.layers[j] == st.layers[j];
      IndexIsFirst(s1.layers, id, i);
    }
  }

  /** Toggling the lock twice restores the stack. */
  lemma ToggleLockTwice(st: Layers, id: string)
    requires HasId(st.layers, id)
    ensures ToggleLock(ToggleLock(st, id).0, id).0 == st
  {
    var i := FindIndex(st.layers, id);
    var s1 := ToggleLock(st, id).0;
    assert FindIndex(s1.layers, id) == i by {
      assert s1.layers[i].id == id;
      assert forall j :: 0 <= j < i ==> s1.layers[j] == st.layers[j];
      IndexIsFirst(s1.layers, id, i);
    }
  }

  /** `FindIndex` is determined by its contract. */
  lemma IndexIsFirst(ls: seq<Layer>, id: string, a: int)
    requires 0 <= a < |ls| && ls[a].id == id
    requires forall j :: 0 <= j < a ==> ls[j].id != id
    ensures FindIndex(ls, id) == a
  {
  }

  /** Moving a layer up and then down restores the order. */
  lemma UpThenDown(st: Layers, id: string)
    requires MoveLayerUp(st, id).1
    ensures MoveLayerDown(MoveLayerUp(st, id).0, id) == (st, true)
  {
    var i := FindIndex(st.layers, id);
    var s1 := MoveLayerUp(st, id).0;
    IndexIsFirst(s1.layers, id, i - 1);
    assert Swap(s1.layers, i - 1, i) == st.layers;
  }

  /** Moving a layer down and then up restores the order when the layer
      swapped past does not carry the same id. */
  lemma DownThenUp(st: Layers, id: string)
    requires MoveLayerDown(st, id).1
    requires st.layers[FindIndex(st.layers, id) + 1].id != id
    ensures MoveLayerUp(MoveLayerDown(st, id).0, id) == (st, true)
  {
    var i := FindIndex(st.layers, id);
    var s1 := MoveLayerDown(st, id).0;
    IndexIsFirst(s1.layers, id, i + 1);
    assert Swap(s1.layers, i + 1, i) == st.layers;
  }

  /** Deleting a layer that is not active keeps the active layer. */
  lemma DeleteOtherKeepsActive(st: Layers, id: string)
    requires HasId(st.layers, id) && st.active != Some(id)
    requires forall i, j :: 0 <= i < j < |st.layers| ==> st.layers[i].id != st.layers[j].id
    ensures DeleteLayer(st, id).0.active == st.active
    ensures ActiveLayer(DeleteLayer(st, id).0) == ActiveLayer(st)
  {
    var i := FindIndex(st.layers, id);
    var r := DeleteLayer(st, id).0;
    if st.active.Some? && st.active.value != "" && HasId(st.layers, st.active.value) {
      var a := FindIndex(st.layers, st.active.value);
      assert a != i;
      IndexIsFirst(r.layers, st.active.value, if a < i then a else a - 1);
    } else if st.active.Some? && st.active.value != "" {
      assert !HasId(r.layers, st.active.value) by {
        forall j | 0 <= j < |r.layers| ensures r.layers[j].id != st.active.value {
          assert r.layers[j] == (if j < i then st.layers[j] else st.layers[j + 1]);
        }
      }
    }
  }
}

=== FILE: ordered_map.dfy ===
/** The insertion-ordered map of JavaScript (`Map`), used by the queue's runner
    registry and by the preset cache.  Iteration follows insertion order;
    `set` on a present key replaces the value in place, on an absent key it
    appends; `delete` removes the entry and keeps the others in order. */
module OrderedMap {
  import opened Wrappers

  datatype Entry<V> = Entry(key: string, value: V)

  /** No key occurs twice: the shape every JavaScript `Map` has. */
  predicate UniqueKeys<V>(m: seq<Entry<V>>) {
    forall i, j :: 0 <= i < j < |m| ==> m[i].key != m[j].key
  }

  predicate HasKey<V>(m: seq<Entry<V>>, k: string) {
    exists i :: 0 <= i < |m| && m[i].key == k
  }

  /** The keys, in iteration order. */
  function Keys<V>(m: seq<Entry<V>>): (ks: seq<string>)
    ensures |ks| == |m|
    ensures forall i :: 0 <= i < |m| ==> ks[i] == m[i].key
  {
    seq(|m|, i requires 0 <= i < |m| => m[i].key)
  }

  /** The values, in iteration order (`Array.from(map.values())`). */
  function Values<V>(m: seq<Entry<V>>): (vs: seq<V>)
    ensures |vs| == |m|
    ensures forall i :: 0 <= i < |m| ==> vs[i] == m[i].value
  {
    seq(|m|, i requires 0 <= i < |m| => m[i].value)
  }

  /** Position of the first entry with key `k`, or -1. */
  function IndexOf<V>(m: seq<Entry<V>>, k: string): (r: int)
    ensures -1 <= r < |m|
    ensures r >= 0 ==> m[r].key == k
    ensures forall j :: 0 <= j < |m| && (r < 0 || j < r) ==> m[j].key != k
  {
    if |m| == 0 then -1
    else if m[0].key == k then 0
    else
      var t := IndexOf(m[1..], k);
      if t < 0 then -1 else t + 1
  }

  /** `IndexOf` is determined by its contract: the least matching index. */
  lemma IndexOfIsFirst<V>(m: seq<Entry<V>>, k: string, a: int)
    requires -1 <= a < |m|
    requires a >= 0 ==> m[a].key == k
    requires forall j :: 0 <= j < |m| && (a < 0 || j < a) ==> m[j].key != k
    ensures IndexOf(m, k) == a
  {
  }

  /** `map.get(k)`. */
  function Get<V>(m: seq<Entry<V>>, k: string): (r: Option<V>)
    ensures r.Some? <==> HasKey(m, k)
    ensures r.Some? ==> Entry(k, r.value) in m
  {
    var i := IndexOf(m, k);
    if i >= 0 then Some(m[i].value) else None
  }

  /** `map.set(k, v)`. */
  function Set<V>(m: seq<Entry<V>>, k: string, v: V): (r: seq<Entry<V>>)
    ensures Get(r, k) == Some(v)
    ensures forall k' :: k' != k ==> Get(r, k') == Get(m, k')
    ensures HasKey(m, k) ==> Keys(r) == Keys(m)
    ensures !HasKey(m, k) ==> Keys(r) == Keys(m) + [k]
    ensures UniqueKeys(m) ==> UniqueKeys(r)
  {
    var i := IndexOf(m, k);
    var r := if i >= 0 then m[i := Entry(k, v)] else m + [Entry(k, v)];
    IndexOfIsFirst(r, k, if i >= 0 then i else |m|);
    forall k' | k' != k
      ensures Get(r, k') == Get(m, k')
    {
      IndexOfIsFirst(r, k', IndexOf(m, k'));
    }
    r
  }

  /** `map.delete(k)`: removes the entry of `k`, if any; the others keep
      their order. */
  function Delete<V>(m: seq<Entry<V>>, k: string): (r: seq<Entry<V>>)
    requires UniqueKeys(m)
    ensures !HasKey(r, k)
    ensures forall k' :: k' != k ==> Get(r, k') == Get(m, k')
    ensures HasKey(m, k) ==> |r| == |m| - 1
    ensures !HasKey(m, k) ==> r == m
    ensures HasKey(m, k) ==> r == m[..IndexOf(m, k)] + m[IndexOf(m, k) + 1..]
    ensures UniqueKeys(r)
  {
    var i := IndexOf(m, k);
    if i < 0 then m
    else
      var r := m[..i] + m[i + 1..];
      assert forall j :: 0 <= j < |r| ==> r[j] == (if j < i then m[j] else m[j + 1]);
      forall k' | k' != k
        ensures Get(r, k') == Get(m, k')
      {
        var a := IndexOf(m, k');
        IndexOfIsFirst(r, k', if a < 0 then -1 else if a < i then a else a - 1);
      }
      r
  }
}

=== FILE: preset_manager.dfy ===
/** `PresetManager`: a named-preset store backed by one JSON document,
    loaded lazily into an in-memory cache.

    The file is abstract: it is absent, unreadable (or not JSON), or a parsed
    document.  Whether a write succeeds is a parameter.  The cache is the map
    object that `readAll` returns, and the mutating operations change it
    BEFORE writing, so a failed write leaves the cache ahead of the file. */
module PresetManager {
  import opened Wrappers
  import OrderedMap

  /** An operation bundle or metadata value, kept as opaque JSON text. */
  type Json = string

  type Presets = seq<OrderedMap.Entry<Preset>>

  datatype Preset = Preset(name: string, createdAt: int, updatedAt: int, operations: seq<Json>, meta: Option<Json>)

  datatype Disk =
    | Absent                             // reading fails with ENOENT
    | Broken(reason: string)             // any other read error, or text that is not JSON
    | Document(presets: Option<Presets>) // parsed; None when `presets` is missing or not an object

  datatype Store = Store(cache: Option<Presets>, disk: Disk)

  datatype Error = NameRequired | ReadFailed(reason: string) | WriteFailed

  /** Keys are unique in the cache and in a parsed document, as in any
      JavaScript `Map` or JSON object read by `Object.entries`. */
  predicate WellFormed(st: Store) {
    && (st.cache.Some? ==> OrderedMap.UniqueKeys(st.cache.value))
    && (st.disk.Document? && st.disk.presets.Some? ==> OrderedMap.UniqueKeys(st.disk.presets.value))
  }

  /** What a fresh manager would read from the file. */
  function DiskView(d: Disk): (r: Result<Presets, Error>)
    ensures d.Absent? ==> r == Ok([])
    ensures d.Broken? <==> r.Err?
  {
    match d
    case Absent => Ok([])
    case Broken(reason) => Err(ReadFailed(reason))
    case Document(p) => Ok(p.GetOr([]))
  }

  /** The cache agrees with the file. */
  predicate Consistent(st: Store) {
    st.cache.Some? ==> DiskView(st.disk) == Ok(st.cache.value)
  }

  /** `readAll`: the cache when loaded; otherwise the file is read and its
      presets become the cache.  A missing file is an empty store; any other
      read or parse failure propagates and nothing is cached. */
  function ReadAll(st: Store): (res: (Store, Result<Presets, Error>))
    ensures res.0.disk == st.disk
    ensures st.cache.Some? ==> res == (st, Ok(st.cache.value))
    ensures st.cache.None? ==> res.1 == DiskView(st.disk)
    ensures res.1.Ok? ==> res.0.cache == Some(res.1.value)
    ensures res.1.Err? ==> res.0 == st
    ensures WellFormed(st) ==> WellFormed(res.0)
    ensures Consistent(st) ==> Consistent(res.0)
  {
    if st.cache.Some? then (st, Ok(st.cache.value))
    else
      match st.disk
      case Absent => (Store(Some([]), st.disk), Ok([]))
      case Broken(reason) => (st, Err(ReadFailed(reason)))
      case Document(p) => (Store(Some(p.GetOr([])), st.disk), Ok(p.GetOr([])))
  }

  /** The tail of a mutating operation: `m` is already the cache; `writeAll`
      replaces the file atomically when the write succeeds, and otherwise
      leaves the file as it was and fails. */
  function Persist(m: Presets, disk: Disk, writeOk: bool): (res: (Store, bool))
    ensures res.0.cache == Some(m)
    ensures res.1 == writeOk
    ensures writeOk ==> Consistent(res.0) && res.0.disk == Document(Some(m))
    ensures !writeOk ==> res.0.disk == disk
  {
    if writeOk then (Store(Some(m), Document(Some(m))), true) else (Store(Some(m), disk), false)
  }

  /** `savePreset`: rejects an empty name; otherwise upserts by name, keeping
      `createdAt` of an existing preset (`now` for a new name) and setting
      `updatedAt` to `now`.  The cache is changed before the write, so after
      a failed write it holds the new preset while the file is unchanged. */
  function SavePreset(st: Store, name: string, ops: seq<Json>, meta: Option<Json>, now: int, writeOk: bool): (res: (Store, Result<Preset, Error>))
    requires WellFormed(st)
    ensures name == "" ==> res == (st, Err(NameRequired))
    ensures name != "" && ReadAll(st).1.Err? ==> res == (st, Err(ReadAll(st).1.error))
    ensures res.1.Ok? ==> && res.1.value.name == name && res.1.value.operations == ops
                          && res.1.value.meta == meta && res.1.value.updatedAt == now
    ensures res.1.Ok? <==> name != "" && ReadAll(st).1.Ok? && writeOk
    ensures res.1.Ok? ==> Consistent(res.0)
    ensures name != "" && ReadAll(st).1.Ok? ==>
              var m := ReadAll(st).1.value;
              var existing := OrderedMap.Get(m, name);
              var saved := Preset(name, if existing.Some? then existing.value.createdAt else now, now, ops, meta);
              && res.0.cache.Some?
              && OrderedMap.Get(res.0.cache.value, name) == Some(saved)
              && (forall k :: k != name ==> OrderedMap.Get(res.0.cache.value, k) == OrderedMap.Get(m, k))
              && (writeOk ==> res.1 == Ok(saved) && res.0.disk == Document(res.0.cache))
              && (!writeOk ==> res.1 == Err(WriteFailed) && res.0.disk == st.disk)
    ensures WellFormed(res.0)
  {
    if name == "" then (st, Err(NameRequired))
    else
      var (st1, loaded) := ReadAll(st);
      match loaded
      case Err(e) => (st1, Err(e))
      case Ok(m) =>
        var existing := OrderedMap.Get(m, name);
        var preset := Preset(name, if existing.Some? then existing.value.createdAt else now, now, ops, meta);
        var m' := OrderedMap.Set(m, name, preset);
        var (st2, written) := Persist(m', st1.disk, writeOk);
        (st2, if written then Ok(preset) else Err(WriteFailed))
  }

  /** `getPreset`. */
  function GetPreset(st: Store, name: string): (res: (Store, Result<Option<Preset>, Error>))
    requires WellFormed(st)
    ensures res.1.Ok? <==> ReadAll(st).1.Ok?
    ensures res.1.Ok? ==> res.1.value == OrderedMap.Get(ReadAll(st).1.value, name)
    ensures WellFormed(res.0)
  {
    var (st1, loaded) := ReadAll(st);
    match loaded
    case Err(e) => (st1, Err(e))
    case Ok(m) => (st1, Ok(OrderedMap.Get(m, name)))
  }

  predicate SortedByUpdatedDesc(s: seq<Preset>) {
    forall i, j :: 0 <= i < j < |s| ==> s[i].updatedAt >= s[j].updatedAt
  }

  /** Inserts `p` before the first element not more recent than it. */
  function InsertByUpdated(p: Preset, s: seq<Preset>): (r: seq<Preset>)
    requires SortedByUpdatedDesc(s)
    ensures SortedByUpdatedDesc(r)
    ensures multiset(r) == multiset(s) + multiset{p}
    ensures |r| == |s| + 1 && (r[0] == p || (|s| > 0 && r[0] == s[0]))
  {
    if |s| == 0 then [p]
    else if s[0].updatedAt <= p.updatedAt then [p] + s
    else
      var t := InsertByUpdated(p, s[1..]);
      assert s == [s[0]] + s[1..];
      [s[0]] + t
  }

  /** A stable sort, most recently updated first: the order of
      `Array.prototype.sort` with comparator `b.updatedAt - a.updatedAt`. */
  function SortByUpdatedDesc(s: seq<Preset>): (r: seq<Preset>)
    ensures SortedByUpdatedDesc(r)
    ensures multiset(r) == multiset(s)
  {
    if |s| == 0 then []
    else
      assert s == [s[0]] + s[1..];
      InsertByUpdated(s[0], SortByUpdatedDesc(s[1..]))
  }

  /** The presets of `s` last updated at `t`, in their order in `s`. */
  function UpdatedAt(s: seq<Preset>, t: int): (r: seq<Preset>)
    ensures |r| <= |s|
    ensures forall i :: 0 <= i < |r| ==> r[i].updatedAt == t && r[i] in s
  {
    if |s| == 0 then []
    else (if s[0].updatedAt == t then [s[0]] else []) + UpdatedAt(s[1..], t)
  }

  /** Inserting a preset keeps every group of equal `updatedAt` in order,
      with the new preset at the front of its own group. */
  lemma {:induction false} InsertKeepsTies(p: Preset, s: seq<Preset>, t: int)
    requires SortedByUpdatedDesc(s)
    ensures UpdatedAt(InsertByUpdated(p, s), t) == (if p.updatedAt == t then [p] else []) + UpdatedAt(s, t)
    decreases |s|
  {
    var r := InsertByUpdated(p, s);
    if |s| > 0 && s[0].updatedAt > p.updatedAt {
      var r' := InsertByUpdated(p, s[1..]);
      InsertKeepsTies(p, s[1..], t);
      assert r == [s[0]] + r';
      assert s == [s[0]] + s[1..];
      TiesPassEarlier(p, s[0], r', s[1..], t);
    } else {
      assert r == [p] + s;
      UpdatedAtCons(p, s, t);
    }
  }

  /** A preset updated later than `p` can be passed by `p` without
      changing either one's group. */
  lemma TiesPassEarlier(p: Preset, x: Preset, r: seq<Preset>, rest: seq<Preset>, t: int)
    requires x.updatedAt > p.updatedAt
    requires UpdatedAt(r, t) == (if p.updatedAt == t then [p] else []) + UpdatedAt(rest, t)
    ensures UpdatedAt([x] + r, t) == (if p.updatedAt == t then [p] else []) + UpdatedAt([x] + rest, t)
  {
    UpdatedAtCons(x, r, t);
    UpdatedAtCons(x, rest, t);
  }

  lemma UpdatedAtCons(x: Preset, rest: seq<Preset>, t: int)
    ensures UpdatedAt([x] + rest, t) == (if x.updatedAt == t then [x] else []) + UpdatedAt(rest, t)
  {
    assert ([x] + rest)[1..] == rest;
  }

  /** The sort is stable: presets updated at the same time keep the order
      they had, as `Array.prototype.sort` guarantees. */
  lemma {:induction false} SortIsStable(s: seq<Preset>, t: int)
    ensures UpdatedAt(SortByUpdatedDesc(s), t) == UpdatedAt(s, t)
    decreases |s|
  {
    if |s| > 0 {
      SortIsStable(s[1..], t);
      InsertKeepsTies(s[0], SortByUpdatedDesc(s[1..]), t);
    }
  }

  /** `listPresets`: every stored preset exactly once, most recent first. */
  function ListPresets(st: Store): (res: (Store, Result<seq<Preset>, Error>))
    requires WellFormed(st)
    ensures res.1.Ok? <==> ReadAll(st).1.Ok?
    ensures res.1.Ok? ==> SortedByUpdatedDesc(res.1.value)
    ensures res.1.Ok? ==> multiset(res.1.value) == multiset(OrderedMap.Values(ReadAll(st).1.value))
    ensures WellFormed(res.0)
  {
    var (st1, loaded) := ReadAll(st);
    match loaded
    case Err(e) => (st1, Err(e))
    case Ok(m) => (st1, Ok(SortByUpdatedDesc(OrderedMap.Values(m))))
  }

  /** `deletePreset`: whether the name existed; the file is written only
      when it did. */
  function DeletePreset(st: Store, name: string, writeOk: bool): (res: (Store, Result<bool, Error>))
    requires WellFormed(st)
    ensures ReadAll(st).1.Err? ==> res.1.Err? && res.0 == st
    ensures ReadAll(st).1.Ok? && !OrderedMap.HasKey(ReadAll(st).1.value, name) ==>
              res == (ReadAll(st).0, Ok(false))
    ensures ReadAll(st).1.Ok? && OrderedMap.HasKey(ReadAll(st).1.value, name) ==>
              && res.0.cache.Some? && !OrderedMap.HasKey(res.0.cache.value, name)
              && (forall k :: k != name ==> OrderedMap.Get(res.0.cache.value, k) == OrderedMap.Get(ReadAll(st).1.value, k))
              && (res.1 == Ok(true) <==> writeOk)
              && (writeOk ==> res.0.disk == Document(res.0.cache))
              && (!writeOk ==> res.1 == Err(WriteFailed) && res.0.disk == st.disk)
    ensures WellFormed(res.0)
  {
    var (st1, loaded) := ReadAll(st);
    match loaded
    case Err(e) => (st1, Err(e))
    case Ok(m) =>
      if !OrderedMap.HasKey(m, name) then (st1, Ok(false))
      else
        var m' := OrderedMap.Delete(m, name);
        var (st2, written) := Persist(m', st1.disk, writeOk);
        (st2, if written then Ok(true) else Err(WriteFailed))
  }

  /* ---------- Properties ---------- */

  /** A successful save is read back unchanged. */
  lemma SaveThenGet(st: Store, name: string, ops: seq<Json>, meta: Option<Json>, now: int)
    requires WellFormed(st)
    requires SavePreset(st, name, ops, meta, now, true).1.Ok?
    ensures var (st1, saved) := SavePreset(st, name, ops, meta, now, true);
            GetPreset(st1, name).1 == Ok(Some(saved.value))
  {
  }

  /** Saving a name twice keeps the first `createdAt`; `updatedAt` moves to
      the second save's time, so it grows when the clock does. */
  lemma ResaveKeepsCreatedAt(st: Store, name: string, ops1: seq<Json>, ops2: seq<Json>, t1: int, t2: int)
    requires WellFormed(st) && t1 < t2
    requires SavePreset(st, name, ops1, None, t1, true).1.Ok?
    ensures var (st1, p1) := SavePreset(st, name, ops1, None, t1, true);
            var (st2, p2) := SavePreset(st1, name, ops2, None, t2, true);
            && p2.Ok? && p2.value.createdAt == p1.value.createdAt
            && p2.value.updatedAt == t2 && p2.value.updatedAt > p1.value.updatedAt
            && p2.value.operations == ops2
  {
    var (st1, p1) := SavePreset(st, name, ops1, None, t1, true);
    assert st1.cache.Some? && OrderedMap.Get(st1.cache.value, name) == Some(p1.value);
  }

  /** Deleting an absent name reports false and leaves the file alone. */
  lemma DeleteMissingChangesNothing(st: Store, name: string, writeOk: bool)
    requires WellFormed(st) && Consistent(st)
    requires ReadAll(st).1.Ok? && !OrderedMap.HasKey(ReadAll(st).1.value, name)
    ensures DeletePreset(st, name, writeOk).1 == Ok(false)
    ensures DeletePreset(st, name, writeOk).0.disk == st.disk
    ensures Consistent(DeletePreset(st, name, writeOk).0)
  {
  }

  /** After a successful delete the name reads as absent. */
  lemma DeleteThenGet(st: Store, name: string)
    requires WellFormed(st)
    requires DeletePreset(st, name, true).1 == Ok(true)
    ensures GetPreset(DeletePreset(st, name, true).0, name).1 == Ok(None)
  {
  }

  /** A failed write leaves the cache ahead of the file: the preset is
      served from memory although the file does not hold it. */
  lemma FailedSaveLeavesCacheAhead(name: string, ops: seq<Json>, now: int)
    requires name != ""
    ensures var (st1, r) := SavePreset(Store(None, Absent), name, ops, None, now, false);
            && r == Err(WriteFailed)
            && st1.disk == Absent
            && GetPreset(st1, name).1 == Ok(Some(Preset(name, now, now, ops, None)))
            && !Consistent(st1)
  {
  }
}

=== FILE: processing_queue.dfy ===
/** The asynchronous job scheduler (`ProcessingQueue`) and its cancellation
    token, as an event-driven state machine.

    The queue owns a FIFO of pending jobs, the active jobs (each with its own
    cancellation token and the runner it was started on), a registry of
    capability-tagged runners kept in registration order, a concurrency limit
    and an active counter.  A runner's execution is opaque: its outcome arrives
    as an input (`Return` or `Throw`), and the progress callback as `Report`.
    Observable notifications are appended to `log`. */
module ProcessingQueue {
  import opened Wrappers
  import OrderedMap

  type JobId = string
  type RunnerId = string
  /** A JSON value the queue passes through without interpreting it. */
  type Json = string

  datatype JobType = SuperRes | Inpaint | ObjectDetect | ObjectReplace | Export | Import | Custom

  datatype JobStatus = Queued | Running | Completed | Failed | Cancelled

  predicate IsTerminal(s: JobStatus) {
    s.Completed? || s.Failed? || s.Cancelled?
  }

  /** What a runner's `run` resolves to. */
  datatype RunResult = RunResult(success: bool, outputPath: Option<string>, meta: map<string, Json>, error: Option<string>)

  /** How a runner's execution ended: it resolved with a result, or it threw. */
  datatype Outcome = Returned(result: RunResult) | Threw(message: string)

  /** The `result` field of a finished job: the raw result when the job was
      cancelled, the metadata plus output path when it completed. */
  datatype StoredResult =
    | RawResult(raw: RunResult)
    | CompletedResult(meta: map<string, Json>, outputPath: Option<string>)

  datatype Job = Job(
    id: JobId,
    jobType: JobType,
    inputPath: Option<string>,
    outputPath: Option<string>,
    options: map<string, Json>,
    status: JobStatus,
    progress: int,
    createdAt: int,
    startedAt: Option<int>,
    finishedAt: Option<int>,
    result: Option<StoredResult>,
    error: Option<string>)

  /** What a caller hands to `enqueue`. */
  datatype JobSpec = JobSpec(jobType: JobType, inputPath: Option<string>, outputPath: Option<string>, options: Option<map<string, Json>>)

  datatype Runner = Runner(id: RunnerId, name: string, capabilities: seq<JobType>, hasShutdownHook: bool)

  /* ---------- Cancellation token ---------- */

  /** A one-way latch with a reason that every `cancel` call overwrites. */
  datatype Token = Token(cancelled: bool, reason: Option<string>)

  const FreshToken: Token := Token(false, None)

  function CancelToken(t: Token, reason: Option<string>): (t': Token)
    ensures t'.cancelled
    ensures t'.reason == reason
  {
    Token(true, reason)
  }

  /** The token after `cancel` has been called once per element of `reasons`, in order. */
  function CancelEach(t: Token, reasons: seq<Option<string>>): Token
    decreases |reasons|
  {
    if |reasons| == 0 then t else CancelEach(CancelToken(t, reasons[0]), reasons[1..])
  }

  /** The flag never reverts, and the reason is the last one written. */
  lemma {:induction false} CancelLatches(t: Token, reasons: seq<Option<string>>)
    ensures CancelEach(t, reasons).cancelled == (t.cancelled || |reasons| > 0)
    ensures |reasons| > 0 ==> CancelEach(t, reasons).reason == reasons[|reasons| - 1]
    ensures |reasons| == 0 ==> CancelEach(t, reasons) == t
    decreases |reasons|
  {
    if |reasons| > 0 {
      CancelLatches(CancelToken(t, reasons[0]), reasons[1..]);
    }
  }

  /* ---------- Queue state ---------- */

  datatype ActiveJob = ActiveJob(job: Job, token: Token, runner: RunnerId)

  datatype Event =
    | JobQueued(job: Job)
    | JobStarted(job: Job, runner: RunnerId)
    | JobProgressed(job: Job, pct: int)
    | JobCompleted(job: Job)
    | JobFailed(job: Job)
    | JobCancelled(job: Job)
    | RunnerAdded(runner: RunnerId)
    | RunnerRemoved(runner: RunnerId)
    | RunnerShutdownCalled(runner: RunnerId)

  /** The queue's state.  The limit is a JavaScript number, so it may be
      fractional.  `finished` holds the record of every job whose runner has
      finished: the progress callback handed to that runner still holds the
      record and can still write it. */
  datatype Queue = Queue(
    concurrency: real,
    runners: seq<OrderedMap.Entry<Runner>>,
    pending: seq<Job>,
    active: seq<ActiveJob>,
    activeCount: int,
    finished: map<JobId, Job>,
    log: seq<Event>)

  /** `Math.max(1, n)`. */
  function ClampConcurrency(n: real): (c: real)
    ensures c >= 1.0
    ensures n >= 1.0 ==> c == n
    ensures n < 1.0 ==> c == 1.0
  {
    if n < 1.0 then 1.0 else n
  }

  /** `new ProcessingQueue(concurrency)`; the source's default is 2. */
  function NewQueue(concurrency: real): (q: Queue)
    ensures Inv(q)
    ensures q.concurrency == ClampConcurrency(concurrency)
    ensures q.pending == [] && q.active == [] && q.runners == [] && q.finished == map[]
  {
    Queue(ClampConcurrency(concurrency), [], [], [], 0, map[], [])
  }

  /** How many jobs a limit lets run at once.  A job starts while the counter
      is below the limit, so a fractional limit admits its ceiling. */
  function Capacity(c: real): int {
    if c.Floor as real == c then c.Floor else c.Floor + 1
  }

  /** A counter is below the limit exactly when it is below the limit's capacity. */
  lemma BelowLimitIffBelowCapacity(k: int, c: real)
    ensures (k as real) < c <==> k < Capacity(c)
  {
  }

  /** A whole-number limit admits exactly that many jobs. */
  lemma WholeLimitIsItsCapacity(n: int)
    ensures Capacity(n as real) == n
  {
  }

  /** A higher limit never admits fewer jobs. */
  lemma CapacityMonotone(a: real, b: real)
    requires a <= b
    ensures Capacity(a) <= Capacity(b)
  {
    BelowLimitIffBelowCapacity(Capacity(a) - 1, a);
    BelowLimitIffBelowCapacity(Capacity(a) - 1, b);
  }

  /* ---------- Lookups ---------- */

  /** `queue.findIndex(j => j.id === id)`.  The same first-match search
      appears once per element type (here jobs, `ActiveIndex` for running
      entries, `OrderedMap.IndexOf` for map entries, `LayerManager.FindIndex`
      for layers): each compares a different field, and the callers' proofs
      rely on a contract stated on that field. */
  function PendingIndex(p: seq<Job>, id: JobId): (r: int)
    ensures -1 <= r < |p|
    ensures r >= 0 ==> p[r].id == id
    ensures forall j :: 0 <= j < |p| && (r < 0 || j < r) ==> p[j].id != id
  {
    if |p| == 0 then -1
    else if p[0].id == id then 0
    else
      var t := PendingIndex(p[1..], id);
      if t < 0 then -1 else t + 1
  }

  /** Position of the active entry keyed by `id`, or -1. */
  function ActiveIndex(a: seq<ActiveJob>, id: JobId): (r: int)
    ensures -1 <= r < |a|
    ensures r >= 0 ==> a[r].job.id == id
    ensures forall j :: 0 <= j < |a| && (r < 0 || j < r) ==> a[j].job.id != id
  {
    if |a| == 0 then -1
    else if a[0].job.id == id then 0
    else
      var t := ActiveIndex(a[1..], id);
      if t < 0 then -1 else t + 1
  }

  /** Position of the first registered runner able to run `t`, or -1. */
  function FirstCapable(rs: seq<OrderedMap.Entry<Runner>>, t: JobType): (r: int)
    ensures -1 <= r < |rs|
    ensures r >= 0 ==> t in rs[r].value.capabilities
    ensures forall j :: 0 <= j < |rs| && (r < 0 || j < r) ==> t !in rs[j].value.capabilities
  {
    if |rs| == 0 then -1
    else if t in rs[0].value.capabilities then 0
    else
      var k := FirstCapable(rs[1..], t);
      if k < 0 then -1 else k + 1
  }

  /** `_findAvailableRunnerFor`: the first runner, in registration order,
      whose capabilities include the job type.  Busyness is not considered. */
  function FindRunner(rs: seq<OrderedMap.Entry<Runner>>, t: JobType): (r: Option<Runner>)
    ensures r.None? <==> forall j :: 0 <= j < |rs| ==> t !in rs[j].value.capabilities
    ensures r.Some? ==> t in r.value.capabilities
    ensures r.Some? ==> exists i :: 0 <= i < |rs| && rs[i].value == r.value
                              && forall j :: 0 <= j < i ==> t !in rs[j].value.capabilities
  {
    var i := FirstCapable(rs, t);
    if i >= 0 then Some(rs[i].value) else None
  }

  function ActiveJobs(a: seq<ActiveJob>): (js: seq<Job>)
    ensures |js| == |a|
    ensures forall i :: 0 <= i < |a| ==> js[i] == a[i].job
  {
    seq(|a|, i requires 0 <= i < |a| => a[i].job)
  }

  /** `listJobs`: pending jobs, then active jobs in start order. */
  function ListJobs(q: Queue): (js: seq<Job>)
    ensures |js| == |q.pending| + |q.active|
    ensures js[..|q.pending|] == q.pending
    ensures forall i :: 0 <= i < |q.active| ==> js[|q.pending| + i] == q.active[i].job
  {
    q.pending + ActiveJobs(q.active)
  }

  /** `getJob`: the pending job with that id, else the active one, else null. */
  function GetJob(q: Queue, id: JobId): (r: Option<Job>)
    ensures r.Some? ==> r.value.id == id && r.value in ListJobs(q)
    ensures r.None? <==> NotPresent(q, id)
  {
    var i := PendingIndex(q.pending, id);
    if i >= 0 then Some(q.pending[i])
    else
      var a := ActiveIndex(q.active, id);
      if a >= 0 then
        assert ListJobs(q)[|q.pending| + a] == q.active[a].job;
        Some(q.active[a].job)
      else None
  }

  /** No pending and no active job carries `id`. */
  predicate NotPresent(q: Queue, id: JobId) {
    && (forall i :: 0 <= i < |q.pending| ==> q.pending[i].id != id)
    && (forall i :: 0 <= i < |q.active| ==> q.active[i].job.id != id)
  }

  /* ---------- Invariant ---------- */

  predicate RegistryWellFormed(rs: seq<OrderedMap.Entry<Runner>>) {
    && OrderedMap.UniqueKeys(rs)
    && forall i :: 0 <= i < |rs| ==> rs[i].key == rs[i].value.id
  }

  /** Job ids are distinct within pending, within active, and across the two. */
  predicate DistinctJobs(q: Queue) {
    && (forall i, j :: 0 <= i < j < |q.pending| ==> q.pending[i].id != q.pending[j].id)
    && (forall i, j :: 0 <= i < j < |q.active| ==> q.active[i].job.id != q.active[j].job.id)
    && (forall i, j :: 0 <= i < |q.pending| && 0 <= j < |q.active| ==> q.pending[i].id != q.active[j].job.id)
  }

  /** Every finished record is terminal with a percentage in [0, 100], and no
      pending or active job reuses a finished job's id. */
  predicate FinishedSettled(q: Queue) {
    && (forall id :: id in q.finished ==> IsTerminal(q.finished[id].status) && 0 <= q.finished[id].progress <= 100)
    && (forall i :: 0 <= i < |q.pending| ==> q.pending[i].id !in q.finished)
    && (forall i :: 0 <= i < |q.active| ==> q.active[i].job.id !in q.finished)
  }

  predicate Inv(q: Queue) {
    && q.concurrency >= 1.0
    && q.activeCount == |q.active|
    && RegistryWellFormed(q.runners)
    && DistinctJobs(q)
    && FinishedSettled(q)
    && (forall i :: 0 <= i < |q.pending| ==> q.pending[i].status == Queued && q.pending[i].progress == 0)
    && (forall i :: 0 <= i < |q.active| ==> q.active[i].job.status == Running && 0 <= q.active[i].job.progress <= 100)
  }

  /* ---------- Scheduling ---------- */

  /** The job record as `_startJobWithRunner` leaves it. */
  function Started(job: Job, now: int): (j: Job)
    ensures j.status == Running && j.progress == 0 && j.startedAt == Some(now)
    ensures j.id == job.id && j.jobType == job.jobType && j.options == job.options
    ensures j == job.(status := Running, progress := 0, startedAt := Some(now))
  {
    job.(status := Running, startedAt := Some(now), progress := 0)
  }

  /** One iteration of `_tick`'s loop that found a runner: the head leaves
      pending and becomes active with a fresh, uncancelled token. */
  function StartHead(q: Queue, rn: Runner, now: int): (r: Queue)
    requires |q.pending| > 0
  {
    var job := Started(q.pending[0], now);
    q.(pending := q.pending[1..],
       activeCount := q.activeCount + 1,
       active := q.active + [ActiveJob(job, FreshToken, rn.id)],
       log := q.log + [JobStarted(job, rn.id)])
  }

  /** `_tick`: while below the limit and pending is non-empty, start the head
      job on the first capable runner; a head with no capable runner stays at
      the front and ends the pass.  The started jobs are a prefix of pending
      (nothing overtakes the head), each start happens below the limit, and
      the pass stops only when it must. */
  function Tick(q: Queue, now: int): (r: Queue)
    ensures r.concurrency == q.concurrency && r.runners == q.runners && r.finished == q.finished
    ensures |r.pending| <= |q.pending|
    ensures r.pending == q.pending[|q.pending| - |r.pending|..]
    ensures r.activeCount == q.activeCount + (|q.pending| - |r.pending|)
    ensures |r.active| == |q.active| + (|q.pending| - |r.pending|)
    ensures |r.pending| < |q.pending| ==> ((r.activeCount - 1) as real) < q.concurrency
    ensures (r.activeCount as real) < r.concurrency && |r.pending| > 0 ==>
              FindRunner(r.runners, r.pending[0].jobType).None?
    ensures r.active[..|q.active|] == q.active
    ensures |r.log| == |q.log| + (|q.pending| - |r.pending|) && r.log[..|q.log|] == q.log
    decreases |q.pending|
  {
    if (q.activeCount as real) < q.concurrency && |q.pending| > 0 then
      var rn := FindRunner(q.runners, q.pending[0].jobType);
      if rn.None? then q
      else
        var q1 := StartHead(q, rn.value, now);
        assert q1.pending == q.pending[1..];
        var r := Tick(q1, now);
        assert r.active[..|q.active|] == q.active by {
          assert r.active[..|q1.active|] == q1.active;
          assert q1.active[..|q.active|] == q.active;
        }
        assert r.log[..|q.log|] == q.log by {
          assert r.log[..|q1.log|] == q1.log;
        }
        r
    else q
  }

  /** Entry `|q.active| + i` of `r` is pending job `i` of `q`, started on
      the first runner able to run it. */
  predicate StartedAt(q: Queue, r: Queue, now: int, i: int)
    requires 0 <= i < |q.pending| && |q.active| + i < |r.active|
  {
    && FindRunner(q.runners, q.pending[i].jobType).Some?
    && r.active[|q.active| + i] ==
         ActiveJob(Started(q.pending[i], now), FreshToken, FindRunner(q.runners, q.pending[i].jobType).value.id)
  }

  /** A pass starts pending jobs in queue order, each on the first runner
      able to run it and with a fresh token. */
  lemma {:induction false} TickStartsInOrder(q: Queue, now: int)
    ensures var r := Tick(q, now);
            forall i :: 0 <= i < |q.pending| - |r.pending| ==> StartedAt(q, r, now, i)
    decreases |q.pending|
  {
    var r := Tick(q, now);
    if (q.activeCount as real) < q.concurrency && |q.pending| > 0 {
      var rn := FindRunner(q.runners, q.pending[0].jobType);
      if rn.Some? {
        var q1 := StartHead(q, rn.value, now);
        TickStartsInOrder(q1, now);
        assert r == Tick(q1, now);
        assert |q1.pending| == |q.pending| - 1 && |q1.active| == |q.active| + 1;
        forall i | 0 <= i < |q.pending| - |r.pending|
          ensures StartedAt(q, r, now, i)
        {
          if i == 0 {
            HeadStarted(q, rn.value, r, now);
          } else {
            assert 0 <= i - 1 < |q1.pending| - |r.pending|;
            assert StartedAt(q1, r, now, i - 1);
            LaterStarted(q, rn.value, r, now, i);
          }
        }
      }
    }
  }

  /** A job started later in the pass, seen from before the head started. */
  lemma LaterStarted(q: Queue, rn: Runner, r: Queue, now: int, i: int)
    requires 0 < i < |q.pending| && |q.active| + i < |r.active|
    requires StartedAt(StartHead(q, rn, now), r, now, i - 1)
    ensures StartedAt(q, r, now, i)
  {
    var q1 := StartHead(q, rn, now);
    assert q1.pending[i - 1] == q.pending[i];
    assert |q1.active| == |q.active| + 1 && q1.runners == q.runners;
  }

  lemma HeadStarted(q: Queue, rn: Runner, r: Queue, now: int)
    requires |q.pending| > 0 && FindRunner(q.runners, q.pending[0].jobType) == Some(rn)
    requires r == Tick(StartHead(q, rn, now), now)
    ensures StartedAt(q, r, now, 0)
  {
    var q1 := StartHead(q, rn, now);
    assert r.active[..|q1.active|] == q1.active;
    assert r.active[|q.active|] == r.active[..|q1.active|][|q.active|];
  }

  lemma {:induction false} StartHeadPreservesInv(q: Queue, rn: Runner, now: int)
    requires Inv(q) && |q.pending| > 0
    ensures Inv(StartHead(q, rn, now))
  {
    var r := StartHead(q, rn, now);
    assert forall j :: 0 <= j < |q.active| ==> r.active[j] == q.active[j];
    assert r.active[|q.active|].job.id == q.pending[0].id;
    assert r.finished == q.finished;
    forall i | 0 <= i < |r.pending|
      ensures r.pending[i] == q.pending[i + 1]
    {
    }
  }

  lemma {:induction false} TickPreservesInv(q: Queue, now: int)
    requires Inv(q)
    ensures Inv(Tick(q, now))
    decreases |q.pending|
  {
    if (q.activeCount as real) < q.concurrency && |q.pending| > 0 {
      var rn := FindRunner(q.runners, q.pending[0].jobType);
      if rn.Some? {
        StartHeadPreservesInv(q, rn.value, now);
        TickPreservesInv(StartHead(q, rn.value, now), now);
      }
    }
  }

  function Min(a: int, b: int): int {
    if a < b then a else b
  }

  /** The jobs the limit leaves room for. */
  function FreeSlots(q: Queue): int {
    if q.activeCount < Capacity(q.concurrency) then Capacity(q.concurrency) - q.activeCount else 0
  }

  /** Every pending job has a runner able to run it. */
  predicate AllStartable(q: Queue) {
    forall i :: 0 <= i < |q.pending| ==> FindRunner(q.runners, q.pending[i].jobType).Some?
  }

  /** When every pending job has a capable runner, a pass starts as many of
      them as the limit leaves room for. */
  lemma {:induction false} TickFillsFreeSlots(q: Queue, now: int)
    requires AllStartable(q)
    ensures |q.pending| - |Tick(q, now).pending| == Min(|q.pending|, FreeSlots(q))
    decreases |q.pending|
  {
    BelowLimitIffBelowCapacity(q.activeCount, q.concurrency);
    if (q.activeCount as real) < q.concurrency && |q.pending| > 0 {
      var rn := FindRunner(q.runners, q.pending[0].jobType);
      var q1 := StartHead(q, rn.value, now);
      assert forall i :: 0 <= i < |q1.pending| ==> q1.pending[i] == q.pending[i + 1];
      TickFillsFreeSlots(q1, now);
    }
  }

  /** A runner registered for a type that no registered runner could run is
      the runner found for that type. */
  lemma FindNewlyCapable(rs: seq<OrderedMap.Entry<Runner>>, rn: Runner, t: JobType)
    requires FindRunner(rs, t).None? && t in rn.capabilities
    ensures FindRunner(OrderedMap.Set(rs, rn.id, rn), t) == Some(rn)
  {
    var rs' := OrderedMap.Set(rs, rn.id, rn);
    var i := OrderedMap.IndexOf(rs, rn.id);
    var k := if i >= 0 then i else |rs|;
    assert rs' == if i >= 0 then rs[i := OrderedMap.Entry(rn.id, rn)] else rs + [OrderedMap.Entry(rn.id, rn)];
    assert rs'[k].value == rn;
    assert forall j :: 0 <= j < |rs'| && j != k ==> rs'[j] == rs[j];
    assert FirstCapable(rs', t) == k;
  }

  /** `FirstCapable` is determined by its contract: the least capable index. */
  lemma {:induction false} FirstCapableIs(rs: seq<OrderedMap.Entry<Runner>>, t: JobType, a: int)
    requires -1 <= a < |rs|
    requires a >= 0 ==> t in rs[a].value.capabilities
    requires forall j :: 0 <= j < |rs| && (a < 0 || j < a) ==> t !in rs[j].value.capabilities
    ensures FirstCapable(rs, t) == a
    decreases |rs|
  {
    if |rs| > 0 && t !in rs[0].value.capabilities {
      assert a != 0;
      FirstCapableIs(rs[1..], t, if a < 0 then -1 else a - 1);
    }
  }

  /** The runner chosen from two registries in sequence is the first
      one's choice, or failing that the second one's. */
  lemma FindRunnerAppend(a: seq<OrderedMap.Entry<Runner>>, b: seq<OrderedMap.Entry<Runner>>, t: JobType)
    ensures FindRunner(a + b, t) == if FindRunner(a, t).Some? then FindRunner(a, t) else FindRunner(b, t)
  {
    var i := FirstCapable(a, t);
    var k := FirstCapable(b, t);
    assert forall j :: 0 <= j < |a| ==> (a + b)[j] == a[j];
    assert forall j :: 0 <= j < |b| ==> (a + b)[|a| + j] == b[j];
    if i >= 0 {
      FirstCapableIs(a + b, t, i);
    } else if k >= 0 {
      FirstCapableIs(a + b, t, |a| + k);
    } else {
      FirstCapableIs(a + b, t, -1);
    }
  }

  /* ---------- Operations ---------- */

  /** `enqueue`: a fresh job, `queued`, progress 0, options defaulting to
      the empty map, appended at the tail of pending and logged; then a
      scheduling pass.  The job returned is the record as the pass left it:
      `running` if the pass reached it, `queued` otherwise.  The id stands
      for `makeId('job')`, which the source draws from a random UUID: it is
      assumed not to collide with a live job. */
  function Enqueue(q: Queue, spec: JobSpec, id: JobId, now: int): (res: (Queue, Job))
    requires NotPresent(q, id)
    ensures res.1.id == id && res.1.jobType == spec.jobType
    ensures res.1.progress == 0 && res.1.createdAt == now
    ensures res.1.inputPath == spec.inputPath && res.1.outputPath == spec.outputPath
    ensures res.1.options == spec.options.GetOr(map[])
    ensures res.1.finishedAt.None? && res.1.result.None? && res.1.error.None?
    ensures res.1.status == Queued || res.1.status == Running
    ensures res.1.status == Running <==> |res.0.pending| == 0
    ensures res.1.status == Queued ==>
              res.1.startedAt.None? && res.0.pending[|res.0.pending| - 1] == res.1
    ensures res.1.status == Running ==>
              && res.1.startedAt == Some(now)
              && |res.0.active| > 0 && res.0.active[|res.0.active| - 1].job == res.1
              && FindRunner(q.runners, spec.jobType).Some?
              && res.0.active[|res.0.active| - 1].runner == FindRunner(q.runners, spec.jobType).value.id
    ensures |res.0.log| > |q.log| && res.0.log[|q.log|] == JobQueued(res.1.(status := Queued, startedAt := None))
    ensures |res.0.pending| <= |q.pending| + 1
    ensures |res.0.pending| > 0 ==>
              res.0.pending[..|res.0.pending| - 1] == q.pending[|q.pending| + 1 - |res.0.pending|..]
    ensures (res.0.activeCount as real) < res.0.concurrency && |res.0.pending| > 0 ==>
              FindRunner(res.0.runners, res.0.pending[0].jobType).None?
    ensures |res.0.active| >= |q.active| && res.0.active[..|q.active|] == q.active
    ensures res.0.runners == q.runners && res.0.finished == q.finished && res.0.concurrency == q.concurrency
  {
    var job := Job(id, spec.jobType, spec.inputPath, spec.outputPath, spec.options.GetOr(map[]),
                   Queued, 0, now, None, None, None, None);
    var r := QueueJob(q, job, now);
    PrefixAt(q.log + [JobQueued(job)], r.log, |q.log|);
    if |r.pending| == 0 then
      QueueJobStartsLast(q, job, now);
      (r, r.active[|r.active| - 1].job)
    else
      var n := |r.pending|;
      TailOfAppend(q.pending, job, n);
      assert r.pending[..n - 1] == q.pending[|q.pending| + 1 - n..];
      (r, r.pending[n - 1])
  }

  /** The queue side of `enqueue`: the job joins the tail of pending and is
      logged, then a pass runs.  The jobs left waiting are a tail of the
      queue with the new job at its end. */
  function QueueJob(q: Queue, job: Job, now: int): (r: Queue)
    ensures r.runners == q.runners && r.finished == q.finished && r.concurrency == q.concurrency
    ensures |r.log| > |q.log| && r.log[..|q.log| + 1] == q.log + [JobQueued(job)]
    ensures |r.active| >= |q.active| && r.active[..|q.active|] == q.active
    ensures |r.pending| <= |q.pending| + 1 && r.pending == (q.pending + [job])[|q.pending| + 1 - |r.pending|..]
    ensures (r.activeCount as real) < r.concurrency && |r.pending| > 0 ==>
              FindRunner(r.runners, r.pending[0].jobType).None?
  {
    Tick(q.(pending := q.pending + [job], log := q.log + [JobQueued(job)]), now)
  }

  /** When the pass after `enqueue` leaves nothing waiting, the new job was
      the last one it started, on the first runner able to run it. */
  lemma QueueJobStartsLast(q: Queue, job: Job, now: int)
    requires |QueueJob(q, job, now).pending| == 0
    ensures var r := QueueJob(q, job, now);
            && FindRunner(q.runners, job.jobType).Some?
            && |r.active| > 0
            && r.active[|r.active| - 1] == ActiveJob(Started(job, now), FreshToken, FindRunner(q.runners, job.jobType).value.id)
  {
    var q1 := q.(pending := q.pending + [job], log := q.log + [JobQueued(job)]);
    LastStarted(q1, now);
    assert q1.pending[|q1.pending| - 1] == job;
  }

  /** Replacing one entry is splicing it between the entries around it. */
  lemma UpdateSplits<T>(s: seq<T>, i: nat, x: T)
    requires i < |s|
    ensures s[i := x] == s[..i] + ([x] + s[i + 1..])
  {
    var c := s[..i] + ([x] + s[i + 1..]);
    forall j | 0 <= j < |s|
      ensures s[i := x][j] == c[j]
    {
      if j > i {
        assert c[j] == ([x] + s[i + 1..])[j - i];
      }
    }
  }

  /** An entry of a prefix is the entry of the whole sequence. */
  lemma PrefixAt<T>(a: seq<T>, b: seq<T>, i: nat)
    requires |a| <= |b| && b[..|a|] == a && i < |a|
    ensures b[i] == a[i]
  {
    assert b[..|a|][i] == b[i];
  }

  /** The last `n` entries of `p + [x]` are the last `n - 1` of `p`
      followed by `x`. */
  lemma TailOfAppend<T>(p: seq<T>, x: T, n: nat)
    requires 0 < n <= |p| + 1
    ensures var t := (p + [x])[|p| + 1 - n..];
            |t| == n && t[n - 1] == x && t[..n - 1] == p[|p| + 1 - n..]
  {
    var t := (p + [x])[|p| + 1 - n..];
    assert forall j :: 0 <= j < n - 1 ==> t[j] == p[|p| + 1 - n + j];
  }

  /** A pass that empties pending has started the tail job last. */
  lemma LastStarted(q: Queue, now: int)
    requires |q.pending| > 0 && |Tick(q, now).pending| == 0
    ensures |q.active| + |q.pending| - 1 == |Tick(q, now).active| - 1
    ensures StartedAt(q, Tick(q, now), now, |q.pending| - 1)
  {
    TickStartsInOrder(q, now);
  }

  /** With room below the limit for every waiting job and the new one, and a
      runner for each, the job `enqueue` returns is already running. */
  lemma EnqueueStartsWhenFree(q: Queue, spec: JobSpec, id: JobId, now: int)
    requires NotPresent(q, id) && AllStartable(q)
    requires FindRunner(q.runners, spec.jobType).Some?
    requires q.activeCount + |q.pending| < Capacity(q.concurrency)
    ensures Enqueue(q, spec, id, now).1.status == Running
  {
    var job := Job(id, spec.jobType, spec.inputPath, spec.outputPath, spec.options.GetOr(map[]),
                   Queued, 0, now, None, None, None, None);
    var q1 := q.(pending := q.pending + [job], log := q.log + [JobQueued(job)]);
    assert forall i :: 0 <= i < |q.pending| ==> q1.pending[i] == q.pending[i];
    assert q1.pending[|q.pending|] == job;
    assert AllStartable(q1);
    TickFillsFreeSlots(q1, now);
  }

  /** With the counter at the limit, or no runner able to run the new job,
      the job `enqueue` returns is still queued. */
  lemma EnqueueWaits(q: Queue, spec: JobSpec, id: JobId, now: int)
    requires NotPresent(q, id)
    requires (q.activeCount as real) >= q.concurrency || FindRunner(q.runners, spec.jobType).None?
    ensures Enqueue(q, spec, id, now).1.status == Queued
  {
  }

  /** The progress callback's `Math.max(0, Math.min(100, Math.floor(p)))`. */
  function ClampProgress(p: real): (pct: int)
    ensures 0 <= pct <= 100
    ensures 0.0 <= p < 101.0 ==> pct == p.Floor
    ensures p < 0.0 ==> pct == 0
    ensures p >= 100.0 ==> pct == 100
  {
    var f := p.Floor;
    if f > 100 then 100 else if f < 0 then 0 else f
  }

  /** The progress callback `_startJobWithRunner` hands to a runner.  It
      closes over the job record, not over the active set: for an active job
      it stores the clamped percentage and notifies; once the job has
      finished the record is still written and the notification still sent,
      so a late report overwrites even a completed job's 100.  A job that was
      never started has no callback, so a report for it changes nothing. */
  function Progress(q: Queue, id: JobId, p: real): (r: Queue)
    ensures r.pending == q.pending && r.activeCount == q.activeCount && |r.active| == |q.active|
    ensures r.runners == q.runners && r.concurrency == q.concurrency
    ensures forall i :: 0 <= i < |q.active| && i != ActiveIndex(q.active, id) ==> r.active[i] == q.active[i]
    ensures ActiveIndex(q.active, id) >= 0 ==>
              var a := ActiveIndex(q.active, id);
              && r.active[a] == q.active[a].(job := q.active[a].job.(progress := ClampProgress(p)))
              && r.finished == q.finished
              && r.log == q.log + [JobProgressed(r.active[a].job, ClampProgress(p))]
    ensures ActiveIndex(q.active, id) < 0 && id in q.finished ==>
              && r.active == q.active
              && r.finished == q.finished[id := q.finished[id].(progress := ClampProgress(p))]
              && r.log == q.log + [JobProgressed(r.finished[id], ClampProgress(p))]
    ensures ActiveIndex(q.active, id) < 0 && id !in q.finished ==> r == q
  {
    var i := ActiveIndex(q.active, id);
    if i >= 0 then
      var job := q.active[i].job.(progress := ClampProgress(p));
      q.(active := q.active[i := q.active[i].(job := job)], log := q.log + [JobProgressed(job, ClampProgress(p))])
    else if id in q.finished then
      var job := q.finished[id].(progress := ClampProgress(p));
      q.(finished := q.finished[id := job], log := q.log + [JobProgressed(job, ClampProgress(p))])
    else q
  }

  /** `result.error || 'unknown error'`: an absent or empty message is replaced. */
  function FailureMessage(e: Option<string>): (m: string)
    ensures m != ""
    ensures e.Some? && e.value != "" ==> m == e.value
  {
    if e.Some? && e.value != "" then e.value else "unknown error"
  }

  /** The job record after its runner has finished.  Precedence: a throw
      fails the job whatever the token says; on a normal return a cancelled
      token wins over the result; otherwise success completes the job and
      failure fails it. */
  function Settle(job: Job, token: Token, outcome: Outcome, now: int): (j: Job)
    ensures IsTerminal(j.status) && j.finishedAt == Some(now)
    ensures j.id == job.id && j.jobType == job.jobType && j.inputPath == job.inputPath
    ensures j.options == job.options && j.createdAt == job.createdAt && j.startedAt == job.startedAt
    ensures outcome.Threw? ==> j.status == Failed && j.error == Some(outcome.message)
    ensures outcome.Returned? && token.cancelled ==>
              j.status == Cancelled && j.progress == job.progress && j.result == Some(RawResult(outcome.result))
    ensures outcome.Returned? && !token.cancelled && outcome.result.success ==>
              && j.status == Completed && j.progress == 100
              && j.outputPath == (if outcome.result.outputPath.Some? then outcome.result.outputPath else job.outputPath)
    ensures outcome.Returned? && !token.cancelled && !outcome.result.success ==>
              j.status == Failed && j.error == Some(FailureMessage(outcome.result.error))
    ensures j.status == Completed <==> outcome.Returned? && !token.cancelled && outcome.result.success
    ensures j.status == Cancelled <==> outcome.Returned? && token.cancelled
    ensures j.status != Completed ==> j.outputPath == job.outputPath
    ensures j.progress == job.progress || j.progress == 100
  {
    match outcome
    case Threw(msg) =>
      job.(status := Failed, error := Some(msg), finishedAt := Some(now))
    case Returned(res) =>
      if token.cancelled then
        job.(status := Cancelled, finishedAt := Some(now), result := Some(RawResult(res)))
      else if res.success then
        job.(status := Completed, progress := 100,
             result := Some(CompletedResult(res.meta, res.outputPath)),
             finishedAt := Some(now),
             outputPath := if res.outputPath.Some? then res.outputPath else job.outputPath)
      else
        job.(status := Failed, error := Some(FailureMessage(res.error)), finishedAt := Some(now))
  }

  function TerminalEvent(j: Job): Event {
    match j.status
    case Completed => JobCompleted(j)
    case Cancelled => JobCancelled(j)
    case _ => JobFailed(j)
  }

  /** The `finally` of `_startJobWithRunner` before its scheduling pass: the
      job's terminal notification is logged, it leaves the active set and the
      counter drops by one, never below zero.  Its settled record stays
      reachable from its progress callback. */
  function Release(q: Queue, id: JobId, outcome: Outcome, now: int): (r: Queue)
    requires ActiveIndex(q.active, id) >= 0
    ensures r.pending == q.pending && r.runners == q.runners && r.concurrency == q.concurrency
    ensures var a := q.active[ActiveIndex(q.active, id)];
            r.finished == q.finished[id := Settle(a.job, a.token, outcome, now)]
    ensures r.activeCount == if q.activeCount >= 1 then q.activeCount - 1 else 0
    ensures |r.active| == |q.active| - 1
    ensures var i := ActiveIndex(q.active, id); r.active == q.active[..i] + q.active[i + 1..]
    ensures |r.log| == |q.log| + 1 && r.log[..|q.log|] == q.log
    ensures var a := q.active[ActiveIndex(q.active, id)];
            r.log[|q.log|] == TerminalEvent(Settle(a.job, a.token, outcome, now))
  {
    var i := ActiveIndex(q.active, id);
    var a := q.active[i];
    var done := Settle(a.job, a.token, outcome, now);
    q.(active := q.active[..i] + q.active[i + 1..],
       activeCount := if q.activeCount - 1 < 0 then 0 else q.activeCount - 1,
       finished := q.finished[id := done],
       log := q.log + [TerminalEvent(done)])
  }

  /** A runner finished (returned or threw): release the job, then run a
      scheduling pass.  An outcome for a job that is not active changes nothing. */
  function Finish(q: Queue, id: JobId, outcome: Outcome, now: int): (r: Queue)
    ensures ActiveIndex(q.active, id) < 0 ==> r == q
    ensures ActiveIndex(q.active, id) >= 0 ==> r == Tick(Release(q, id, outcome, now), now)
  {
    if ActiveIndex(q.active, id) < 0 then q else Tick(Release(q, id, outcome, now), now)
  }

  /** `cancel`: a pending job is removed and marked cancelled with progress 0
      (no scheduling pass follows); an active job only has its token cancelled
      with reason `user_cancelled`; an unknown id changes nothing.  Returns
      whether a job was found. */
  function Cancel(q: Queue, id: JobId, now: int): (res: (Queue, bool))
    ensures res.1 <==> !NotPresent(q, id)
    ensures !res.1 ==> res.0 == q
    ensures res.0.runners == q.runners && res.0.concurrency == q.concurrency && res.0.activeCount == q.activeCount
    ensures res.0.finished == q.finished
    ensures PendingIndex(q.pending, id) >= 0 ==>
              var i := PendingIndex(q.pending, id);
              && res.0.pending == q.pending[..i] + q.pending[i + 1..]
              && res.0.active == q.active
              && res.0.log == q.log + [JobCancelled(q.pending[i].(status := Cancelled, progress := 0, finishedAt := Some(now)))]
    ensures PendingIndex(q.pending, id) < 0 && ActiveIndex(q.active, id) >= 0 ==>
              var a := ActiveIndex(q.active, id);
              && res.0.pending == q.pending && res.0.log == q.log
              && |res.0.active| == |q.active|
              && res.0.active[a].token == Token(true, Some("user_cancelled"))
              && res.0.active[a].job == q.active[a].job
              && forall j :: 0 <= j < |q.active| && j != a ==> res.0.active[j] == q.active[j]
  {
    var i := PendingIndex(q.pending, id);
    if i >= 0 then
      var job := q.pending[i].(status := Cancelled, finishedAt := Some(now), progress := 0);
      (q.(pending := q.pending[..i] + q.pending[i + 1..], log := q.log + [JobCancelled(job)]), true)
    else
      var a := ActiveIndex(q.active, id);
      if a >= 0 then
        var entry := q.active[a];
        (q.(active := q.active[a := entry.(token := CancelToken(entry.token, Some("user_cancelled")))]), true)
      else (q, false)
  }

  /** `setConcurrency`: the limit becomes `max(1, n)`, then a scheduling pass
      under the new limit: waiting jobs start from the head while the counter
      is below it, and the pass stops only at the limit, on an empty queue or
      at a head no runner can run.  Jobs already running are never preempted. */
  function SetConcurrency(q: Queue, n: real, now: int): (r: Queue)
    ensures r.concurrency == ClampConcurrency(n)
    ensures r.runners == q.runners && r.finished == q.finished
    ensures |r.pending| <= |q.pending| && r.pending == q.pending[|q.pending| - |r.pending|..]
    ensures r.activeCount == q.activeCount + (|q.pending| - |r.pending|)
    ensures |r.active| == |q.active| + (|q.pending| - |r.pending|) && r.active[..|q.active|] == q.active
    ensures |r.pending| < |q.pending| ==> ((r.activeCount - 1) as real) < r.concurrency
    ensures (r.activeCount as real) < r.concurrency && |r.pending| > 0 ==>
              FindRunner(r.runners, r.pending[0].jobType).None?
  {
    Tick(q.(concurrency := ClampConcurrency(n)), now)
  }

  /** With a runner for every waiting job, a new limit starts them in queue
      order, each on the first runner able to run it, until the new limit
      is reached. */
  lemma SetConcurrencyStartsWaiting(q: Queue, n: real, now: int)
    requires AllStartable(q)
    ensures var r := SetConcurrency(q, n, now);
            var q' := q.(concurrency := ClampConcurrency(n));
            && |q.pending| - |r.pending| == Min(|q.pending|, FreeSlots(q'))
            && forall i :: 0 <= i < |q.pending| - |r.pending| ==> StartedAt(q', r, now, i)
  {
    var q' := q.(concurrency := ClampConcurrency(n));
    TickFillsFreeSlots(q', now);
    TickStartsInOrder(q', now);
  }

  /** A fractional limit admits its ceiling: `setConcurrency(1.5)` lets a
      second job start beside a running one. */
  lemma FractionalLimitRunsTwo(q: Queue, now: int)
    requires Inv(q) && |q.active| == 1 && |q.pending| == 1
    requires FindRunner(q.runners, q.pending[0].jobType).Some?
    ensures SetConcurrency(q, 1.5, now).activeCount == 2
  {
  }

  /** `addRunner`: register (replacing in place a runner with the same id),
      log it, then a scheduling pass over the new registry: waiting jobs
      start from the head while the counter is below the limit, and the
      pass stops only at the limit, on an empty queue or at a head no
      runner can run. */
  function AddRunner(q: Queue, rn: Runner, now: int): (r: Queue)
    ensures r.runners == OrderedMap.Set(q.runners, rn.id, rn)
    ensures OrderedMap.Get(r.runners, rn.id) == Some(rn)
    ensures forall k :: k != rn.id ==> OrderedMap.Get(r.runners, k) == OrderedMap.Get(q.runners, k)
    ensures |r.log| > |q.log| && r.log[|q.log|] == RunnerAdded(rn.id)
    ensures r.concurrency == q.concurrency && r.finished == q.finished
    ensures |r.pending| <= |q.pending| && r.pending == q.pending[|q.pending| - |r.pending|..]
    ensures |r.active| == |q.active| + (|q.pending| - |r.pending|) && r.active[..|q.active|] == q.active
    ensures (r.activeCount as real) < r.concurrency && |r.pending| > 0 ==>
              FindRunner(r.runners, r.pending[0].jobType).None?
  {
    var q1 := q.(runners := OrderedMap.Set(q.runners, rn.id, rn), log := q.log + [RunnerAdded(rn.id)]);
    var r := Tick(q1, now);
    assert r.runners == q1.runners && r.concurrency == q.concurrency;
    assert r.pending == q.pending[|q.pending| - |r.pending|..];
    assert r.log[..|q1.log|] == q1.log && q1.log[|q.log|] == RunnerAdded(rn.id);
    assert r.log[|q.log|] == q1.log[|q.log|];
    r
  }

  /** Registering a runner able to run a head job that was blocked for want
      of one starts that job on the new runner, when the limit has room. */
  lemma AddRunnerStartsBlockedHead(q: Queue, rn: Runner, now: int)
    requires |q.pending| > 0 && (q.activeCount as real) < q.concurrency
    requires FindRunner(q.runners, q.pending[0].jobType).None?
    requires q.pending[0].jobType in rn.capabilities
    ensures var r := AddRunner(q, rn, now);
            |r.active| > |q.active| && r.active[|q.active|] == ActiveJob(Started(q.pending[0], now), FreshToken, rn.id)
  {
    var q1 := q.(runners := OrderedMap.Set(q.runners, rn.id, rn), log := q.log + [RunnerAdded(rn.id)]);
    FindNewlyCapable(q.runners, rn, q.pending[0].jobType);
    HeadStartsIfRoom(q1, now);
  }

  /** A pass below the limit whose head has a capable runner starts the head. */
  lemma HeadStartsIfRoom(q: Queue, now: int)
    requires |q.pending| > 0 && (q.activeCount as real) < q.concurrency
    requires FindRunner(q.runners, q.pending[0].jobType).Some?
    ensures |q.active| < |Tick(q, now).active|
    ensures StartedAt(q, Tick(q, now), now, 0)
  {
    var rn := FindRunner(q.runners, q.pending[0].jobType).value;
    HeadStarted(q, rn, Tick(q, now), now);
  }

  /** `removeRunner`: an unknown id is a no-op; otherwise the runner's
      shutdown hook (if any) is invoked, it leaves the registry and the
      removal is logged.  Active jobs are untouched and no pass runs. */
  function RemoveRunner(q: Queue, id: RunnerId): (r: Queue)
    requires RegistryWellFormed(q.runners)
    ensures !OrderedMap.HasKey(q.runners, id) ==> r == q
    ensures !OrderedMap.HasKey(r.runners, id)
    ensures forall k :: k != id ==> OrderedMap.Get(r.runners, k) == OrderedMap.Get(q.runners, k)
    ensures r.active == q.active && r.pending == q.pending && r.activeCount == q.activeCount
    ensures r.concurrency == q.concurrency && r.finished == q.finished
    ensures RegistryWellFormed(r.runners)
    ensures r.runners == OrderedMap.Delete(q.runners, id)
    ensures OrderedMap.HasKey(q.runners, id) ==>
              r.log == q.log + (if OrderedMap.Get(q.runners, id).value.hasShutdownHook then [RunnerShutdownCalled(id)] else [])
                             + [RunnerRemoved(id)]
  {
    if !OrderedMap.HasKey(q.runners, id) then q
    else
      var rn := OrderedMap.Get(q.runners, id).value;
      var hook := if rn.hasShutdownHook then [RunnerShutdownCalled(id)] else [];
      var rs := OrderedMap.Delete(q.runners, id);
      assert forall j :: 0 <= j < |rs| ==> rs[j] in q.runners by {
        var i := OrderedMap.IndexOf(q.runners, id);
        assert forall j :: 0 <= j < |rs| ==> rs[j] == (if j < i then q.runners[j] else q.runners[j + 1]);
      }
      q.(runners := rs, log := q.log + hook + [RunnerRemoved(id)])
  }

  /** Registering a new id puts the runner last: a job type keeps its
      runner when one was registered, and otherwise goes to the newcomer
      if it is capable. */
  lemma AddNewRunnerGoesLast(q: Queue, rn: Runner, now: int, t: JobType)
    requires !OrderedMap.HasKey(q.runners, rn.id)
    ensures var was := FindRunner(q.runners, t);
            FindRunner(AddRunner(q, rn, now).runners, t)
              == if was.Some? then was else if t in rn.capabilities then Some(rn) else None
  {
    SetNewGoesLast(q.runners, rn, t);
  }

  lemma SetNewGoesLast(rs: seq<OrderedMap.Entry<Runner>>, rn: Runner, t: JobType)
    requires !OrderedMap.HasKey(rs, rn.id)
    ensures var was := FindRunner(rs, t);
            FindRunner(OrderedMap.Set(rs, rn.id, rn), t)
              == if was.Some? then was else if t in rn.capabilities then Some(rn) else None
  {
    var e := OrderedMap.Entry(rn.id, rn);
    assert OrderedMap.Set(rs, rn.id, rn) == rs + [e];
    FindRunnerAppend(rs, [e], t);
    assert [e][1..] == [];
  }

  /** Registering a known id replaces the runner in its place: runners
      registered before it still come first, and those after it last. */
  lemma AddKnownRunnerKeepsPlace(q: Queue, rn: Runner, now: int, t: JobType)
    requires OrderedMap.HasKey(q.runners, rn.id)
    ensures var i := OrderedMap.IndexOf(q.runners, rn.id);
            var before := FindRunner(q.runners[..i], t);
            FindRunner(AddRunner(q, rn, now).runners, t)
              == if before.Some? then before
                 else if t in rn.capabilities then Some(rn)
                 else FindRunner(q.runners[i + 1..], t)
  {
    SetKnownKeepsPlace(q.runners, rn, t);
  }

  lemma SetKnownKeepsPlace(rs: seq<OrderedMap.Entry<Runner>>, rn: Runner, t: JobType)
    requires OrderedMap.HasKey(rs, rn.id)
    ensures var i := OrderedMap.IndexOf(rs, rn.id);
            var before := FindRunner(rs[..i], t);
            FindRunner(OrderedMap.Set(rs, rn.id, rn), t)
              == if before.Some? then before
                 else if t in rn.capabilities then Some(rn)
                 else FindRunner(rs[i + 1..], t)
  {
    var i := OrderedMap.IndexOf(rs, rn.id);
    var e := OrderedMap.Entry(rn.id, rn);
    SetKnownSplices(rs, rn);
    FindRunnerSplice(rs[..i], e, rs[i + 1..], t);
  }

  /** `set` on a present key splices the new entry into the old one's place. */
  lemma SetKnownSplices(rs: seq<OrderedMap.Entry<Runner>>, rn: Runner)
    requires OrderedMap.HasKey(rs, rn.id)
    ensures var i := OrderedMap.IndexOf(rs, rn.id);
            0 <= i && OrderedMap.Set(rs, rn.id, rn) == rs[..i] + ([OrderedMap.Entry(rn.id, rn)] + rs[i + 1..])
  {
    var i := OrderedMap.IndexOf(rs, rn.id);
    assert i >= 0 && OrderedMap.Set(rs, rn.id, rn) == rs[i := OrderedMap.Entry(rn.id, rn)];
    UpdateSplits(rs, i, OrderedMap.Entry(rn.id, rn));
  }

  /** The runner chosen around a spliced entry. */
  lemma FindRunnerSplice(a: seq<OrderedMap.Entry<Runner>>, e: OrderedMap.Entry<Runner>,
                         b: seq<OrderedMap.Entry<Runner>>, t: JobType)
    ensures FindRunner(a + ([e] + b), t)
              == if FindRunner(a, t).Some? then FindRunner(a, t)
                 else if t in e.value.capabilities then Some(e.value)
                 else FindRunner(b, t)
  {
    FindRunnerAppend(a, [e] + b, t);
    FindRunnerAppend([e], b, t);
    assert [e][1..] == [];
  }

  /** Removing a runner closes the gap: the runners registered before it
      are still tried first, then those registered after it. */
  lemma RemoveRunnerClosesGap(q: Queue, id: RunnerId, t: JobType)
    requires RegistryWellFormed(q.runners) && OrderedMap.HasKey(q.runners, id)
    ensures var i := OrderedMap.IndexOf(q.runners, id);
            var before := FindRunner(q.runners[..i], t);
            FindRunner(RemoveRunner(q, id).runners, t)
              == if before.Some? then before else FindRunner(q.runners[i + 1..], t)
  {
    DeleteClosesGap(q.runners, id, t);
  }

  lemma DeleteClosesGap(rs: seq<OrderedMap.Entry<Runner>>, id: RunnerId, t: JobType)
    requires OrderedMap.UniqueKeys(rs) && OrderedMap.HasKey(rs, id)
    ensures var i := OrderedMap.IndexOf(rs, id);
            var before := FindRunner(rs[..i], t);
            FindRunner(OrderedMap.Delete(rs, id), t)
              == if before.Some? then before else FindRunner(rs[i + 1..], t)
  {
    var i := OrderedMap.IndexOf(rs, id);
    var a, b := rs[..i], rs[i + 1..];
    assert OrderedMap.Delete(rs, id) == a + b;
    FindRunnerAppend(a, b, t);
  }

  /** Removing a runner other than the one a job type would go to leaves
      that choice unchanged. */
  lemma RemoveOtherRunnerKeepsChoice(q: Queue, id: RunnerId, t: JobType)
    requires RegistryWellFormed(q.runners)
    requires FindRunner(q.runners, t).Some? && FindRunner(q.runners, t).value.id != id
    ensures FindRunner(RemoveRunner(q, id).runners, t) == FindRunner(q.runners, t)
  {
    if OrderedMap.HasKey(q.runners, id) {
      DeleteOtherKeepsChoice(q.runners, id, t);
    }
  }

  lemma DeleteOtherKeepsChoice(rs: seq<OrderedMap.Entry<Runner>>, id: RunnerId, t: JobType)
    requires RegistryWellFormed(rs) && OrderedMap.HasKey(rs, id)
    requires FindRunner(rs, t).Some? && FindRunner(rs, t).value.id != id
    ensures FindRunner(OrderedMap.Delete(rs, id), t) == FindRunner(rs, t)
  {
    var i := OrderedMap.IndexOf(rs, id);
    var x := rs[i];
    UpdateSplits(rs, i, x);
    assert rs[i := x] == rs;
    FindRunnerSplice(rs[..i], x, rs[i + 1..], t);
    assert x.value.id == id;
    DeleteClosesGap(rs, id, t);
  }

  /** The pending jobs as `shutdown` cancels them: status and finish time
      change, progress is left as it was. */
  function ShutdownCancelled(p: seq<Job>, now: int): (es: seq<Event>)
    ensures |es| == |p|
    ensures forall i :: 0 <= i < |p| ==> es[i] == JobCancelled(p[i].(status := Cancelled, finishedAt := Some(now)))
  {
    seq(|p|, i requires 0 <= i < |p| => JobCancelled(p[i].(status := Cancelled, finishedAt := Some(now))))
  }

  /** The runners' shutdown hooks, awaited one after another in registration order. */
  function ShutdownHooks(rs: seq<OrderedMap.Entry<Runner>>): (es: seq<Event>)
    ensures |es| <= |rs|
    ensures forall e :: e in es ==> e.RunnerShutdownCalled?
    ensures forall i :: 0 <= i < |rs| && rs[i].value.hasShutdownHook ==> RunnerShutdownCalled(rs[i].value.id) in es
    ensures (forall i :: 0 <= i < |rs| ==> !rs[i].value.hasShutdownHook) ==> es == []
  {
    if |rs| == 0 then []
    else
      (if rs[0].value.hasShutdownHook then [RunnerShutdownCalled(rs[0].value.id)] else [])
      + ShutdownHooks(rs[1..])
  }

  /** The positions of the runners that have a shutdown hook, in
      registration order. */
  function HookedIndices(rs: seq<OrderedMap.Entry<Runner>>): (idx: seq<nat>)
    ensures forall k :: 0 <= k < |idx| ==> idx[k] < |rs| && rs[idx[k]].value.hasShutdownHook
    ensures forall k, l :: 0 <= k < l < |idx| ==> idx[k] < idx[l]
    ensures forall i :: 0 <= i < |rs| && rs[i].value.hasShutdownHook ==> i in idx
    decreases |rs|
  {
    if |rs| == 0 then []
    else
      var n := |rs| - 1;
      var front := HookedIndices(rs[..n]);
      assert forall k :: 0 <= k < |front| ==> rs[front[k]] == rs[..n][front[k]];
      front + (if rs[n].value.hasShutdownHook then [n] else [])
  }

  /** The hooks of two runner lists are called one list after the other. */
  lemma {:induction false} ShutdownHooksAppend(a: seq<OrderedMap.Entry<Runner>>, b: seq<OrderedMap.Entry<Runner>>)
    ensures ShutdownHooks(a + b) == ShutdownHooks(a) + ShutdownHooks(b)
    decreases |a|
  {
    if |a| > 0 {
      assert (a + b)[1..] == a[1..] + b;
      ShutdownHooksAppend(a[1..], b);
    } else {
      assert a + b == b;
    }
  }

  /** `shutdown` calls exactly the hooks there are, one per hooked runner,
      in registration order: the k-th call is the k-th hooked runner's. */
  lemma {:induction false} ShutdownHooksFollowRegistration(rs: seq<OrderedMap.Entry<Runner>>)
    ensures |ShutdownHooks(rs)| == |HookedIndices(rs)|
    ensures forall k :: 0 <= k < |HookedIndices(rs)| ==>
              ShutdownHooks(rs)[k] == RunnerShutdownCalled(rs[HookedIndices(rs)[k]].value.id)
    decreases |rs|
  {
    if |rs| > 0 {
      var n := |rs| - 1;
      assert rs == rs[..n] + [rs[n]];
      ShutdownHooksAppend(rs[..n], [rs[n]]);
      ShutdownHooksFollowRegistration(rs[..n]);
      var front := HookedIndices(rs[..n]);
      assert [rs[n]][1..] == [];
      assert ShutdownHooks([rs[n]]) == (if rs[n].value.hasShutdownHook then [RunnerShutdownCalled(rs[n].value.id)] else []);
      assert forall k :: 0 <= k < |front| ==> rs[front[k]] == rs[..n][front[k]];
    }
  }

  /** Every active entry with its token cancelled for `reason`. */
  function CancelAllTokens(a: seq<ActiveJob>, reason: string): (r: seq<ActiveJob>)
    ensures |r| == |a|
    ensures forall i :: 0 <= i < |a| ==> r[i].job == a[i].job && r[i].runner == a[i].runner
    ensures forall i :: 0 <= i < |a| ==> r[i].token == Token(true, Some(reason))
  {
    seq(|a|, i requires 0 <= i < |a| => a[i].(token := CancelToken(a[i].token, Some(reason))))
  }

  /** `shutdown`: pending is emptied with every job marked cancelled (progress
      kept), every active token is cancelled with reason `shutdown`, and the
      runners' hooks are called.  Active jobs stay until their runners finish. */
  function Shutdown(q: Queue, now: int): (r: Queue)
    ensures r.pending == []
    ensures |r.active| == |q.active| && r.activeCount == q.activeCount
    ensures forall i :: 0 <= i < |q.active| ==>
              r.active[i].job == q.active[i].job && r.active[i].token == Token(true, Some("shutdown"))
    ensures r.runners == q.runners && r.concurrency == q.concurrency && r.finished == q.finished
    ensures |r.log| >= |q.log| + |q.pending| && r.log[..|q.log|] == q.log
    ensures forall i :: 0 <= i < |q.pending| ==>
              r.log[|q.log| + i] == JobCancelled(q.pending[i].(status := Cancelled, finishedAt := Some(now)))
    ensures r.log == q.log + ShutdownCancelled(q.pending, now) + ShutdownHooks(q.runners)
  {
    var cancelled := ShutdownCancelled(q.pending, now);
    var log := q.log + cancelled + ShutdownHooks(q.runners);
    assert forall i :: 0 <= i < |q.pending| ==> log[|q.log| + i] == cancelled[i];
    q.(pending := [], active := CancelAllTokens(q.active, "shutdown"), log := log)
  }

  /** After the cancelled jobs, `shutdown` logs one hook call per hooked
      runner, in registration order, and nothing else. */
  lemma ShutdownCallsHooksInOrder(q: Queue, now: int)
    ensures var r := Shutdown(q, now); var idx := HookedIndices(q.runners);
            && |r.log| == |q.log| + |q.pending| + |idx|
            && forall k :: 0 <= k < |idx| ==>
                 r.log[|q.log| + |q.pending| + k] == RunnerShutdownCalled(q.runners[idx[k]].value.id)
  {
    var r := Shutdown(q, now);
    var c := ShutdownCancelled(q.pending, now);
    var hooks := ShutdownHooks(q.runners);
    ShutdownHooksFollowRegistration(q.runners);
    assert r.log == (q.log + c) + hooks && |q.log + c| == |q.log| + |q.pending|;
    assert forall k :: 0 <= k < |hooks| ==> r.log[|q.log| + |q.pending| + k] == hooks[k];
  }

  /* ---------- The state machine ---------- */

  /** The inputs the queue reacts to: its public methods, and the progress
      reports and outcomes of the runners it started. */
  datatype Input =
    | Submit(spec: JobSpec, id: JobId)
    | Report(job: JobId, p: real)
    | Return(job: JobId, result: RunResult)
    | Throw(job: JobId, message: string)
    | CancelRequest(job: JobId)
    | Resize(n: real)
    | Register(runner: Runner)
    | Unregister(runnerId: RunnerId)
    | ShutdownRequest

  /** The only external assumption: a submitted job's id is fresh, unused
      by any pending, active or finished job. */
  predicate Enabled(q: Queue, input: Input) {
    input.Submit? ==> NotPresent(q, input.id) && input.id !in q.finished
  }

  function Step(q: Queue, input: Input, now: int): Queue
    requires Enabled(q, input) && RegistryWellFormed(q.runners)
  {
    match input
    case Submit(spec, id) => Enqueue(q, spec, id, now).0
    case Report(id, p) => Progress(q, id, p)
    case Return(id, res) => Finish(q, id, Returned(res), now)
    case Throw(id, msg) => Finish(q, id, Threw(msg), now)
    case CancelRequest(id) => Cancel(q, id, now).0
    case Resize(n) => SetConcurrency(q, n, now)
    case Register(rn) => AddRunner(q, rn, now)
    case Unregister(id) => RemoveRunner(q, id)
    case ShutdownRequest => Shutdown(q, now)
  }

  lemma ReleasePreservesInv(q: Queue, id: JobId, outcome: Outcome, now: int)
    requires Inv(q) && ActiveIndex(q.active, id) >= 0
    ensures Inv(Release(q, id, outcome, now))
  {
    var i := ActiveIndex(q.active, id);
    var r := Release(q, id, outcome, now);
    var a := q.active[i];
    var done := Settle(a.job, a.token, outcome, now);
    assert r.pending == q.pending && r.active == q.active[..i] + q.active[i + 1..];
    assert r.finished == q.finished[id := done];
    RemoveActiveKeepsInv(q, r, i, done);
  }

  /** Moving active entry `i` to the finished records, settled as `done`,
      keeps the invariant. */
  lemma RemoveActiveKeepsInv(q: Queue, r: Queue, i: int, done: Job)
    requires Inv(q) && 0 <= i < |q.active|
    requires IsTerminal(done.status) && 0 <= done.progress <= 100
    requires r.pending == q.pending && r.active == q.active[..i] + q.active[i + 1..]
    requires r.finished == q.finished[q.active[i].job.id := done]
    requires r.concurrency == q.concurrency && r.runners == q.runners && r.activeCount == |r.active|
    ensures Inv(r)
  {
    var id := q.active[i].job.id;
    RemovedAt(q.active, i);
    assert forall j :: 0 <= j < |r.active| ==> r.active[j].job.id != id;
    assert forall j :: 0 <= j < |r.pending| ==> r.pending[j].id != id;
  }

  /** Removing position `i` shifts the later entries down by one. */
  lemma RemovedAt(a: seq<ActiveJob>, i: int)
    requires 0 <= i < |a|
    ensures |a[..i] + a[i + 1..]| == |a| - 1
    ensures forall j :: 0 <= j < |a| - 1 ==> (a[..i] + a[i + 1..])[j] == (if j < i then a[j] else a[j + 1])
  {
  }

  lemma CancelPendingPreservesInv(q: Queue, id: JobId, now: int)
    requires Inv(q) && PendingIndex(q.pending, id) >= 0
    ensures Inv(Cancel(q, id, now).0)
  {
    var i := PendingIndex(q.pending, id);
    var r := Cancel(q, id, now).0;
    assert r.pending == q.pending[..i] + q.pending[i + 1..];
    assert r.active == q.active && r.finished == q.finished;
    RemovePendingKeepsInv(q, r, i);
  }

  /** Dropping pending job `i` keeps the invariant. */
  lemma RemovePendingKeepsInv(q: Queue, r: Queue, i: int)
    requires Inv(q) && 0 <= i < |q.pending|
    requires r.pending == q.pending[..i] + q.pending[i + 1..]
    requires r.active == q.active && r.finished == q.finished && r.activeCount == q.activeCount
    requires r.concurrency == q.concurrency && r.runners == q.runners
    ensures Inv(r)
  {
    assert forall j :: 0 <= j < |r.pending| ==> r.pending[j] == (if j < i then q.pending[j] else q.pending[j + 1]);
  }

  lemma CancelActivePreservesInv(q: Queue, id: JobId, now: int)
    requires Inv(q) && PendingIndex(q.pending, id) < 0 && ActiveIndex(q.active, id) >= 0
    ensures Inv(Cancel(q, id, now).0)
  {
    var a := ActiveIndex(q.active, id);
    var r := Cancel(q, id, now).0;
    assert r.pending == q.pending;
    assert forall j :: 0 <= j < |r.active| ==> r.active[j].job == q.active[j].job;
  }

  lemma CancelPreservesInv(q: Queue, id: JobId, now: int)
    requires Inv(q)
    ensures Inv(Cancel(q, id, now).0)
  {
    if PendingIndex(q.pending, id) >= 0 {
      CancelPendingPreservesInv(q, id, now);
    } else if ActiveIndex(q.active, id) >= 0 {
      CancelActivePreservesInv(q, id, now);
    }
  }

  lemma AppendPendingPreservesInv(q: Queue, job: Job, e: Event)
    requires Inv(q) && NotPresent(q, job.id) && job.id !in q.finished
    requires job.status == Queued && job.progress == 0
    ensures Inv(q.(pending := q.pending + [job], log := q.log + [e]))
  {
    var q1 := q.(pending := q.pending + [job], log := q.log + [e]);
    assert forall j :: 0 <= j < |q.pending| ==> q1.pending[j] == q.pending[j];
    assert q1.pending[|q.pending|] == job;
  }

  lemma EnqueuePreservesInv(q: Queue, spec: JobSpec, id: JobId, now: int)
    requires Inv(q) && NotPresent(q, id) && id !in q.finished
    ensures Inv(Enqueue(q, spec, id, now).0)
  {
    var job := Job(id, spec.jobType, spec.inputPath, spec.outputPath, spec.options.GetOr(map[]),
                   Queued, 0, now, None, None, None, None);
    var q1 := q.(pending := q.pending + [job], log := q.log + [JobQueued(job)]);
    AppendPendingPreservesInv(q, job, JobQueued(job));
    TickPreservesInv(q1, now);
  }

  lemma FinishPreservesInv(q: Queue, id: JobId, outcome: Outcome, now: int)
    requires Inv(q)
    ensures Inv(Finish(q, id, outcome, now))
  {
    if ActiveIndex(q.active, id) >= 0 {
      ReleasePreservesInv(q, id, outcome, now);
      TickPreservesInv(Release(q, id, outcome, now), now);
    }
  }

  lemma ProgressPreservesInv(q: Queue, id: JobId, p: real)
    requires Inv(q)
    ensures Inv(Progress(q, id, p))
  {
    var r := Progress(q, id, p);
    assert forall j :: 0 <= j < |r.active| ==> r.active[j].job.id == q.active[j].job.id;
    assert forall k :: k in r.finished ==> k in q.finished;
  }

  lemma RegisterPreservesInv(q: Queue, rn: Runner, now: int)
    requires Inv(q)
    ensures Inv(AddRunner(q, rn, now))
  {
    AddRunnerKeepsRegistry(q, rn);
    TickPreservesInv(q.(runners := OrderedMap.Set(q.runners, rn.id, rn), log := q.log + [RunnerAdded(rn.id)]), now);
  }

  lemma AddRunnerKeepsRegistry(q: Queue, rn: Runner)
    requires RegistryWellFormed(q.runners)
    ensures RegistryWellFormed(OrderedMap.Set(q.runners, rn.id, rn))
  {
    var rs := OrderedMap.Set(q.runners, rn.id, rn);
    var i := OrderedMap.IndexOf(q.runners, rn.id);
    assert rs == if i >= 0 then q.runners[i := OrderedMap.Entry(rn.id, rn)] else q.runners + [OrderedMap.Entry(rn.id, rn)];
  }

  /** Every input keeps the invariant: ids distinct and pending/active
      disjoint, pending jobs queued with progress 0, active jobs running with
      progress in [0, 100], the counter equal to the number of active jobs
      (so its `max(0, …)` never takes effect), the limit at least 1. */
  lemma {:induction false} StepPreservesInv(q: Queue, input: Input, now: int)
    requires Inv(q) && Enabled(q, input)
    ensures Inv(Step(q, input, now))
  {
    match input
    case Submit(spec, id) => EnqueuePreservesInv(q, spec, id, now);
    case Report(id, p) => ProgressPreservesInv(q, id, p);
    case Return(id, res) => FinishPreservesInv(q, id, Returned(res), now);
    case Throw(id, msg) => FinishPreservesInv(q, id, Threw(msg), now);
    case CancelRequest(id) => CancelPreservesInv(q, id, now);
    case Resize(n) => TickPreservesInv(q.(concurrency := ClampConcurrency(n)), now);
    case Register(rn) => RegisterPreservesInv(q, rn, now);
    case Unregister(id) =>
    case ShutdownRequest =>
  }

  /* ---------- Properties of runs ---------- */

  /** The counter is within what the limit admits: for a whole-number limit,
      at most the limit itself. */
  predicate WithinLimit(q: Queue) {
    q.activeCount <= Capacity(q.concurrency)
  }

  /** A scheduling pass starts a job only while the counter is below the
      limit; so if the counter starts within the limit it stays there. */
  lemma TickWithinLimit(q: Queue, now: int)
    requires WithinLimit(q)
    ensures WithinLimit(Tick(q, now))
  {
    var r := Tick(q, now);
    if |r.pending| < |q.pending| {
      BelowLimitIffBelowCapacity(r.activeCount - 1, q.concurrency);
    }
  }

  lemma EnqueueWithinLimit(q: Queue, spec: JobSpec, id: JobId, now: int)
    requires NotPresent(q, id) && WithinLimit(q)
    ensures WithinLimit(Enqueue(q, spec, id, now).0)
  {
    var job := Job(id, spec.jobType, spec.inputPath, spec.outputPath, spec.options.GetOr(map[]),
                   Queued, 0, now, None, None, None, None);
    TickWithinLimit(q.(pending := q.pending + [job], log := q.log + [JobQueued(job)]), now);
  }

  lemma FinishWithinLimit(q: Queue, id: JobId, outcome: Outcome, now: int)
    requires Inv(q) && WithinLimit(q)
    ensures WithinLimit(Finish(q, id, outcome, now))
  {
    if ActiveIndex(q.active, id) >= 0 {
      TickWithinLimit(Release(q, id, outcome, now), now);
    }
  }

  /** Every input except lowering the limit keeps the counter within it.
      Lowering does not preempt, so it can leave more jobs running than the
      new limit (see `LoweringLimitKeepsJobsRunning`). */
  lemma {:induction false} StepWithinLimit(q: Queue, input: Input, now: int)
    requires Inv(q) && Enabled(q, input) && WithinLimit(q)
    requires input.Resize? ==> input.n >= q.concurrency
    ensures WithinLimit(Step(q, input, now))
  {
    match input
    case Submit(spec, id) => EnqueueWithinLimit(q, spec, id, now);
    case Report(id, p) =>
    case Return(id, res) => FinishWithinLimit(q, id, Returned(res), now);
    case Throw(id, msg) => FinishWithinLimit(q, id, Threw(msg), now);
    case CancelRequest(id) =>
    case Resize(n) =>
      CapacityMonotone(q.concurrency, ClampConcurrency(n));
      TickWithinLimit(q.(concurrency := ClampConcurrency(n)), now);
    case Register(rn) =>
      TickWithinLimit(q.(runners := OrderedMap.Set(q.runners, rn.id, rn), log := q.log + [RunnerAdded(rn.id)]), now);
    case Unregister(id) =>
    case ShutdownRequest =>
  }

  /** A progress report that arrives after the runner has returned success
      still rewrites the finished job's progress, its 100 included, and is
      still logged. */
  lemma LateReportRewritesProgress(q: Queue, id: JobId, res: RunResult, p: real, now: int)
    requires Inv(q) && ActiveIndex(q.active, id) >= 0
    requires !q.active[ActiveIndex(q.active, id)].token.cancelled && res.success
    ensures var f := Finish(q, id, Returned(res), now);
            var r := Progress(f, id, p);
            && id in r.finished && r.finished[id].status == Completed
            && r.finished[id].progress == ClampProgress(p)
            && r.log == f.log + [JobProgressed(r.finished[id], ClampProgress(p))]
  {
    FinishPreservesInv(q, id, Returned(res), now);
    var f := Finish(q, id, Returned(res), now);
    assert id in f.finished && f.finished[id].status == Completed;
  }

  /** After a runner finishes, the job's terminal notification is the next
      log entry, and it is decided by `Settle`. */
  lemma FinishLogsSettledJob(q: Queue, id: JobId, outcome: Outcome, now: int)
    requires ActiveIndex(q.active, id) >= 0
    ensures var a := q.active[ActiveIndex(q.active, id)];
            var r := Finish(q, id, outcome, now);
            |r.log| > |q.log| && r.log[|q.log|] == TerminalEvent(Settle(a.job, a.token, outcome, now))
  {
    var r1 := Release(q, id, outcome, now);
    var r := Tick(r1, now);
    assert r.log[..|r1.log|] == r1.log;
    assert r.log[|q.log|] == r.log[..|r1.log|][|q.log|];
  }

  /** A runner that throws after its job was cancelled leaves the job
      `failed`, not `cancelled`: cancellation wins only on a normal return. */
  lemma ThrowAfterCancelFails(q: Queue, id: JobId, msg: string, now: int)
    requires Inv(q) && PendingIndex(q.pending, id) < 0 && ActiveIndex(q.active, id) >= 0
    ensures var c := Cancel(q, id, now).0;
            var r := Finish(c, id, Threw(msg), now);
            |r.log| > |c.log| && r.log[|c.log|].JobFailed? && r.log[|c.log|].job.status == Failed
            && r.log[|c.log|].job.error == Some(msg)
  {
    var c := Cancel(q, id, now).0;
    CancelActiveKeepsEntry(q, id, now);
    FinishLogsSettledJob(c, id, Threw(msg), now);
  }

  /** Cancelling an active job keeps its entry where it was, with the same
      job record and a cancelled token. */
  lemma CancelActiveKeepsEntry(q: Queue, id: JobId, now: int)
    requires PendingIndex(q.pending, id) < 0 && ActiveIndex(q.active, id) >= 0
    ensures var c := Cancel(q, id, now).0;
            var a := ActiveIndex(q.active, id);
            && ActiveIndex(c.active, id) == a
            && c.active[a].job == q.active[a].job
            && c.active[a].token.cancelled
  {
    var c := Cancel(q, id, now).0;
    assert forall j :: 0 <= j < |c.active| ==> c.active[j].job == q.active[j].job;
  }

  /** Cancelling an active job and then seeing its runner return — even with
      `success` — ends it `cancelled`, with its progress as it was. */
  lemma CancelThenReturnIsCancelled(q: Queue, id: JobId, res: RunResult, now: int)
    requires Inv(q) && PendingIndex(q.pending, id) < 0 && ActiveIndex(q.active, id) >= 0
    ensures var c := Cancel(q, id, now).0;
            var r := Finish(c, id, Returned(res), now);
            |r.log| > |c.log| && r.log[|c.log|].JobCancelled?
            && r.log[|c.log|].job.status == Cancelled
            && r.log[|c.log|].job.progress == q.active[ActiveIndex(q.active, id)].job.progress
  {
    var c := Cancel(q, id, now).0;
    CancelActiveKeepsEntry(q, id, now);
    FinishLogsSettledJob(c, id, Returned(res), now);
  }

  /** A cancelled pending job is gone: it can never be started or finished. */
  lemma CancelledPendingIsGone(q: Queue, id: JobId, now: int)
    requires Inv(q) && PendingIndex(q.pending, id) >= 0
    ensures NotPresent(Cancel(q, id, now).0, id)
  {
    var i := PendingIndex(q.pending, id);
    var r := Cancel(q, id, now).0;
    assert forall j :: 0 <= j < |r.pending| ==> r.pending[j] == (if j < i then q.pending[j] else q.pending[j + 1]);
  }

  /** Removing a runner never touches the jobs running on it: each can
      still finish and be reported. */
  lemma RemovedRunnerJobStillFinishes(q: Queue, rid: RunnerId, id: JobId, outcome: Outcome, now: int)
    requires Inv(q) && ActiveIndex(q.active, id) >= 0
    ensures var r := RemoveRunner(q, rid);
            var f := Finish(r, id, outcome, now);
            |f.log| > |r.log| && IsTerminal(f.log[|r.log|].job.status)
  {
    var r := RemoveRunner(q, rid);
    FinishLogsSettledJob(r, id, outcome, now);
  }

  /* ---------- Scenarios ---------- */

  /** Head-of-line blocking: when the head job has no capable runner, a
      pass starts nothing, even if the job behind it has an idle runner. */
  lemma HeadOfLineBlocksLaterJob(q: Queue, now: int)
    requires |q.pending| == 2 && (q.activeCount as real) < q.concurrency
    requires FindRunner(q.runners, q.pending[0].jobType).None?
    requires FindRunner(q.runners, q.pending[1].jobType).Some?
    ensures Tick(q, now) == q
  {
  }

  /** Cancelling the blocked head runs no scheduling pass: the startable job
      behind it stays queued until something else triggers a pass. */
  lemma CancelDoesNotReschedule(q: Queue, now: int)
    requires Inv(q) && |q.pending| == 2 && (q.activeCount as real) < q.concurrency
    requires FindRunner(q.runners, q.pending[0].jobType).None?
    requires FindRunner(q.runners, q.pending[1].jobType).Some?
    ensures var c := Cancel(q, q.pending[0].id, now).0;
            && c.pending == [q.pending[1]] && c.active == q.active
            && Tick(c, now).pending == [] && |Tick(c, now).active| == |q.active| + 1
  {
    var c := Cancel(q, q.pending[0].id, now).0;
    assert PendingIndex(q.pending, q.pending[0].id) == 0;
    assert c.pending == [q.pending[1]];
  }

  /** With limit 1 and one job running, the next job waits; once the running
      job finishes, the pass that follows starts it. */
  lemma NextJobWaitsForRunningOne(q: Queue, outcome: Outcome, now: int)
    requires Inv(q) && q.concurrency == 1.0 && |q.active| == 1 && |q.pending| == 1
    requires FindRunner(q.runners, q.pending[0].jobType).Some?
    ensures Tick(q, now) == q
    ensures var f := Finish(q, q.active[0].job.id, outcome, now);
            f.pending == [] && |f.active| == 1 && f.active[0].job.id == q.pending[0].id
            && f.active[0].job.status == Running
  {
    var id := q.active[0].job.id;
    assert ActiveIndex(q.active, id) == 0;
    var r1 := Release(q, id, outcome, now);
    assert r1.pending == q.pending && r1.runners == q.runners;
    assert r1.active == [] && r1.activeCount == 0 && r1.concurrency == 1.0;
    var f := Tick(r1, now);
    assert f == Finish(q, id, outcome, now);
    assert |f.pending| == 0;
    TickStartsInOrder(r1, now);
    assert StartedAt(r1, f, now, 0);
  }

  /** Lowering the limit does not preempt: the jobs already running stay,
      so more jobs than the new limit can be active. */
  lemma LoweringLimitKeepsJobsRunning(q: Queue, now: int)
    requires Inv(q) && |q.active| == 2
    ensures SetConcurrency(q, 1.0, now).concurrency == 1.0
    ensures SetConcurrency(q, 1.0, now).activeCount >= 2
  {
  }
}

=== FILE: raw_formats.dfy ===
/** RAW camera-file classification, in two places that do not share code:
    the import panel of the frontend (`detectFileFormat`: a regular
    expression on the lower-cased name, then a substring search in a
    nine-entry table of makes), and the import endpoint of the backend
    (the path suffix, lower-cased, looked up in a sixteen-entry table). */
module RawFormats {
  import opened Wrappers
  import opened Strings

  /* ---------- Frontend: detectFileFormat ---------- */

  /** The alternatives of the anchored expression
      `\.(cr2|cr3|nef|nrw|arw|dng|raf|orf|rw2|pef|srw|erf|kdc|dcr|mos|raw)$`. */
  const RegexExtensions: seq<string> :=
    ["cr2", "cr3", "nef", "nrw", "arw", "dng", "raf", "orf", "rw2", "pef", "srw", "erf", "kdc", "dcr", "mos", "raw"]

  datatype PanelFormat = PanelFormat(extension: string, make: string, example: string)

  /** The panel's `SUPPORTED_RAW_FORMATS`: one entry per make, its
      extensions written as one display string. */
  const PanelFormats: seq<PanelFormat> := [
    PanelFormat(".cr2, .cr3", "Canon", "IMG_1234.CR2"),
    PanelFormat(".nef, .nrw", "Nikon", "DSC_5678.NEF"),
    PanelFormat(".arw", "Sony", "DSC00123.ARW"),
    PanelFormat(".dng", "Adobe (Universal)", "IMG_9012.DNG"),
    PanelFormat(".raf", "Fujifilm", "DSCF1234.RAF"),
    PanelFormat(".orf", "Olympus", "P1234567.ORF"),
    PanelFormat(".rw2", "Panasonic", "P1000123.RW2"),
    PanelFormat(".pef", "Pentax", "IMGP1234.PEF"),
    PanelFormat(".srw", "Samsung", "SAM_1234.SRW")
  ]

  /** The capture group of the expression on an already lower-cased name:
      a final dot and one of the alternatives, at the very end. */
  function MatchedExtension(f: string): (r: Option<string>)
    ensures r.Some? <==> exists e :: e in RegexExtensions && EndsWith(f, "." + e)
    ensures r.Some? ==> r.value in RegexExtensions && EndsWith(f, "." + r.value)
  {
    EndingPosition(f);
    if |f| >= 4 && f[|f| - 4] == '.' && f[|f| - 3..] in RegexExtensions then
      assert f[|f| - 4..] == "." + f[|f| - 3..];
      Some(f[|f| - 3..])
    else
      None
  }

  /** Every alternative has three characters, so a match sits in the last
      four. */
  lemma EndingPosition(f: string)
    ensures forall e :: e in RegexExtensions && EndsWith(f, "." + e) ==>
              |f| >= 4 && f[|f| - 3..] == e && f[|f| - 4] == '.'
  {
    assert forall e :: e in RegexExtensions ==> |e| == 3;
    forall e | e in RegexExtensions && EndsWith(f, "." + e)
      ensures |f| >= 4 && f[|f| - 3..] == e && f[|f| - 4] == '.'
    {
      DotThreeSuffix(f, e);
    }
  }

  lemma DotThreeSuffix(f: string, e: string)
    requires |e| == 3 && EndsWith(f, "." + e)
    ensures |f| >= 4 && f[|f| - 3..] == e && f[|f| - 4] == '.'
  {
    assert f[|f| - 4..] == "." + e;
    assert f[|f| - 4..][1..] == f[|f| - 3..];
  }

  /** `SUPPORTED_RAW_FORMATS.find(f => f.extension.includes(ext))`: the
      first entry whose display string contains `ext`. */
  function FindPanelFormat(formats: seq<PanelFormat>, ext: string): (r: Option<PanelFormat>)
    ensures r.Some? ==> exists i :: 0 <= i < |formats| && formats[i] == r.value && Contains(r.value.extension, ext)
    ensures r.None? <==> forall i :: 0 <= i < |formats| ==> !Contains(formats[i].extension, ext)
    decreases |formats|
  {
    if |formats| == 0 then None
    else if Contains(formats[0].extension, ext) then Some(formats[0])
    else FindPanelFormat(formats[1..], ext)
  }

  /** `detectFileFormat`. */
  function DetectFileFormat(filename: string): (r: string)
    ensures MatchedExtension(Lower(filename)).None? <==> r == "Unknown"
  {
    var m := MatchedExtension(Lower(filename));
    MakesAreNotVerdicts();
    if m.None? then "Unknown"
    else
      var format := FindPanelFormat(PanelFormats, m.value);
      if format.Some? then format.value.make else "RAW"
  }

  /** No make reads as one of the two fallback answers. */
  lemma MakesAreNotVerdicts()
    ensures forall f :: f in PanelFormats ==> f.make != "Unknown" && f.make != "RAW"
  {
    forall f | f in PanelFormats
      ensures f.make != "Unknown" && f.make != "RAW"
    {
      assert |f.make| > 0 && f.make[0] != 'U' && f.make[0] != 'R';
    }
  }

  /* ---------- Backend: import_raw_file ---------- */

  /** The backend's `SUPPORTED_RAW_FORMATS`, in insertion order. */
  const BackendFormats: seq<(string, string)> := [
    (".cr2", "Canon"), (".cr3", "Canon"), (".nef", "Nikon"), (".nrw", "Nikon"),
    (".arw", "Sony"), (".dng", "Adobe DNG (Universal)"), (".raf", "Fujifilm"),
    (".orf", "Olympus"), (".rw2", "Panasonic"), (".pef", "Pentax"), (".srw", "Samsung"),
    (".erf", "Epson"), (".kdc", "Kodak"), (".dcr", "Kodak"), (".mos", "Leaf"),
    (".raw", "Generic RAW")
  ]

  function BackendKeys(): (ks: seq<string>)
    ensures |ks| == |BackendFormats|
    ensures forall i :: 0 <= i < |ks| ==> ks[i] == BackendFormats[i].0
  {
    seq(|BackendFormats|, i requires 0 <= i < |BackendFormats| => BackendFormats[i].0)
  }

  /** `SUPPORTED_RAW_FORMATS.get(ext)`. */
  function LookupIn(table: seq<(string, string)>, ext: string): (r: Option<string>)
    ensures r.Some? ==> exists i :: 0 <= i < |table| && table[i] == (ext, r.value)
    ensures r.None? <==> forall i :: 0 <= i < |table| ==> table[i].0 != ext
    decreases |table|
  {
    if |table| == 0 then None
    else if table[0].0 == ext then Some(table[0].1)
    else LookupIn(table[1..], ext)
  }

  /** Position of the last `c` in `s`, or -1 (`str.rfind`). */
  function LastIndexOf(s: string, c: char): (r: int)
    ensures -1 <= r < |s|
    ensures r >= 0 ==> s[r] == c
    ensures forall j :: r < j < |s| ==> s[j] != c
    decreases |s|
  {
    if |s| == 0 then -1
    else if s[|s| - 1] == c then |s| - 1
    else LastIndexOf(s[..|s| - 1], c)
  }

  /** `PurePosixPath(p).name`: the last component, after dropping empty and
      `.` components. */
  function BaseName(p: string): (r: string)
    ensures '/' !in r
    decreases |p|
  {
    if |p| == 0 then ""
    else if p[|p| - 1] == '/' then BaseName(p[..|p| - 1])
    else
      var i := LastIndexOf(p, '/');
      var c := p[i + 1..];
      assert forall j :: 0 <= j < |c| ==> c[j] == p[i + 1 + j];
      if c == "." then BaseName(p[..i + 1]) else c
  }

  /** `PurePath.suffix` of a name: from the last dot, unless that dot is
      the first or the last character. */
  function Suffix(name: string): (r: string)
    ensures r == "" || (r[0] == '.' && EndsWith(name, r) && |r| >= 2)
  {
    var i := LastIndexOf(name, '.');
    if 0 < i < |name| - 1 then name[i..] else ""
  }

  /** `Path(file.filename).suffix.lower()`. */
  function FileExtension(filename: string): string {
    Lower(Suffix(BaseName(filename)))
  }

  datatype HttpError = HttpError(status: int, detail: string)

  datatype Imported = Imported(storedName: string, path: string, rawFormat: string)

  const UnsupportedDetail: string := "Unsupported RAW format. Supported formats: " + Join(BackendKeys(), ", ")

  /** The extension check of `import_raw_file` and the stored-file naming
      that follows it; `uuid` is the generated name.  A rejection is a
      value of its own: nothing is stored and no row is created. */
  function ImportRawFile(filename: string, uuid: string): (r: Result<Imported, HttpError>)
    ensures r.Err? <==> LookupIn(BackendFormats, FileExtension(filename)).None?
    ensures r.Err? ==> r.error == HttpError(400, UnsupportedDetail)
    ensures r.Ok? ==> && LookupIn(BackendFormats, FileExtension(filename)) == Some(r.value.rawFormat)
                      && r.value.storedName == uuid + FileExtension(filename)
                      && r.value.path == "/uploads/raw/" + r.value.storedName
  {
    var ext := FileExtension(filename);
    match LookupIn(BackendFormats, ext)
    case None => Err(HttpError(400, UnsupportedDetail))
    case Some(make) =>
      var storedName := uuid + ext;
      Ok(Imported(storedName, "/uploads/raw/" + storedName, make))
  }

  datatype FormatInfo = FormatInfo(extension: string, camera: string, example: string)

  /** `get_supported_raw_formats`. */
  function SupportedRawFormats(): (r: seq<FormatInfo>)
    ensures |r| == |BackendFormats|
    ensures forall i :: 0 <= i < |r| ==>
              r[i] == FormatInfo(BackendFormats[i].0, BackendFormats[i].1, "IMG_0001" + BackendFormats[i].0)
  {
    seq(|BackendFormats|, i requires 0 <= i < |BackendFormats| =>
          FormatInfo(BackendFormats[i].0, BackendFormats[i].1, "IMG_0001" + BackendFormats[i].0))
  }

  /* ---------- Properties ---------- */

  /** `find` answers the first entry that lists the extension. */
  lemma {:induction false} FindPanelFormatAt(formats: seq<PanelFormat>, ext: string, k: nat)
    requires k < |formats| && Contains(formats[k].extension, ext)
    requires forall j :: 0 <= j < k ==> !Contains(formats[j].extension, ext)
    ensures FindPanelFormat(formats, ext) == Some(formats[k])
    decreases k
  {
    if k > 0 {
      FindPanelFormatAt(formats[1..], ext, k - 1);
    }
  }

  /** Three characters, none of them a dot or a comma: what the expression
      captures. */
  predicate PlainExtension(e: string) {
    |e| == 3 && forall i :: 0 <= i < |e| ==> e[i] != '.' && e[i] != ','
  }

  lemma RegexExtensionsPlain()
    ensures forall i :: 0 <= i < |RegexExtensions| ==> PlainExtension(RegexExtensions[i])
  {
  }

  /** A one-extension display string contains a plain extension only when
      it lists exactly that one. */
  lemma ContainsInSingle(a: string, e: string)
    requires |a| == 3 && PlainExtension(e)
    ensures Contains("." + a, e) <==> e == a
  {
    var s := "." + a;
    ContainsAt(s, e);
    if e == a {
      assert s[1..][..3] == a;
    }
    if Contains(s, e) {
      var i :| 0 <= i <= |s| - |e| && StartsWith(s[i..], e);
      assert s[i..][0] == e[0];
      if i == 1 {
        assert s[1..][..3] == a;
      }
    }
  }

  /** A two-extension display string contains a plain extension only when
      it lists that one: no window straddling the separator matches. */
  lemma ContainsInPair(a: string, b: string, e: string)
    requires |a| == 3 && |b| == 3 && PlainExtension(e)
    ensures Contains("." + a + ", ." + b, e) <==> e == a || e == b
  {
    var s := "." + a + ", ." + b;
    PairShape(a, b, s);
    ContainsAt(s, e);
    if e == a {
      assert StartsWith(s[1..], e);
    }
    if e == b {
      assert StartsWith(s[7..], e);
    }
    if Contains(s, e) {
      var i :| 0 <= i <= |s| - |e| && StartsWith(s[i..], e);
      WindowInPair(s, a, b, e, i);
    }
  }

  lemma PairShape(a: string, b: string, s: string)
    requires |a| == 3 && |b| == 3 && s == "." + a + ", ." + b
    ensures |s| == 10 && s[1..4] == a && s[7..10] == b
    ensures s[0] == '.' && s[4] == ',' && s[6] == '.'
  {
  }

  /** The only three-character windows of the pair free of `.` and `,`
      are the two extensions. */
  lemma WindowInPair(s: string, a: string, b: string, e: string, i: int)
    requires |s| == 10 && s[1..4] == a && s[7..10] == b
    requires s[0] == '.' && s[4] == ',' && s[6] == '.'
    requires PlainExtension(e) && 0 <= i <= |s| - |e| && StartsWith(s[i..], e)
    ensures e == a || e == b
  {
    assert s[i] == e[0] && s[i + 1] == e[1] && s[i + 2] == e[2];
    assert i == 1 || i == 7;
    assert e == s[i..i + 3];
  }

  /** The extensions each panel entry lists, without their dots. */
  const PanelListings: seq<seq<string>> :=
    [["cr2", "cr3"], ["nef", "nrw"], ["arw"], ["dng"], ["raf"], ["orf"], ["rw2"], ["pef"], ["srw"]]

  /** Each display string is its listing, dotted and joined by ", ". */
  lemma PanelDisplayStrings()
    ensures |PanelListings| == |PanelFormats|
    ensures forall j :: 0 <= j < |PanelFormats| && |PanelListings[j]| == 1 ==>
              |PanelListings[j][0]| == 3 && PanelFormats[j].extension == "." + PanelListings[j][0]
    ensures forall j :: 0 <= j < |PanelFormats| && |PanelListings[j]| != 1 ==>
              && |PanelListings[j]| == 2 && |PanelListings[j][0]| == 3 && |PanelListings[j][1]| == 3
              && PanelFormats[j].extension == "." + PanelListings[j][0] + ", ." + PanelListings[j][1]
  {
  }

  /** A display string of one or two extensions contains a plain
      extension exactly when it lists it. */
  lemma DisplayContainsIff(s: string, l: seq<string>, e: string)
    requires PlainExtension(e)
    requires || (|l| == 1 && |l[0]| == 3 && s == "." + l[0])
             || (|l| == 2 && |l[0]| == 3 && |l[1]| == 3 && s == "." + l[0] + ", ." + l[1])
    ensures Contains(s, e) <==> e in l
  {
    if |l| == 1 {
      ContainsInSingle(l[0], e);
    } else {
      ContainsInPair(l[0], l[1], e);
    }
  }

  /** The substring test of an entry is membership in its listing. */
  lemma ListingIff(j: nat, e: string)
    requires j < |PanelFormats| && PlainExtension(e)
    ensures Contains(PanelFormats[j].extension, e) <==> e in PanelListings[j]
  {
    PanelDisplayStrings();
    DisplayContainsIff(PanelFormats[j].extension, PanelListings[j], e);
  }

  /** A recognised extension is classified by the first entry listing it. */
  lemma DetectListed(name: string, e: string, k: nat)
    requires MatchedExtension(Lower(name)) == Some(e)
    requires k < |PanelFormats| && e in PanelListings[k]
    requires forall j :: 0 <= j < k ==> e !in PanelListings[j]
    ensures DetectFileFormat(name) == PanelFormats[k].make
  {
    RegexExtensionsPlain();
    forall j | 0 <= j <= k ensures Contains(PanelFormats[j].extension, e) <==> e in PanelListings[j] {
      ListingIff(j, e);
    }
    FindPanelFormatAt(PanelFormats, e, k);
  }

  /** A recognised extension no entry lists is classified `RAW`. */
  lemma DetectUnlisted(name: string, e: string)
    requires MatchedExtension(Lower(name)) == Some(e)
    requires forall j :: 0 <= j < |PanelListings| ==> e !in PanelListings[j]
    ensures DetectFileFormat(name) == "RAW"
  {
    RegexExtensionsPlain();
    PanelDisplayStrings();
    forall j | 0 <= j < |PanelFormats| ensures !Contains(PanelFormats[j].extension, e) {
      ListingIff(j, e);
    }
  }


  /** A name ending in a dot and an alternative captures that alternative. */
  lemma CapturesFinalExtension(name: string, e: string)
    requires e in RegexExtensions && EndsWith(Lower(name), "." + e)
    ensures MatchedExtension(Lower(name)) == Some(e)
  {
    EndingPosition(Lower(name));
  }

  /** `nrw` is Nikon and `cr3` is Canon, in any case. */
  lemma NamedMakes(name: string)
    ensures EndsWith(Lower(name), ".nrw") ==> DetectFileFormat(name) == "Nikon"
    ensures EndsWith(Lower(name), ".cr3") ==> DetectFileFormat(name) == "Canon"
  {
    if EndsWith(Lower(name), ".nrw") {
      NrwIsNikon(name);
    }
    if EndsWith(Lower(name), ".cr3") {
      Cr3IsCanon(name);
    }
  }

  lemma NrwIsNikon(name: string)
    requires EndsWith(Lower(name), ".nrw")
    ensures DetectFileFormat(name) == "Nikon"
  {
    assert RegexExtensions[3] == "nrw";
    CapturesFinalExtension(name, "nrw");
    assert PanelListings[1][1] == "nrw";
    DetectListed(name, "nrw", 1);
  }

  lemma Cr3IsCanon(name: string)
    requires EndsWith(Lower(name), ".cr3")
    ensures DetectFileFormat(name) == "Canon"
  {
    assert RegexExtensions[1] == "cr3";
    CapturesFinalExtension(name, "cr3");
    assert PanelListings[0][1] == "cr3";
    DetectListed(name, "cr3", 0);
  }

  /** The alternatives no panel entry lists. */
  const UnlistedExtensions: seq<string> := ["erf", "kdc", "dcr", "mos", "raw"]

  lemma UnlistedAreAlternatives()
    ensures forall i :: 0 <= i < |UnlistedExtensions| ==> UnlistedExtensions[i] == RegexExtensions[11 + i]
  {
  }

  lemma UnlistedAreNotListed()
    ensures forall i, j :: 0 <= i < |UnlistedExtensions| && 0 <= j < |PanelListings| ==>
              UnlistedExtensions[i] !in PanelListings[j]
  {
  }

  /** `erf`, `kdc`, `dcr`, `mos` and `raw` are recognised but only as `RAW`. */
  lemma UnlistedExtensionsAreRaw(name: string, i: nat)
    requires i < |UnlistedExtensions| && EndsWith(Lower(name), "." + UnlistedExtensions[i])
    ensures DetectFileFormat(name) == "RAW"
  {
    var e := UnlistedExtensions[i];
    UnlistedAreAlternatives();
    assert e == RegexExtensions[11 + i];
    CapturesFinalExtension(name, e);
    UnlistedAreNotListed();
    DetectUnlisted(name, e);
  }

  /** A name whose lower-cased form does not end in a dot and an
      alternative is unknown, whatever it contains before. */
  lemma UnknownUnlessFinal(name: string)
    requires var f := Lower(name); |f| < 4 || f[|f| - 4] != '.' || f[|f| - 3..] !in RegexExtensions
    ensures DetectFileFormat(name) == "Unknown"
  {
  }

  lemma JpgIsNotAnAlternative()
    ensures "jpg" !in RegexExtensions
  {
  }

  /** Only a final dot and alternative count: a later `.jpg` or a missing
      dot leaves the name unknown. */
  lemma OnlyTheFinalExtensionCounts(name: string)
    requires name == "a.cr2.jpg" || name == "cr2"
    ensures DetectFileFormat(name) == "Unknown"
  {
    var f := Lower(name);
    if name == "a.cr2.jpg" {
      assert f[6] == 'j' && f[7] == 'p' && f[8] == 'g';
      assert f[|f| - 3..] == "jpg";
      JpgIsNotAnAlternative();
    }
    UnknownUnlessFinal(name);
  }

  /** The classifier answers one of the nine makes, `RAW` or `Unknown`. */
  lemma DetectResultRange(filename: string)
    ensures var r := DetectFileFormat(filename);
            r == "RAW" || r == "Unknown" || exists f :: f in PanelFormats && f.make == r
  {
  }

  /** The classifier ignores case. */
  lemma DetectIgnoresCase(filename: string)
    ensures DetectFileFormat(Lower(filename)) == DetectFileFormat(filename)
  {
    LowerIdempotent(filename);
  }

  /** The backend keys are the frontend alternatives, dotted, in the same
      order. */
  lemma BackendKeysAreRegexExtensions()
    ensures |BackendFormats| == |RegexExtensions| == 16
    ensures forall i :: 0 <= i < 16 ==> BackendFormats[i].0 == "." + RegexExtensions[i]
  {
  }

  /** Every extension the frontend expression accepts is accepted by the
      backend. */
  lemma {:induction false} RegexExtensionsAccepted(e: string)
    requires e in RegexExtensions
    ensures LookupIn(BackendFormats, "." + e).Some?
  {
    BackendKeysAreRegexExtensions();
    var i :| 0 <= i < |RegexExtensions| && RegexExtensions[i] == e;
    assert BackendFormats[i].0 == "." + e;
  }

  /** The backend table is a dictionary: its sixteen keys are distinct. */
  lemma BackendKeysDistinct()
    ensures forall i, j :: 0 <= i < j < |BackendFormats| ==> BackendFormats[i].0 != BackendFormats[j].0
  {
  }

  /** The supported-formats list names exactly the accepted extensions. */
  lemma SupportedListMatchesImport(filename: string, uuid: string)
    ensures ImportRawFile(filename, uuid).Ok? <==>
              exists i :: 0 <= i < |SupportedRawFormats()| && SupportedRawFormats()[i].extension == FileExtension(filename)
  {
    var ext := FileExtension(filename);
    ListedIffFound(BackendFormats, SupportedRawFormats(), ext);
  }

  /** A listing that copies a table's keys names exactly the keys the
      table finds. */
  lemma ListedIffFound(t: seq<(string, string)>, listed: seq<FormatInfo>, ext: string)
    requires |listed| == |t| && forall i :: 0 <= i < |t| ==> listed[i].extension == t[i].0
    ensures LookupIn(t, ext).Some? <==> exists i :: 0 <= i < |listed| && listed[i].extension == ext
  {
    if LookupIn(t, ext).Some? {
      var i :| 0 <= i < |t| && t[i] == (ext, LookupIn(t, ext).value);
      assert listed[i].extension == ext;
    }
  }

  /* ---------- Backend case-insensitivity ---------- */

  /** Lower-casing moves no character that is neither a letter nor the
      Kelvin sign. */
  lemma {:induction false} LastIndexOfLower(s: string, c: char)
    requires !('A' <= c <= 'Z') && !('a' <= c <= 'z') && c != KelvinSign
    ensures LastIndexOf(Lower(s), c) == LastIndexOf(s, c)
    decreases |s|
  {
    if |s| > 0 {
      LowerSlice(s, 0, |s| - 1);
      assert s[0..|s| - 1] == s[..|s| - 1];
      assert Lower(s)[0..|s| - 1] == Lower(s)[..|s| - 1];
      LastIndexOfLower(s[..|s| - 1], c);
    }
  }

  /** Only `.` lower-cases to `.`. */
  lemma LowerIsDot(c: string)
    ensures Lower(c) == "." <==> c == "."
  {
    if |c| == 1 {
      assert Lower(c)[0] == LowerChar(c[0]);
    }
  }

  /** Lower-casing commutes with dropping the last character. */
  lemma LowerPrefix(p: string, n: nat)
    requires n <= |p|
    ensures Lower(p[..n]) == Lower(p)[..n]
  {
    LowerSlice(p, 0, n);
    assert p[0..n] == p[..n] && Lower(p)[0..n] == Lower(p)[..n];
  }

  /** Lower-casing commutes with dropping a prefix. */
  lemma LowerTail(p: string, n: nat)
    requires n <= |p|
    ensures Lower(p[n..]) == Lower(p)[n..]
  {
    LowerSlice(p, n, |p|);
    assert p[n..|p|] == p[n..] && Lower(p)[n..|p|] == Lower(p)[n..];
  }

  /** The last path component of the lower-cased path is the lower-cased
      last component. */
  lemma {:induction false} BaseNameLower(p: string)
    ensures BaseName(Lower(p)) == Lower(BaseName(p))
    decreases |p|
  {
    if |p| > 0 {
      var q := Lower(p);
      if p[|p| - 1] == '/' {
        LowerPrefix(p, |p| - 1);
        BaseNameLower(p[..|p| - 1]);
      } else {
        var i := LastIndexOf(p, '/');
        if p[i + 1..] == "." {
          BaseNameLower(p[..i + 1]);
        }
        BaseNameLowerLastPart(p, i);
      }
    }
  }

  /** The step of `BaseNameLower` for a path not ending in a slash, given
      the claim for the part before its last component. */
  lemma BaseNameLowerLastPart(p: string, i: int)
    requires |p| > 0 && p[|p| - 1] != '/' && i == LastIndexOf(p, '/')
    requires p[i + 1..] == "." ==> BaseName(Lower(p[..i + 1])) == Lower(BaseName(p[..i + 1]))
    ensures BaseName(Lower(p)) == Lower(BaseName(p))
  {
    var q := Lower(p);
    LastIndexOfLower(p, '/');
    LowerTail(p, i + 1);
    LowerIsDot(p[i + 1..]);
    assert q[|q| - 1] == LowerChar(p[|p| - 1]);
    BaseNameUnfold(p);
    BaseNameUnfold(q);
    if p[i + 1..] == "." {
      LowerPrefix(p, i + 1);
    }
  }

  /** One step of `BaseName` on a path not ending in a slash. */
  lemma BaseNameUnfold(p: string)
    requires |p| > 0 && p[|p| - 1] != '/'
    ensures var i := LastIndexOf(p, '/');
            BaseName(p) == if p[i + 1..] == "." then BaseName(p[..i + 1]) else p[i + 1..]
  {
  }

  /** The suffix of the lower-cased name is the lower-cased suffix. */
  lemma SuffixLower(name: string)
    ensures Suffix(Lower(name)) == Lower(Suffix(name))
  {
    LastIndexOfLower(name, '.');
    var i := LastIndexOf(name, '.');
    if 0 < i < |name| - 1 {
      LowerSlice(name, i, |name|);
      assert name[i..|name|] == name[i..] && Lower(name)[i..|name|] == Lower(name)[i..];
    }
  }

  /** The backend accepts a name exactly when it accepts it lower-cased,
      and stores and classifies both alike. */
  lemma ImportIgnoresCase(filename: string, uuid: string)
    ensures ImportRawFile(Lower(filename), uuid) == ImportRawFile(filename, uuid)
  {
    BaseNameLower(filename);
    SuffixLower(BaseName(filename));
    LowerIdempotent(Suffix(BaseName(filename)));
    assert FileExtension(Lower(filename)) == FileExtension(filename);
  }

  /* ---------- Frontend and backend together ---------- */

  /** A name without a directory part is its own last component, unless it
      is `.`. */
  lemma BareBaseName(f: string)
    requires '/' !in f
    ensures BaseName(f) == (if f == "." then "" else f)
  {
    if |f| > 0 {
      var i := LastIndexOf(f, '/');
      assert i == -1;
      assert f[i + 1..] == f;
      if f == "." {
        assert f[..i + 1] == "";
      }
    }
  }

  /** Every backend key is a dot and an alternative. */
  lemma AcceptedKeyIsAlternative(ext: string)
    requires LookupIn(BackendFormats, ext).Some?
    ensures exists k :: 0 <= k < |RegexExtensions| && ext == "." + RegexExtensions[k]
  {
    var make := LookupIn(BackendFormats, ext).value;
    var k :| 0 <= k < |BackendFormats| && BackendFormats[k] == (ext, make);
    BackendKeysAreRegexExtensions();
    assert ext == "." + RegexExtensions[k];
  }

  /** For a bare name with an extension, the extension is a tail of the
      lower-cased name. */
  lemma BareExtensionIsTail(filename: string)
    requires '/' !in filename && FileExtension(filename) != ""
    ensures EndsWith(Lower(filename), FileExtension(filename))
  {
    DotHasNoExtension();
    BareBaseName(filename);
    var i := SuffixStart(filename);
    LowerTail(filename, i);
    TailEndsWith(Lower(filename), i);
  }

  lemma TailEndsWith(s: string, n: nat)
    requires n <= |s|
    ensures EndsWith(s, s[n..])
  {
  }

  /** The name `.` has no extension. */
  lemma DotHasNoExtension()
    ensures FileExtension(".") == ""
  {
    BareBaseName(".");
    assert Suffix("") == "";
  }

  /** A non-empty suffix starts at the last dot. */
  lemma SuffixStart(name: string) returns (i: nat)
    requires Lower(Suffix(name)) != ""
    ensures i <= |name| && Suffix(name) == name[i..]
    ensures i <= |Lower(name)|
  {
    i := LastIndexOf(name, '.');
  }

  lemma BareNameCapturesKey(filename: string, k: nat)
    requires '/' !in filename && k < |RegexExtensions| && FileExtension(filename) == "." + RegexExtensions[k]
    ensures MatchedExtension(Lower(filename)) == Some(RegexExtensions[k])
  {
    BareExtensionIsTail(filename);
    CapturesFinalExtension(filename, RegexExtensions[k]);
  }

  /** A bare file name the backend accepts is recognised by the panel, by
      the same extension. */
  lemma AcceptedBareNameIsRecognised(filename: string)
    requires '/' !in filename && LookupIn(BackendFormats, FileExtension(filename)).Some?
    ensures MatchedExtension(Lower(filename)).Some?
    ensures "." + MatchedExtension(Lower(filename)).value == FileExtension(filename)
    ensures DetectFileFormat(filename) != "Unknown"
  {
    AcceptedKeyIsAlternative(FileExtension(filename));
    var k :| 0 <= k < |RegexExtensions| && FileExtension(filename) == "." + RegexExtensions[k];
    BareNameCapturesKey(filename, k);
  }

  /** The panel reads a name ending in `.cr2` as a Canon file. */
  lemma Cr2IsCanon(name: string)
    requires EndsWith(Lower(name), ".cr2")
    ensures DetectFileFormat(name) == "Canon"
  {
    assert RegexExtensions[0] == "cr2";
    CapturesFinalExtension(name, "cr2");
    assert PanelListings[0][0] == "cr2";
    DetectListed(name, "cr2", 0);
  }

  /** A name whose only dot is its first character has no suffix. */
  lemma LeadingDotIsNoSuffix(name: string)
    requires |name| > 0 && name[0] == '.' && '.' !in name[1..] && '/' !in name
    ensures FileExtension(name) == ""
  {
    BareBaseName(name);
    forall j | 1 <= j < |name| ensures name[j] != '.' {
      assert name[j] == name[1..][j - 1];
    }
  }

  /** A name without a suffix is rejected. */
  lemma NoSuffixRejected(filename: string, uuid: string)
    requires FileExtension(filename) == ""
    ensures ImportRawFile(filename, uuid).Err?
  {
    BackendKeysAreRegexExtensions();
    assert forall i :: 0 <= i < |BackendFormats| ==> |BackendFormats[i].0| > 0;
  }

  /** The converse fails: a hidden file called `.cr2` has no suffix for
      the backend, yet the panel reads it as a Canon file. */
  lemma HiddenRawNameDisagrees(filename: string, uuid: string)
    requires filename == ".cr2"
    ensures DetectFileFormat(filename) == "Canon"
    ensures ImportRawFile(filename, uuid).Err?
  {
    HiddenCr2Shape(filename);
    Cr2IsCanon(filename);
    LeadingDotIsNoSuffix(filename);
    NoSuffixRejected(filename, uuid);
  }

  lemma HiddenCr2Shape(filename: string)
    requires filename == ".cr2"
    ensures Lower(filename) == ".cr2"
    ensures filename[0] == '.' && '.' !in filename[1..] && '/' !in filename
  {
  }

  /** The Kelvin sign lower-cases to `k`, so a name ending in `.\u212ADC`
      is a Kodak file for the backend and a RAW file for the panel, just
      like one ending in `.KDC`. */
  lemma KelvinSignSpellsKdc(stem: string, uuid: string)
    requires |stem| > 0 && '/' !in stem
    ensures var filename := stem + "." + [KelvinSign] + "DC";
            && FileExtension(filename) == ".kdc"
            && ImportRawFile(filename, uuid) == Ok(Imported(uuid + ".kdc", "/uploads/raw/" + uuid + ".kdc", "Kodak"))
            && DetectFileFormat(filename) == "RAW"
  {
    var filename := stem + "." + [KelvinSign] + "DC";
    KelvinExtension(stem, filename);
    KdcIsKodak(filename, uuid);
    KdcShowsRaw(filename);
  }

  lemma KdcIsKodak(filename: string, uuid: string)
    requires FileExtension(filename) == ".kdc"
    ensures ImportRawFile(filename, uuid) == Ok(Imported(uuid + ".kdc", "/uploads/raw/" + uuid + ".kdc", "Kodak"))
  {
    KodakLookup();
    var r := ImportRawFile(filename, uuid);
    assert r.Ok?;
    assert r.value.rawFormat == "Kodak";
    assert r.value.storedName == uuid + ".kdc";
    assert r.value.path == "/uploads/raw/" + uuid + ".kdc";
    assert r.value == Imported(uuid + ".kdc", "/uploads/raw/" + uuid + ".kdc", "Kodak");
    assert r == Ok(r.value);
  }

  lemma KdcShowsRaw(filename: string)
    requires EndsWith(Lower(filename), ".kdc")
    ensures DetectFileFormat(filename) == "RAW"
  {
    assert UnlistedExtensions[1] == "kdc";
    UnlistedExtensionsAreRaw(filename, 1);
  }

  lemma KelvinExtension(stem: string, filename: string)
    requires |stem| > 0 && '/' !in stem && filename == stem + "." + [KelvinSign] + "DC"
    ensures FileExtension(filename) == ".kdc"
    ensures EndsWith(Lower(filename), ".kdc")
  {
    var ext := "." + [KelvinSign] + "DC";
    assert filename == stem + ext;
    NoSlashBaseName(filename);
    FinalDotSuffix(stem, ext);
    LowerKelvinExt(ext);
    LowerAppend(stem, ext);
    assert Lower(filename)[|filename| - 4..] == Lower(ext);
  }

  lemma LowerKelvinExt(ext: string)
    requires ext == "." + [KelvinSign] + "DC"
    ensures Lower(ext) == ".kdc"
  {
    assert forall i :: 0 <= i < |ext| ==> Lower(ext)[i] == LowerChar(ext[i]);
  }

  /** A name without a slash, and not a lone dot, is its own base name. */
  lemma NoSlashBaseName(p: string)
    requires |p| > 1 && '/' !in p
    ensures BaseName(p) == p
  {
    assert p[|p| - 1] != '/';
    assert LastIndexOf(p, '/') == -1;
    assert p[0..] == p;
  }

  /** The suffix of a non-empty stem followed by a dotted ending with no
      further dot is that ending. */
  lemma FinalDotSuffix(stem: string, ext: string)
    requires |stem| > 0 && |ext| >= 2 && ext[0] == '.' && '.' !in ext[1..]
    ensures Suffix(stem + ext) == ext
  {
    var p := stem + ext;
    var n := |stem|;
    assert p[n] == '.';
    assert forall j :: n < j < |p| ==> p[j] == ext[1..][j - n - 1];
    assert LastIndexOf(p, '.') == n;
    assert p[n..] == ext;
  }

  lemma KodakLookup()
    ensures LookupIn(BackendFormats, ".kdc") == Some("Kodak")
  {
    assert forall i :: 0 <= i < 12 ==> BackendFormats[i].0 != ".kdc";
    assert BackendFormats[12] == (".kdc", "Kodak");
    var t := BackendFormats;
    assert t[12..] == [t[12]] + t[13..];
    LookupSkips(t, 12, ".kdc");
  }

  /** Entries before `n` whose key is not `ext` do not change the lookup. */
  lemma {:induction false} LookupSkips(t: seq<(string, string)>, n: nat, ext: string)
    requires n <= |t| && forall i :: 0 <= i < n ==> t[i].0 != ext
    ensures LookupIn(t, ext) == LookupIn(t[n..], ext)
    decreases n
  {
    if n > 0 {
      assert t[1..][n - 1..] == t[n..];
      LookupSkips(t[1..], n - 1, ext);
    }
  }
}

=== FILE: selection_manager.dfy ===
/** `SelectionManager`: a rectangle selection dragged from a start point to
    a current point, and the inclusive point-in-rectangle test.  The canvas
    reference it stores is never read and is not modelled. */
module SelectionManager {
  import opened Wrappers

  datatype Point = Point(x: real, y: real)

  datatype Selection = Selection(selectionType: string, isSelecting: bool, start: Option<Point>, current: Option<Point>)

  /** The constructor's field initialisers. */
  const Initial: Selection := Selection("none", false, None, None)

  /** Both points are set together, and a drag in progress has them. */
  predicate Inv(s: Selection) {
    (s.start.Some? <==> s.current.Some?) && (s.isSelecting ==> s.start.Some?)
  }

  function Min(a: real, b: real): real { if a <= b then a else b }

  function Max(a: real, b: real): real { if a >= b then a else b }

  /** `v` lies between `a` and `b`, in whichever order they come. */
  predicate Between(a: real, b: real, v: real) {
    (a <= v <= b) || (b <= v <= a)
  }

  function SetSelectionType(s: Selection, t: string): (r: Selection)
    ensures GetSelectionType(r) == t
    ensures r.(selectionType := s.selectionType) == s
  {
    s.(selectionType := t)
  }

  function GetSelectionType(s: Selection): string { s.selectionType }

  /** `startSelection`: both points at (x, y). */
  function StartSelection(s: Selection, x: real, y: real): (r: Selection)
    ensures Inv(r) && r.isSelecting
    ensures r.start == r.current == Some(Point(x, y))
    ensures r.selectionType == s.selectionType
  {
    s.(isSelecting := true, start := Some(Point(x, y)), current := Some(Point(x, y)))
  }

  /** `updateSelection`: moves the current point during a drag only. */
  function UpdateSelection(s: Selection, x: real, y: real): (r: Selection)
    requires Inv(s)
    ensures Inv(r)
    ensures !s.isSelecting ==> r == s
    ensures s.isSelecting ==> r == s.(current := Some(Point(x, y)))
  {
    if !s.isSelecting then s else s.(current := Some(Point(x, y)))
  }

  /** `endSelection`: the drag stops; both points stay. */
  function EndSelection(s: Selection): (r: Selection)
    requires Inv(s)
    ensures Inv(r) && !r.isSelecting
    ensures r.start == s.start && r.current == s.current && r.selectionType == s.selectionType
  {
    s.(isSelecting := false)
  }

  /** `clearSelection`. */
  function ClearSelection(s: Selection): (r: Selection)
    ensures Inv(r) && !r.isSelecting && r.start.None? && r.current.None?
    ensures r.selectionType == s.selectionType
  {
    s.(start := None, current := None, isSelecting := false)
  }

  /** `isInSelection`: inside the closed box spanned by the two points. */
  function IsInSelection(s: Selection, x: real, y: real): (r: bool)
    ensures r ==> s.start.Some? && s.current.Some?
  {
    if s.start.None? || s.current.None? then false
    else
      var a := s.start.value;
      var b := s.current.value;
      x >= Min(a.x, b.x) && x <= Max(a.x, b.x) && y >= Min(a.y, b.y) && y <= Max(a.y, b.y)
  }

  /* ---------- Properties ---------- */

  /** The test agrees with "between the two points on each axis". */
  lemma InSelectionIffBetween(s: Selection, x: real, y: real)
    requires s.start.Some? && s.current.Some?
    ensures IsInSelection(s, x, y) <==>
              Between(s.start.value.x, s.current.value.x, x) && Between(s.start.value.y, s.current.value.y, y)
  {
  }

  /** Swapping the start and current points selects the same region. */
  lemma SelectionSymmetric(s: Selection, x: real, y: real)
    ensures IsInSelection(s.(start := s.current, current := s.start), x, y) == IsInSelection(s, x, y)
  {
  }

  /** Nothing is selected initially or after clearing. */
  lemma NothingSelectedWhenCleared(s: Selection, x: real, y: real)
    ensures !IsInSelection(Initial, x, y)
    ensures !IsInSelection(ClearSelection(s), x, y)
  {
  }

  /** The start point is selected right after starting, and exactly it. */
  lemma StartPointSelected(s: Selection, x: real, y: real, px: real, py: real)
    ensures IsInSelection(StartSelection(s, x, y), x, y)
    ensures IsInSelection(StartSelection(s, x, y), px, py) <==> px == x && py == y
  {
  }

  /** Ending a drag keeps the selected region. */
  lemma EndKeepsRegion(s: Selection, x: real, y: real)
    requires Inv(s)
    ensures IsInSelection(EndSelection(s), x, y) == IsInSelection(s, x, y)
  {
  }

  /** Changing the selection type does not change the region. */
  lemma TypeDoesNotMoveRegion(s: Selection, t: string, x: real, y: real)
    ensures IsInSelection(SetSelectionType(s, t), x, y) == IsInSelection(s, x, y)
  {
  }

  /** A drag through `pts` in order. */
  function DragThrough(s: Selection, pts: seq<Point>): (r: Selection)
    requires Inv(s)
    ensures Inv(r) && r.isSelecting == s.isSelecting && r.start == s.start
    decreases |pts|
  {
    if |pts| == 0 then s else DragThrough(UpdateSelection(s, pts[0].x, pts[0].y), pts[1..])
  }

  /** After a drag from (x, y) through `pts`, the region is the box from the
      start to the LAST point visited; the earlier points do not matter. */
  lemma {:induction false} DragSelectsToLastPoint(s: Selection, pts: seq<Point>)
    requires Inv(s) && s.isSelecting && |pts| > 0
    ensures DragThrough(s, pts).current == Some(pts[|pts| - 1])
    decreases |pts|
  {
    var s1 := UpdateSelection(s, pts[0].x, pts[0].y);
    if |pts| > 1 {
      DragSelectsToLastPoint(s1, pts[1..]);
    }
  }
}

=== FILE: strings.dfy ===
/** String helpers shared by the string rules of the model.  Case mapping
    covers every character whose case mapping is a single ASCII letter:
    the ASCII letters themselves, the Kelvin sign, which lower-cases to
    `k`, and the long s and dotless i, which upper-case to `S` and `I`.
    Other non-ASCII characters are left as they are. */
module Strings {

  /** The Kelvin sign, U+212A, which `toLowerCase` and `str.lower` both
      turn into the ASCII `k`. */
  const KelvinSign: char := '\U{212A}'

  function LowerChar(c: char): (r: char)
    ensures 'A' <= c <= 'Z' ==> r as int == c as int + 32
    ensures c == KelvinSign ==> r == 'k'
    ensures !('A' <= c <= 'Z') && c != KelvinSign ==> r == c
  {
    if 'A' <= c <= 'Z' then (c as int + 32) as char
    else if c == KelvinSign then 'k'
    else c
  }

  /** `toUpperCase` of one character: the ASCII letters, the long s (U+017F)
      and the dotless i (U+0131). */
  function UpperChar(c: char): (r: char)
    ensures 'a' <= c <= 'z' ==> r as int == c as int - 32
    ensures c == '\U{017F}' ==> r == 'S'
    ensures c == '\U{0131}' ==> r == 'I'
    ensures !('a' <= c <= 'z') && c != '\U{017F}' && c != '\U{0131}' ==> r == c
  {
    if 'a' <= c <= 'z' then (c as int - 32) as char
    else if c == '\U{017F}' then 'S'
    else if c == '\U{0131}' then 'I'
    else c
  }

  /** `toLowerCase` / `str.lower`. */
  function Lower(s: string): (r: string)
    ensures |r| == |s| && forall i :: 0 <= i < |s| ==> r[i] == LowerChar(s[i])
  {
    seq(|s|, i requires 0 <= i < |s| => LowerChar(s[i]))
  }

  /** `toUpperCase`. */
  function Upper(s: string): (r: string)
    ensures |r| == |s| && forall i :: 0 <= i < |s| ==> r[i] == UpperChar(s[i])
  {
    seq(|s|, i requires 0 <= i < |s| => UpperChar(s[i]))
  }

  /** The white space Python's `str.strip` and `int()` remove, restricted
      to ASCII: tab, line feed, vertical tab, form feed, carriage return,
      the four separators `\x1c` to `\x1f`, and the space. */
  predicate IsSpace(c: char) {
    || c == ' ' || c == '\t' || c == '\n' || c == '\r' || c == '\U{000B}' || c == '\U{000C}'
    || ('\U{001C}' <= c <= '\U{001F}')
  }

  predicate StartsWith(s: string, prefix: string) {
    |prefix| <= |s| && s[..|prefix|] == prefix
  }

  predicate EndsWith(s: string, suffix: string) {
    |suffix| <= |s| && s[|s| - |suffix|..] == suffix
  }

  /** `s.indexOf(sub) >= 0` / `sub in s`. */
  predicate Contains(s: string, sub: string)
    decreases |s|
  {
    StartsWith(s, sub) || (|s| > 0 && Contains(s[1..], sub))
  }

  /** `sep.join(parts)`. */
  function Join(parts: seq<string>, sep: string): (r: string)
    ensures |parts| == 1 ==> r == parts[0]
    ensures |parts| == 0 ==> r == ""
    decreases |parts|
  {
    if |parts| == 0 then ""
    else if |parts| == 1 then parts[0]
    else parts[0] + sep + Join(parts[1..], sep)
  }

  /* ---------- Properties ---------- */

  /** Lower-casing twice is lower-casing once. */
  lemma LowerIdempotent(s: string)
    ensures Lower(Lower(s)) == Lower(s)
  {
  }

  /** Lower-casing commutes with slicing. */
  lemma LowerSlice(s: string, i: int, j: int)
    requires 0 <= i <= j <= |s|
    ensures Lower(s[i..j]) == Lower(s)[i..j]
  {
  }

  /** Lower-casing commutes with concatenation. */
  lemma LowerAppend(a: string, b: string)
    ensures Lower(a + b) == Lower(a) + Lower(b)
  {
  }

  /** A one-character string lower-cases to a lower-case letter exactly
      when it is that letter in either case, or the Kelvin sign for `k`. */
  lemma {:induction false} LowerIsLetter(key: string, c: char)
    requires 'a' <= c <= 'z'
    ensures Lower(key) == [c] <==>
              key == [c] || key == [(c as int - 32) as char] || (c == 'k' && key == [KelvinSign])
  {
    if Lower(key) == [c] {
      assert |key| == 1 && LowerChar(key[0]) == c;
      assert key == [key[0]];
    }
    if key == [(c as int - 32) as char] {
      assert Lower(key)[0] == c;
    }
    if key == [c] {
      assert Lower(key)[0] == c;
    }
    if c == 'k' && key == [KelvinSign] {
      assert Lower(key)[0] == c;
    }
  }

  /** `Contains` finds the substring at some position. */
  lemma {:induction false} ContainsAt(s: string, sub: string)
    ensures Contains(s, sub) <==> exists i :: 0 <= i <= |s| - |sub| && StartsWith(s[i..], sub)
    decreases |s|
  {
    if StartsWith(s, sub) {
      assert s[0..] == s;
    }
    if |s| > 0 {
      ContainsAt(s[1..], sub);
      if Contains(s[1..], sub) {
        var i :| 0 <= i <= |s| - 1 - |sub| && StartsWith(s[1..][i..], sub);
        assert s[1..][i..] == s[i + 1..];
      }
      if exists i :: 0 <= i <= |s| - |sub| && StartsWith(s[i..], sub) {
        var i :| 0 <= i <= |s| - |sub| && StartsWith(s[i..], sub);
        if i > 0 {
          assert s[1..][i - 1..] == s[i..];
        }
      }
    } else {
      if exists i :: 0 <= i <= |s| - |sub| && StartsWith(s[i..], sub) {
        var i :| 0 <= i <= |s| - |sub| && StartsWith(s[i..], sub);
        assert i == 0 && s[i..] == s;
      }
    }
  }
}

=== FILE: wrappers.dfy ===
/** Option and Result values shared by every component of the model.
    `Option` stands for the source's `null`/`undefined`/`None`, `Result` for
    an operation that either returns a value or throws/raises an error. */
module Wrappers {

  datatype Option<+T> = None | Some(value: T) {
    /** The value, or `default` when absent (the source's `??`). */
    function GetOr(default: T): T {
      match this
      case Some(v) => v
      case None => default
    }
  }

  datatype Result<+T, +E> = Ok(value: T) | Err(error: E)
}
